=== FILE: README.md ===
# WealthWise personal finance: a Dafny model

This project models the logic of the WealthWise personal-finance web app:
- expenses, savings goals, monthly budgets and bank accounts;
- the dashboard and charts built from them;
- the forms that create and edit them;
- the list hooks that keep them in memory;
- the user slice of the store;
- the budget service that talks to the record API.

Everything is written as pure functions over immutable data, with the
properties the views and services promise stated as contracts and lemmas.

How the app's JavaScript is represented:
- **Objects.** JavaScript objects with string keys are association lists
  in insertion order (`Ledger.Dict`). JavaScript lists integer-like keys
  such as "2024" first, in ascending order; the model does not.
- **Sorting.** `Array.prototype.sort` is a stable insertion sort under the
  comparator's "`compare(a, b) <= 0`" reading (`Sorting.Sort`).
- **Dates.** Calendar dates are valid Gregorian triples, compared in
  calendar order (`Dates`).
- **Form fields.** A form field holds either a number or the text the user
  typed (`Forms.Input`). This matters because an `<input type="number">`
  hands back a string: `Forms.Less` reproduces JavaScript's `<` between
  strings (character by character, by character code) and between a string and a number (numeric
  conversion, `NaN` failing every comparison).
- **Parsers.** `parseFloat`, `Number` and `parseInt` are modelled for
  decimal numerals (`Text.ParseFloat`, `Text.ToNumber`, `Text.ParseInt`).
- **Budget service.** It works over an in-memory table of `budget_c`
  records in the table's order. Each reply of the record API is a
  parameter of the call that receives it. JSON is an abstract codec:
  `encode` for `JSON.stringify`, and `parse` for `JSON.parse`, which gives
  `None` where it throws.
- **Clocks.** "Now" is a parameter wherever the source reads the clock.

Behaviour worth knowing, followed from the code:
- **Deactivation reaches only one page.** Before a create, the budget
  service deactivates the active budgets among the first 100 records
  ordered by year. With more than 100 budgets, an older active one can
  survive.
- **Deactivation failures are swallowed.** If that step fails, the create
  still goes ahead, and two budgets can then be active at once
  (`BudgetService.FailedDeactivationLeavesTwoActive`).
- **Typed amounts are compared as text.** The goal form checks
  `currentAmount > targetAmount` on the strings the number inputs hand
  back, so a current amount of "50" against a target of "100" is reported
  as exceeding the target ("50" > "100" as strings) and the goal is never
  sent (`GoalForm.TypedGoalNeverSent`). `GoalForm.SubmitAsWritten` is the
  form as written; `GoalForm.Submit` compares the amounts as numbers.
- **A budget with text categories cannot be shown.** When an edited
  budget's categories arrive as text, the running total becomes a string
  and the form's `.toFixed(2)` throws (`BudgetForm.TotalShown`).

## Model

| member | source | states |
|---|---|---|
| ProgressBar.Percentage | src/components/molecules/ProgressBar.jsx:11 | the clamped percentage is value/max·100 up to the cap of 100, lies in 0..100 for a positive max and non-negative value, and is 100 for a positive value over a zero max (Infinity clamped) |
| ProgressBar.DefaultMaxShowsValue | src/components/molecules/ProgressBar.jsx:6-11 | with the default maximum of 100, the percentage is the value itself, capped at 100 |
| ProgressBar.OverBudgetAsWrittenNeverHolds | src/components/molecules/ProgressBar.jsx:12 | the over-budget flag, computed from the clamped percentage, is false for every value and max, so the red styling is unreachable |
| ProgressBar.OverBudgetMeaning | src/components/molecules/ProgressBar.jsx:11-12 | the flag on the unclamped ratio holds exactly when value exceeds a positive max, or any positive value over a zero max |
| ProgressBar.Width | src/components/molecules/ProgressBar.jsx:37 | the bar width never exceeds 100 |
| BudgetOverview.MonthName | src/components/organisms/BudgetOverview.jsx:54-59 | a month's long English name, capitalised, 3 to 9 letters |
| BudgetOverview.MonthNameInjective | src/components/organisms/BudgetOverview.jsx:54-61 | two months have the same long English name only if they are the same month |
| BudgetOverview.InCurrentMonthMeaning | src/components/organisms/BudgetOverview.jsx:57-62 | comparing month name and year is the same as being in today's calendar month |
| BudgetOverview.CurrentMonthExpenses | src/components/organisms/BudgetOverview.jsx:57-62 | the filtered list holds only expenses of the input from today's month, and every such expense |
| BudgetOverview.StandingOf | src/components/organisms/BudgetOverview.jsx:139-144 | a row reads "left" exactly when the remainder is non-negative, and shows its absolute value |
| BudgetOverview.RowFor | src/components/organisms/BudgetOverview.jsx:119-124 | a category row shows its limit, the month's spend in that category (0 when none), and spent plus remaining equals the limit |
| BudgetOverview.Rows | src/components/organisms/BudgetOverview.jsx:119-124 | the rows show the budget's entries with a non-zero limit, each as often as the budget holds it and in the budget's order, each with the spending looked up for its category |
| BudgetOverview.Show | src/components/organisms/BudgetOverview.jsx:8-120 | loading shows the skeleton, a missing budget shows the "No Budget Set" card; otherwise the overview carries the budget total (0 when missing), the usage bar of the month's spending against it, and the rows of the budget's categories against the month's per-category spending |
| BudgetOverview.SpendingByCategory | src/components/organisms/BudgetOverview.jsx:64-67 | the per-category map gives each category the sum of its amounts this month, and holds no category nobody spent on |
| BudgetOverview.Totals | src/components/organisms/BudgetOverview.jsx:69-71 | total spent is the sum of this month's amounts and of the per-category totals; remaining is the total budget (0 if missing) minus it, negative exactly when spending exceeds the budget |
| BudgetOverview.RowsShowMonthSpending | src/components/organisms/BudgetOverview.jsx:64-122 | each row shows as spent the sum of this month's amounts in its category, 0 when none; with a positive total not exceeded, the usage bar is spent/total·100 |
| BudgetOverview.RowsCoverLimits | src/components/organisms/BudgetOverview.jsx:119-120 | a category with limit exactly 0 has no row and every other entry has its row |
| BudgetOverview.RowsOnePerLimit | src/components/organisms/BudgetOverview.jsx:119-124 | with each category named once, as in an object, every category with a non-zero limit has exactly one row, and no category has two |
| BudgetOverview.UnspentCategoryRow | src/components/organisms/BudgetOverview.jsx:122-123 | a category nobody spent on shows 0 spent and its whole limit remaining |
| BudgetOverview.NoSpendingShowsZero | src/components/organisms/BudgetOverview.jsx:122 | with no expense of the category this month, the map has no entry for it |
| Dashboard.CompletionRate | src/components/pages/Dashboard.jsx:46-48 | 0 when the targets add up to at most 0; otherwise the rate times the total target is 100 times the total progress; non-negative unless the total progress is negative |
| Dashboard.CompletionRateAllReached | src/components/pages/Dashboard.jsx:46-48 | when every goal's current amount equals its target and the targets add up to more than 0, the rate is exactly 100 |
| Dashboard.Targets | src/components/pages/Dashboard.jsx:46 | one target amount per goal, in order |
| Dashboard.Progresses | src/components/pages/Dashboard.jsx:47 | one current amount per goal, in order |
| Dashboard.SpendingChange | src/components/pages/Dashboard.jsx:60-62 | the change is 0 without spending last month; otherwise the change times last month's spending is 100 times the difference, positive exactly when spending rose and negative exactly when it fell |
| Dashboard.SpendingChangeRecoversCurrent | src/components/pages/Dashboard.jsx:60-62 | applying the percentage change to last month's spending gives this month's |
| Dashboard.SpendingTrend | src/components/pages/Dashboard.jsx:101 | a rise reads negative, a fall positive, no change neutral |
| Dashboard.SpendingTrendMeaning | src/components/pages/Dashboard.jsx:50-101 | the spending card reads negative exactly when last month had spending and this month is higher, positive exactly when lower, and its caption is omitted exactly when last month had none or the two are equal |
| Dashboard.ChangeLabel | src/components/pages/Dashboard.jsx:100 | the change caption is omitted exactly when the change is 0 |
| Dashboard.Caption | src/components/pages/Dashboard.jsx:107 | "Over budget" exactly when remaining is negative; a percentage left exactly when remaining is non-negative and there is a budget, and then it is remaining/total·100 |
| Dashboard.Show | src/components/pages/Dashboard.jsx:20-108 | loading wins over an error, an error message shows the error page, and otherwise the page is shown: the completion rate of the goals, the change of this month's spending against last month's with its caption and trend, the budget caption of the remaining amount, a trend that is negative exactly when over budget, at most five recent expenses and every goal counted |
| Dashboard.ThisMonthMeaning | src/components/pages/Dashboard.jsx:32-39 | the start-of-month to end-of-month window, inclusive, holds exactly the expenses of the current calendar month |
| Dashboard.LastMonthMeaning | src/components/pages/Dashboard.jsx:51-57 | last month's window holds exactly the expenses of the month before, across a year boundary too |
| Dashboard.SameMonthAsOverview | src/components/pages/Dashboard.jsx:36-39 | the dashboard's date window and the overview's month-name test select the same expenses |
| Dashboard.RemainingBudget | src/components/pages/Dashboard.jsx:41-43 | this month's spending is the sum of its amounts and remaining is the budget total (0 without one) minus it |
| Dashboard.CompletionRateBounded | src/components/pages/Dashboard.jsx:46-48 | with every goal between 0 and its target, the completion rate is between 0 and 100 |
| Dashboard.RecentAreFirstFive | src/components/pages/Dashboard.jsx:133 | the recent list is the first five expenses in order, or all when fewer |
| GoalsList.GoalLeTotalPreorder | src/components/organisms/GoalsList.jsx:99-105 | the priority-then-deadline comparator is a total preorder, so the sort is well defined |
| GoalsList.SortedGoals | src/components/organisms/GoalsList.jsx:99 | the sorted list is a permutation of the goals |
| GoalsList.SortedGoalsOrder | src/components/organisms/GoalsList.jsx:99-105 | earlier cards never have a larger priority number, and among equal priorities never a later deadline |
| GoalsList.QuickAdd | src/components/organisms/GoalsList.jsx:22-35 | a quick add is refused exactly when it would pass the target, and otherwise reports the goal's Id with the new amount |
| GoalsList.QuickAddKeepsCap | src/components/organisms/GoalsList.jsx:23-27 | an accepted quick add never passes the target, and reaching it exactly is allowed |
| GoalsList.PriorityLabel | src/components/organisms/GoalsList.jsx:50-57 | priorities 1, 2, 3 read High, Medium, Low and any other Unknown, each in both directions |
| GoalsList.PriorityColourOf | src/components/organisms/GoalsList.jsx:41-48 | the neutral colour is used exactly for the priorities labelled Unknown |
| GoalsList.StatusOf | src/components/organisms/GoalsList.jsx:190-195 | overdue shows the absolute number of days, a completed goal "Completed!", otherwise the days left |
| GoalsList.CardOf | src/components/organisms/GoalsList.jsx:110-113 | completed means current at or above target; overdue means a negative day count and not completed; quick-add buttons only on incomplete goals |
| GoalsList.CompletedNeverOverdue | src/components/organisms/GoalsList.jsx:111-113 | a completed goal is never overdue; an incomplete one is overdue exactly when its deadline is an earlier day than today |
| GoalsList.Show | src/components/organisms/GoalsList.jsx:59-109 | loading shows the skeleton, no goals the empty state, otherwise the i-th card is the card of the i-th goal in sorted order |
| GoalsList.ShowsEveryGoalInOrder | src/components/organisms/GoalsList.jsx:99-109 | the cards show every goal exactly as often as it is listed, by priority and then by deadline |
| GoalsList.GoalAtTargetExample | src/components/organisms/GoalsList.jsx:112-113 | a goal exactly at target with a past deadline is complete, not overdue, and offers no quick add |
| GoalsList.QuickAddExample | src/components/organisms/GoalsList.jsx:23-30 | adding 50 to 180 of 200 is refused and adding 20 reaches 200 |
| ExpenseList.Visible | src/components/organisms/ExpenseList.jsx:29-48 | the visible list holds only expenses that pass the category and search filters, and every one that does |
| ExpenseList.NoFilterKeepsAll | src/components/organisms/ExpenseList.jsx:31-32 | with no category and no search term every expense is shown |
| ExpenseList.VisibleIsPermutation | src/components/organisms/ExpenseList.jsx:29-48 | sorting neither adds nor drops: the visible list is a permutation of the filtered one |
| ExpenseList.DateOrderConsistent | src/components/organisms/ExpenseList.jsx:39-40 | the newest-first comparator is a total preorder |
| ExpenseList.CategoryOrderConsistent | src/components/organisms/ExpenseList.jsx:43-44 | the category comparator is a total preorder |
| ExpenseList.ByDateNewestFirst | src/components/organisms/ExpenseList.jsx:39-40 | sorting by date puts later dates first |
| ExpenseList.ByAmountLargestFirst | src/components/organisms/ExpenseList.jsx:41-42 | sorting by amount puts larger amounts first |
| ExpenseList.ByCategoryAscending | src/components/organisms/ExpenseList.jsx:43-44 | sorting by category puts categories in ascending order |
| ExpenseList.UnknownKeyKeepsOrder | src/components/organisms/ExpenseList.jsx:45-46 | an unknown sort key keeps the filtered order |
| ExpenseList.SearchIgnoresCase | src/components/organisms/ExpenseList.jsx:32-34 | searching for a term and for its lower-case form match the same expenses |
| CategoryChart.TopCategories | src/components/organisms/CategoryChart.jsx:13-15 | exactly min(8, number of categories) slices |
| CategoryChart.Show | src/components/organisms/CategoryChart.jsx:17-20 | the donut is shown exactly when there is a slice; label i and value i are the category and total of slice i; its centre total is the sum of the values |
| CategoryChart.SortedTotals | src/components/organisms/CategoryChart.jsx:13-14 | the category totals sorted are in decreasing order with one entry per category |
| CategoryChart.SlicesAreCategoryTotals | src/components/organisms/CategoryChart.jsx:9-15 | every slice is a distinct category spent on, carrying the sum of that category's amounts |
| CategoryChart.ChartSlicesAreCategoryTotals | src/components/organisms/CategoryChart.jsx:9-20 | the donut's labels are distinct categories spent on, the value beside each is that category's sum, and the values run from largest down |
| CategoryChart.KeptAreLargest | src/components/organisms/CategoryChart.jsx:13-15 | a category left out of the top eight is no larger than any slice kept |
| CategoryChart.TotalWhenFewCategories | src/components/organisms/CategoryChart.jsx:52-55 | with eight categories or fewer the centre total is all the spending |
| CategoryChart.PlaceholderIffEmpty | src/components/organisms/CategoryChart.jsx:68 | the "No spending data" placeholder shows exactly when there are no expenses |
| SpendingChart.Window | src/components/organisms/SpendingChart.jsx:14-30 | the window's start never comes after its end |
| SpendingChart.InRange | src/components/organisms/SpendingChart.jsx:32-35 | an expense is kept exactly when its date is inside the window, as often as listed and in the list's order |
| SpendingChart.DaysOf | src/components/organisms/SpendingChart.jsx:54 | every listed day is inside the window; 'week' lists seven days ending today |
| SpendingChart.DaysOfCoverWindow | src/components/organisms/SpendingChart.jsx:14-30 | a date is among the listed days exactly when it lies in the window |
| SpendingChart.AddIfPresent | src/components/organisms/SpendingChart.jsx:64-66 | adding to the day buckets never creates a bucket |
| SpendingChart.AddAll | src/components/organisms/SpendingChart.jsx:62-67 | adding every expense keeps exactly the day buckets there were |
| SpendingChart.ChartData | src/components/organisms/SpendingChart.jsx:37-75 | label i carries value i: for '3months' the labels are the months spent in, each once, and each value is the sum of that month's amounts in the window; otherwise the labels are the window's days in order and each value is the sum of that day's amounts |
| SpendingChart.WindowMeaning | src/components/organisms/SpendingChart.jsx:14-30 | 'week' is today and the six days before, '3months' this month and the two before, any other range this month, all inclusive |
| SpendingChart.EmptyBucketsShape | src/components/organisms/SpendingChart.jsx:54-60 | one zero bucket per day of the window, no label twice |
| SpendingChart.EveryDayStartsAtZero | src/components/organisms/SpendingChart.jsx:57-60 | each day of the window starts at 0 |
| SpendingChart.AddIfPresentSum | src/components/organisms/SpendingChart.jsx:64-66 | adding to an existing bucket raises the buckets' sum by exactly the amount |
| SpendingChart.AddAllSum | src/components/organisms/SpendingChart.jsx:62-67 | when every expense has its day, the buckets gain exactly the expenses' total |
| SpendingChart.DayBucketsKeepAll | src/components/organisms/SpendingChart.jsx:53-75 | the daily series adds up to the spending in the window: no expense in the window is lost |
| SpendingChart.MonthSeries | src/components/organisms/SpendingChart.jsx:39-43 | grouping per month gives one bucket per month spent in, holding the sum of that month's amounts |
| SpendingChart.DaysOfLabelsDistinct | src/components/organisms/SpendingChart.jsx:54-60 | no two days of a day-bucketed window share a 'MMM d' label |
| SpendingChart.AddAllGet | src/components/organisms/SpendingChart.jsx:62-67 | when every expense has its day's bucket, each bucket gains exactly the amounts of its day |
| SpendingChart.DaySeries | src/components/organisms/SpendingChart.jsx:54-67 | the day buckets are the days' labels in order, each holding the sum of that day's amounts |
| SpendingChart.MonthBuckets | src/components/organisms/SpendingChart.jsx:37-51 | the three-month series has a label exactly for each month spent in, the grouping holds each month's total, and the series adds up to the window's spending |
| GoalForm.Initial | src/components/organisms/GoalForm.jsx:12-19 | a new form is empty with priority 1; an edited goal's values are loaded, with a zero target shown blank and priority 0 shown as 1 |
| GoalForm.ValidateAsWritten | src/components/organisms/GoalForm.jsx:37-66 | as written: each field's error exactly when its rule fails, the exceed test being `<` between the typed values, strings compared as strings |
| GoalForm.Validate | src/components/organisms/GoalForm.jsx:37-66 | corrected: the same rules with the exceed test on the amounts read as numbers |
| GoalForm.Check | src/components/organisms/GoalForm.jsx:37-66 | each field has an error exactly when its rule fails, the exceed message overriding the negative one |
| GoalForm.ValidatorsAgreeOnNumbers | src/components/organisms/GoalForm.jsx:52-54 | while one amount is still a number, the comparison as written and the numeric one agree |
| GoalForm.TypedAmountsCounterexample | src/components/organisms/GoalForm.jsx:52-54 | with target "100" and current "50" typed in, the form as written reports that current exceeds target, while the numeric check passes |
| GoalForm.AsWrittenRejectsTypedGoal | src/components/organisms/GoalForm.jsx:52-54 | "50" > "100" holds between strings, so the as-written check reports the exceed message |
| GoalForm.NumericAcceptsTypedGoal | src/components/organisms/GoalForm.jsx:37-66 | the corrected validator finds no error in that form |
| GoalForm.ValidNumbersRespectCap | src/components/organisms/GoalForm.jsx:44-54 | a form the corrected validator accepts has a positive target and a current amount between 0 and the target |
| GoalForm.PayloadOf | src/components/organisms/GoalForm.jsx:74-83 | the payload carries the name, deadline and category as typed, parseFloat'd amounts (current defaulting to 0), parseInt'd priority and the edited goal's Id |
| GoalForm.SubmitAsWritten | src/components/organisms/GoalForm.jsx:68-87 | as written: a form is sent exactly when the string-comparing validator finds no error, and then with its payload |
| GoalForm.Submit | src/components/organisms/GoalForm.jsx:68-87 | corrected: a form is sent exactly when the numeric validator finds no error, and then with its payload |
| GoalForm.SubmitsAgreeOnNumbers | src/components/organisms/GoalForm.jsx:52-72 | while one amount is still a number, the form as written and the corrected one submit the same |
| GoalForm.TypedGoalNeverSent | src/components/organisms/GoalForm.jsx:52-72 | the goal with target "100" and current "50" typed in is blocked as written and sent when corrected |
| GoalForm.SubmittedRespectsCap | src/components/organisms/GoalForm.jsx:44-72 | a goal the corrected form sends has a positive target and a current amount between 0 and the target |
| GoalForm.AfterSubmit | src/components/organisms/GoalForm.jsx:90-99 | only a successful create resets the form |
| GoalForm.Change | src/components/organisms/GoalForm.jsx:105-110 | the edited field shows the typed text, every other field is unchanged, and that field's error is cleared |
| GoalForm.ProgressPercentage | src/components/organisms/GoalForm.jsx:112-115 | without a target the preview reads 0; with a target, an amount that does not read as a number gives NaN |
| GoalForm.ProgressPercentageValue | src/components/organisms/GoalForm.jsx:112-115 | with a positive target the preview is current/target·100 while current does not exceed the target, and 100 once it does |
| GoalForm.PreviewBounded | src/components/organisms/GoalForm.jsx:112-115 | when the preview shows, a non-negative current amount gives a percentage between 0 and 100 |
| ExpenseForm.Initial | src/components/organisms/ExpenseForm.jsx:12-17 | a new form is blank dated today; an edited expense's values are loaded with a zero amount shown blank |
| ExpenseForm.Validate | src/components/organisms/ExpenseForm.jsx:34-55 | each field has its error, with its message, exactly when its rule fails |
| ExpenseForm.AcceptedAmountIsPositive | src/components/organisms/ExpenseForm.jsx:37-39 | an accepted form whose amount is a number has a positive amount |
| ExpenseForm.NonPositiveAmountRejected | src/components/organisms/ExpenseForm.jsx:37-39 | a zero or negative amount is rejected |
| ExpenseForm.Submit | src/components/organisms/ExpenseForm.jsx:57-75 | a form is sent exactly when it validates, with the parseFloat'd amount, the other fields, the time stamp and the edited expense's Id |
| ExpenseForm.TypedAmountSubmitted | src/components/organisms/ExpenseForm.jsx:64-69 | a typed whole amount that validates is positive and is sent as that number |
| ExpenseForm.AfterSubmit | src/components/organisms/ExpenseForm.jsx:78-85 | only a successful create resets the form to a blank one dated today |
| ExpenseForm.Change | src/components/organisms/ExpenseForm.jsx:91-96 | the edited field shows the typed text, the others are unchanged, and its error is cleared |
| BankAccountForm.OrDefault | src/components/organisms/BankAccountForm.jsx:26-32 | a missing or empty value gives the default, any other is kept |
| BankAccountForm.Load | src/components/organisms/BankAccountForm.jsx:23-35 | without an account the form is the blank one; an account's name, bank name and account number are loaded (empty when missing), its type and currency with Checking and USD as defaults, and its balance as text |
| BankAccountForm.Validate | src/components/organisms/BankAccountForm.jsx:61-82 | each name field has an error exactly when blank, the balance exactly when non-empty and not a number; type, currency and tags never |
| BankAccountForm.Errors | src/components/organisms/BankAccountForm.jsx:61-82 | the error map holds a field exactly when its rule failed, only the four checked fields can appear, and the balance error carries its message |
| BankAccountForm.ValidateMeaning | src/components/organisms/BankAccountForm.jsx:61-82 | the form is valid exactly when the three names are non-blank and the balance is empty or a number |
| BankAccountForm.LoadedAccountPasses | src/components/organisms/BankAccountForm.jsx:23-82 | an account with its three names and a balance whose text reads back is accepted as loaded |
| BankAccountForm.Change | src/components/organisms/BankAccountForm.jsx:51-59 | the edited field shows the typed text, the others are unchanged, and its error is cleared |
| BankAccountForm.Submit | src/components/organisms/BankAccountForm.jsx:84-100 | the form data is sent unchanged exactly when it validates, and the submitting flag is raised exactly then |
| BudgetForm.DefaultCategories | src/components/organisms/BudgetForm.jsx:13-24 | the ten default categories in order, each at 0 |
| BudgetForm.Initial | src/components/organisms/BudgetForm.jsx:11-31 | a new form holds this month, this year and the defaults; an edited budget's values are kept where present |
| BudgetForm.ChangeCategory | src/components/organisms/BudgetForm.jsx:33-41 | month and year stay; the category keeps its place or is appended |
| BudgetForm.ChangeCategoryGet | src/components/organisms/BudgetForm.jsx:33-41 | the changed category reads the parsed value (0 when not a number), every other category is unchanged |
| BudgetForm.ChangeCategoryTotal | src/components/organisms/BudgetForm.jsx:38-44 | the total changes by the new value minus the category's old one |
| BudgetForm.ParseItemsGet | src/components/organisms/BudgetForm.jsx:59-66 | a category read from text has the amount of its last well-formed piece |
| BudgetForm.ParseItemsUnique | src/components/organisms/BudgetForm.jsx:59-66 | categories read from text have no name twice |
| BudgetForm.PieceWithoutColon | src/components/organisms/BudgetForm.jsx:61-62 | a piece without a colon is skipped |
| BudgetForm.PieceRoundTrip | src/components/organisms/BudgetForm.jsx:61-63 | "name:amount" reads back as the trimmed name with the parsed amount |
| BudgetForm.ParseJoined | src/components/organisms/BudgetForm.jsx:60 | comma-joined pieces are read one by one |
| BudgetForm.TotalShown | src/components/organisms/BudgetForm.jsx:121 | the total shows exactly when the categories are an object or empty text, and then it is the sum of their amounts; otherwise `toFixed` throws |
| BudgetForm.SubmitAsWritten | src/components/organisms/BudgetForm.jsx:43-75 | as written: the budget is sent exactly when the reduced total is not at most 0, carrying that total |
| BudgetForm.Submit | src/components/organisms/BudgetForm.jsx:47-75 | corrected: sent exactly when the formatted categories add up to more than 0, with that sum as total, active and with the edited Id |
| BudgetForm.SubmitAgreesOnObjects | src/components/organisms/BudgetForm.jsx:43-67 | for categories held as an object, both submissions agree |
| BudgetForm.DefaultFormRejected | src/components/organisms/BudgetForm.jsx:50-55 | a form left at the defaults is refused |
| BudgetForm.PieceParses | src/components/organisms/BudgetForm.jsx:59-66 | "name:n" reads back as the single category name with amount n |
| BudgetForm.PaddedPieceNotANumber | src/components/organisms/BudgetForm.jsx:44 | "0" followed by "name:n" is not a number |
| BudgetForm.EncodedTotalAsWritten | src/components/organisms/BudgetForm.jsx:43-75 | categories held as text "name:n" total the string "0name:n", which the `<= 0` gate lets through even for n = 0, and which the form cannot show |
| BudgetForm.EncodedTotalCorrected | src/components/organisms/BudgetForm.jsx:43-75 | corrected, that form totals the number n and is sent exactly when n > 0, with the one category and n as total |
| BankAccountList.TotalBalanceAppend | src/components/organisms/BankAccountList.jsx:168-171 | the total over two lists is the sum of their totals |
| BankAccountList.TotalIsSumOfStated | src/components/organisms/BankAccountList.jsx:168-171 | the total is the sum of the balances the accounts state, taken in order; a missing one counts 0 |
| BankAccountList.LastFour | src/components/organisms/BankAccountList.jsx:138 | the last four characters, or the whole of a shorter string |
| BankAccountList.Masked | src/components/organisms/BankAccountList.jsx:138 | four stars then the number's last four characters, or "****0000" without a number |
| BankAccountList.MaskShowsOnlyLastFour | src/components/organisms/BankAccountList.jsx:138 | two numbers ending alike mask alike, and the mask is eight characters |
| BankAccountList.Chips | src/components/organisms/BankAccountList.jsx:142-152 | no chips without tags; otherwise one trimmed chip per comma-separated piece |
| BankAccountList.ChipsRoundTrip | src/components/organisms/BankAccountList.jsx:142-152 | trimmed names joined with commas come back as the same chips in order |
| BankAccountList.IconOf | src/components/organisms/BankAccountList.jsx:17-30 | the piggy bank exactly for Savings, the falling trend exactly for Loan |
| BankAccountList.ColourOf | src/components/organisms/BankAccountList.jsx:32-45 | the neutral colour exactly for a missing or unknown type |
| BankAccountList.KnownColoursDistinct | src/components/organisms/BankAccountList.jsx:32-45 | each known type has a colour of its own |
| BankAccountList.CardOf | src/components/organisms/BankAccountList.jsx:73-152 | a card shows the account's Id, its balance or 0, its masked number and its chips |
| BankAccountList.Show | src/components/organisms/BankAccountList.jsx:47-73 | the empty state exactly without accounts; otherwise one card per account in order, and the total |
| ListHooks.Loaded | src/hooks/useExpenses.js:9-20 | loading ends; a fetched list replaces the items and clears the error, a failure keeps them and records the error |
| ListHooks.Added | src/hooks/useExpenses.js:26-30 | a created item is placed at the front or the end; a failed create changes nothing |
| ListHooks.Updated | src/hooks/useExpenses.js:32-38 | an accepted update replaces exactly the items with the parsed Id; a failure changes nothing |
| ListHooks.Deleted | src/hooks/useExpenses.js:40-43 | an accepted delete keeps every item without the parsed Id as often as it was there, in its order, and no item with it; a failure changes nothing |
| ListHooks.AddThenDelete | src/hooks/useExpenses.js:26-43 | deleting a just-added item with a fresh Id restores the collection |
| ListHooks.UpdateIdempotent | src/hooks/useExpenses.js:32-38 | applying the same update twice is applying it once |
| ListHooks.DeleteRemovesEvery | src/hooks/useExpenses.js:40-43 | after a delete no item carries the Id |
| ExpenseHook.Load | src/hooks/useExpenses.js:9-20 | a load replaces the expenses and clears the error, or keeps them with "Failed to load expenses" |
| ExpenseHook.Add | src/hooks/useExpenses.js:26-30 | a new expense goes to the front |
| ExpenseHook.Update | src/hooks/useExpenses.js:32-38 | the expense with Id parseInt(id) is replaced, all others kept |
| ExpenseHook.Delete | src/hooks/useExpenses.js:40-43 | exactly the expenses with Id parseInt(id) are removed; the others stay, as often and in the order they were |
| GoalHook.Load | src/hooks/useGoals.js:9-20 | a load replaces the goals and clears the error, or keeps them with "Failed to load goals" |
| GoalHook.Add | src/hooks/useGoals.js:26-30 | a new goal goes to the end |
| GoalHook.Update | src/hooks/useGoals.js:32-51 | an update or progress update replaces the goal with Id parseInt(id), all others kept |
| GoalHook.Delete | src/hooks/useGoals.js:40-43 | exactly the goals with Id parseInt(id) are removed; the others stay, as often and in the order they were |
| BankAccountHook.Fetch | src/hooks/useBankAccounts.js:10-23 | a fetch replaces the accounts and clears the error, or keeps them with the rejection's message |
| BankAccountHook.ErrorAfter | src/hooks/useBankAccounts.js:25-38 | the error is set exactly when the call failed, to its message |
| BankAccountHook.Create | src/hooks/useBankAccounts.js:25-38 | a new account goes to the end; a failure keeps the list, records its message and is rethrown |
| BankAccountHook.Update | src/hooks/useBankAccounts.js:40-55 | the account with Id parseInt(id) is replaced; a failure keeps the list, records and rethrows |
| BankAccountHook.Delete | src/hooks/useBankAccounts.js:57-69 | exactly the accounts with that Id are removed, the others staying as often and in the order they were; a failure keeps the list, records and rethrows |
| BudgetHook.Load | src/hooks/useBudget.js:10-25 | both reads succeeding set the current budget and the list; either failing keeps both with "Failed to load budget" |
| BudgetHook.Create | src/hooks/useBudget.js:31-36 | the new budget becomes current and is appended, the earlier list kept as its prefix |
| BudgetHook.Update | src/hooks/useBudget.js:38-43 | the updated budget becomes current and replaces the one with Id parseInt(id) |
| BudgetHook.Delete | src/hooks/useBudget.js:45-51 | the budgets with that Id leave the list, the others staying as often and in the order they were, and the current one is cleared exactly when it has that Id |
| UserSlice.SetUser | src/store/userSlice.js:12-15 | the payload is stored and the user is authenticated exactly when there is one |
| UserSlice.UpdateProfile | src/store/userSlice.js:16-24 | without a user nothing changes; otherwise the payload's properties override and all others stay |
| UserSlice.ClearUser | src/store/userSlice.js:25-28 | no user and not authenticated |
| UserSlice.UpdateProfileIdempotent | src/store/userSlice.js:16-24 | merging the same profile twice is merging it once |
| UserSlice.ClearThenSet | src/store/userSlice.js:3-28 | clearing returns to the initial state, after which setUser does not depend on the earlier state |
| UserSlice.UpdateNeverSignsIn | src/store/userSlice.js:16-24 | a profile update never signs a signed-out store in, and leaves the initial state as it is |
| BudgetService.DecodeCategories | src/services/api/budgetService.js:31-41 | missing or empty text and unparsable text read as the empty object, otherwise the parsed object |
| BudgetService.DecodeReturned | src/services/api/budgetService.js:175-182 | a created record's categories are its text parsed, or "{}" parsed when the text is empty |
| BudgetService.Decode | src/services/api/budgetService.js:31-41 | the raw record is kept alongside its categories |
| BudgetService.Page | src/services/api/budgetService.js:21-22 | at most 100 records, and the whole table when it has no more |
| BudgetService.YearOrderConsistent | src/services/api/budgetService.js:21 | descending `year_c` is a total preorder |
| BudgetService.PageNewestFirst | src/services/api/budgetService.js:21-22 | the page is in descending year order, and every record left off it is no newer than any record on it |
| BudgetService.GetAll | src/services/api/budgetService.js:4-46 | a failed response rejects with its message; otherwise one decoded record per record of the page, in order |
| BudgetService.FirstWhere | src/services/api/budgetService.js:118-122 | a record is found exactly when one satisfies the test, and it is one of the table's and satisfies it |
| BudgetService.GetById | src/services/api/budgetService.js:48-89 | a failed response rejects; otherwise the result is found exactly when a record has Id parseInt(id), is that record with its categories decoded, and rejects when there is none |
| BudgetService.GetByIdFindsRecord | src/services/api/budgetService.js:67-84 | with unique Ids, asking for a record's Id returns that record |
| BudgetService.FirstWhereAt | src/services/api/budgetService.js:118-122 | the first record satisfying the test is the one found |
| BudgetService.GetActive | src/services/api/budgetService.js:91-138 | a failed response rejects; otherwise null exactly when no record is active, else the first active record |
| BudgetService.ClearActive | src/services/api/budgetService.js:289-296 | the listed records become inactive and nothing else changes |
| BudgetService.Deactivate | src/services/api/budgetService.js:277-301 | a failed read or an unapplied update leaves the table as it was; otherwise the page's active records are cleared |
| BudgetService.DeactivateAll | src/services/api/budgetService.js:277-301 | with the whole table in one page, every record is inactive afterwards and only the flags changed |
| BudgetService.BudgetName | src/services/api/budgetService.js:153 | the name is the month followed by " year Budget" |
| BudgetService.Written | src/services/api/budgetService.js:151-160 | the written record carries the name, month, year, encoded categories, parseFloat'd total and the active flag |
| BudgetService.Failure | src/services/api/budgetService.js:164-186 | a usable result exactly when the first result succeeded; otherwise the response's message, the result's message or its fallback, or "no result" |
| BudgetService.Create | src/services/api/budgetService.js:140-191 | deactivation first whatever the reply; an accepted reply appends one active record and returns it with its categories decoded, any other rejects |
| BudgetService.Update | src/services/api/budgetService.js:193-242 | an accepted reply rewrites the record with Id parseInt(id), active unless the input says otherwise; a rejected one changes nothing |
| BudgetService.Delete | src/services/api/budgetService.js:244-275 | success, including a reply without results, removes the record; a failure keeps the table and rejects |
| BudgetService.DeleteThenGetById | src/services/api/budgetService.js:48-89 | after an accepted delete, reading the Id back rejects as missing, and every other record is still there, as often and in the order it was |
| BudgetService.DeleteActiveLeavesNoneActive | src/services/api/budgetService.js:91-138 | deleting the only active budget makes `getActive` resolve to null |
| BudgetService.CreateLeavesOneActive | src/services/api/budgetService.js:140-160 | with the table in one page and deactivation applied, exactly one budget is active after a create, the new one, and it is the first active |
| BudgetService.FailedDeactivationLeavesTwoActive | src/services/api/budgetService.js:277-301 | when the read for deactivation fails, an active budget stays active beside the new one |
| BudgetService.UpdateTouchesOne | src/services/api/budgetService.js:201-210 | an update leaves every record with another Id, and its active flag, untouched |
| BudgetService.CreateThenRead | src/services/api/budgetService.js:156-183 | with a codec that reads back what it writes, a created budget carries its categories, and reading the record back gives them too |

## Left out

- Rendering, CSS classes, icons, toasts, `console` logging and `window.confirm` are not modelled. Only what the views compute and show is.
- Number formatting is not modelled: `toFixed`, `Intl.NumberFormat` and `date-fns` `format` become labels or plain values.
- Floating-point arithmetic is exact real arithmetic. Rounding and overflow of IEEE doubles are left out. Only the `Infinity` and `NaN` outcomes of a division by 0 are kept, in the progress bar.
- `parseFloat` and `Number` read decimal numerals only. Exponents, `Infinity` and hexadecimal are left out.
- Time zones are left out. `new Date('yyyy-MM-dd')` reads a UTC midnight while `startOfMonth`, `getMonth` and `toLocaleString` work in local time, so west of UTC an expense dated on the 1st can fall in the previous month (src/components/pages/Dashboard.jsx:36-39, src/components/organisms/BudgetOverview.jsx:57-61). The model reads every date as a local calendar date.
- `toLocaleString('default', { month: 'long' })` is taken to give the English month names.
- Ledger.Dict: objects are modelled in insertion order. JavaScript lists integer-like keys first, in ascending order, so a category named like "2024" would move to the front of the budget rows, the form's categories and the chart's groups.
- `toLowerCase` lowers the ASCII letters only.
- `localeCompare` is taken to be plain character-code order, without locale collation.
- Strings are sequences of Unicode characters. JavaScript's `<` compares UTF-16 code units, which orders characters outside the Basic Multilingual Plane differently. That ordering difference is not modelled.
- `trim` strips the ASCII white space and the no-break space. The other Unicode space characters and line terminators are left out.
- `parseInt` reads decimal digits only. A "0x" prefix, which JavaScript reads as hexadecimal (`parseInt("0x1A")` is 26), is left out.
- The components' local state (`useState`, `useEffect`) is modelled as explicit state passed in and returned. The `isSubmitting` flag of the bank-account form is only the value returned by `BankAccountForm.Submit`.
- Promise interleavings are not modelled. Each hook call completes before the next starts, and `Promise.all` in the budget hook is two results given together.
- BankAccountForm.Load: when `account` becomes `null` the effect does nothing, so the form keeps its old values. The model loads the blank form only for a first mount without an account.
- BudgetForm.ChangeCategory: requires the categories to be an object. Spreading a string into an object, which the code would do for text-held categories, is not modelled.
- UserSlice.SetUser: the `JSON.parse(JSON.stringify(...))` deep copy is the identity on the map model. Values JSON cannot hold are not modelled.
- BudgetService.Deactivate: the bulk update is all-or-nothing. A partial application by the server is not modelled.
- BudgetService.GetActive: with several active records, the server's choice is taken to be the first in table order.
- BudgetService.Page: ties in `year_c` keep table order, and records without a `year_c` are placed last. The server's order for ties and for nulls in a descending sort is unknown.
- The `_c` field names the service returns are not reconciled with the plain names the views read (`totalBudget`, `categories`). The views are modelled over `Records` with plain fields.
- The record API, the network, and the environment keys of `ApperClient` are left out. Each call's outcome is a parameter.
- The user profile page, the goal, expense and bank-account services, and the navigation components are not part of this model.

## Findings

| source | as written | input that shows it | evidently intended | confidence | as-written member | corrected member |
|---|---|---|---|---|---|---|
| src/components/organisms/GoalForm.jsx:52-54 | `currentAmount > targetAmount` compares the typed strings | target "100", current "50" typed into the number inputs: "50" > "100" as strings | compare the amounts as numbers, so that the goal is sent | medium, not executed | GoalForm.TypedGoalNeverSent | GoalForm.SubmittedRespectsCap |
| src/components/molecules/ProgressBar.jsx:11-12 | `isOverBudget` tests the percentage after it was clamped to 100 | value 150, max 100: percentage 100, flag false | flag spending above the maximum | high, not executed | ProgressBar.OverBudgetAsWrittenNeverHolds | ProgressBar.OverBudgetMeaning |
| src/components/organisms/BudgetForm.jsx:43-75 | the total is reduced over `Object.values` of the categories before they are formatted, so categories held as text give the string "0" + text | edited budget whose categories are the text "Food:0": the total "0Food:0" makes the `.toFixed(2)` at line 121 throw a TypeError, so the form cannot be shown or edited; inside `handleSubmit` the same string would pass the `<= 0` gate | total the formatted categories | low, not executed | BudgetForm.EncodedTotalAsWritten | BudgetForm.EncodedTotalCorrected |

=== FILE: bank_account_form.dfy ===
/** The bank-account form: every field is text; an edited account's stored
    values are loaded with defaults, the validator requires the three names
    and a readable balance, and the form itself is what `onSave` receives. */
module BankAccountForm {
  import opened Wrappers
  import opened Text
  import opened Forms
  import opened Records

  datatype Field = AccountName | BankName | AccountNumber | AccountType | Currency | Balance | Tags

  datatype FormData = FormData(
    name: string,
    bankName: string,
    accountNumber: string,
    accountType: string,
    currency: string,
    balance: string,
    tags: string)

  const DefaultType: string := "Checking"
  const DefaultCurrency: string := "USD"

  const NameMessage: string := "Account name is required"
  const BankMessage: string := "Bank name is required"
  const NumberMessage: string := "Account number is required"
  const BalanceMessage: string := "Balance must be a valid number"

  /** A new account's form. */
  const Empty: FormData := FormData("", "", "", DefaultType, DefaultCurrency, "", "")

  /** `value || d` on a stored string that may be missing. */
  function OrDefault(o: Option<string>, d: string): (r: string)
    ensures o.Some? && o.value != "" ==> r == o.value
    ensures o.None? || o.value == "" ==> r == d
  {
    if o.Some? && o.value != "" then o.value else d
  }

  /** The form once the `account` effect has run: an edited account's
      values with their defaults, or the new-account form.
      `numberText` is JavaScript's `toString` on the balance. */
  function Load(account: Option<BankAccount>, numberText: real -> string): (f: FormData)
    ensures account.None? ==> f == Empty
    ensures account.Some? ==> f.name == OrDefault(account.value.name, "")
    ensures account.Some? ==> f.bankName == OrDefault(account.value.bankName, "")
    ensures account.Some? ==> f.accountNumber == OrDefault(account.value.accountNumber, "")
    ensures account.Some? ==> f.accountType == OrDefault(account.value.accountType, DefaultType)
    ensures account.Some? ==> f.currency == OrDefault(account.value.currency, DefaultCurrency)
    ensures account.Some? && account.value.balance.None? ==> f.balance == ""
    ensures account.Some? && account.value.balance.Some? ==> f.balance == numberText(account.value.balance.value)
    ensures account.Some? ==> f.tags == OrDefault(account.value.tags, "")
  {
    match account
    case None => Empty
    case Some(a) =>
      FormData(
        OrDefault(a.name, ""),
        OrDefault(a.bankName, ""),
        OrDefault(a.accountNumber, ""),
        OrDefault(a.accountType, DefaultType),
        OrDefault(a.currency, DefaultCurrency),
        match a.balance
        case Some(x) => numberText(x)
        case None => "",
        OrDefault(a.tags, ""))
  }

  /** The error map from the outcome of each rule, in the order the rules
      are checked. */
  function Errors(nameBlank: bool, bankBlank: bool, numberBlank: bool, balanceBad: bool): (errors: map<Field, string>)
    ensures AccountName in errors <==> nameBlank
    ensures BankName in errors <==> bankBlank
    ensures AccountNumber in errors <==> numberBlank
    ensures Balance in errors <==> balanceBad
    ensures AccountType !in errors && Currency !in errors && Tags !in errors
    ensures Balance in errors ==> errors[Balance] == BalanceMessage
  {
    var e0: map<Field, string> := map[];
    var e1 := if nameBlank then e0[AccountName := NameMessage] else e0;
    var e2 := if bankBlank then e1[BankName := BankMessage] else e1;
    var e3 := if numberBlank then e2[AccountNumber := NumberMessage] else e2;
    if balanceBad then e3[Balance := BalanceMessage] else e3
  }

  /** `validateForm`: the three names must be non-blank, and a balance,
      when given, must start with a number `parseFloat` can read. */
  function Validate(f: FormData): (errors: map<Field, string>)
    ensures AccountName in errors <==> IsBlank(f.name)
    ensures BankName in errors <==> IsBlank(f.bankName)
    ensures AccountNumber in errors <==> IsBlank(f.accountNumber)
    ensures Balance in errors <==> f.balance != "" && ParseFloat(f.balance).None?
    ensures AccountType !in errors && Currency !in errors && Tags !in errors
    ensures Balance in errors ==> errors[Balance] == BalanceMessage
  {
    Errors(IsBlank(f.name), IsBlank(f.bankName), IsBlank(f.accountNumber),
      f.balance != "" && ParseFloat(f.balance).None?)
  }

  /** The form passes exactly when the names are given and the balance is
      empty or readable. */
  lemma ValidateMeaning(f: FormData)
    ensures NoErrors(Validate(f)) <==>
      !IsBlank(f.name) && !IsBlank(f.bankName) && !IsBlank(f.accountNumber)
      && (f.balance == "" || ParseFloat(f.balance).Some?)
  {
    var e := Validate(f);
    if !IsBlank(f.name) && !IsBlank(f.bankName) && !IsBlank(f.accountNumber)
       && (f.balance == "" || ParseFloat(f.balance).Some?) {
      forall fld: Field ensures fld !in e {
        match fld
        case AccountName =>
        case BankName =>
        case AccountNumber =>
        case AccountType =>
        case Currency =>
        case Balance =>
        case Tags =>
      }
      assert e.Keys == {};
    }
  }

  /** An account loaded for editing passes validation again unchanged when
      its names are present and its balance prints as something
      `parseFloat` reads back. */
  lemma LoadedAccountPasses(a: BankAccount, numberText: real -> string)
    requires a.name.Some? && !IsBlank(a.name.value)
    requires a.bankName.Some? && !IsBlank(a.bankName.value)
    requires a.accountNumber.Some? && !IsBlank(a.accountNumber.value)
    requires a.balance.Some? ==> ParseFloat(numberText(a.balance.value)) == Some(a.balance.value)
    ensures NoErrors(Validate(Load(Some(a), numberText)))
  {
    var f := Load(Some(a), numberText);
    assert f.name == a.name.value by { assert a.name.value != ""; }
    assert f.bankName == a.bankName.value by { assert a.bankName.value != ""; }
    assert f.accountNumber == a.accountNumber.value by { assert a.accountNumber.value != ""; }
    ValidateMeaning(f);
  }

  /** The form as text, field by field. */
  function Shown(f: FormData, field: Field): string {
    match field
    case AccountName => f.name
    case BankName => f.bankName
    case AccountNumber => f.accountNumber
    case AccountType => f.accountType
    case Currency => f.currency
    case Balance => f.balance
    case Tags => f.tags
  }

  /** `handleChange` for the input named `field`: it shows the text, the
      others are untouched, and its error is blanked. */
  function Change(f: FormData, errors: map<Field, string>, field: Field, value: string): (r: (FormData, map<Field, string>))
    ensures Shown(r.0, field) == value
    ensures forall other: Field :: other != field ==> Shown(r.0, other) == Shown(f, other)
    ensures r.1 == ClearError(errors, field)
  {
    var g := match field
      case AccountName => f.(name := value)
      case BankName => f.(bankName := value)
      case AccountNumber => f.(accountNumber := value)
      case AccountType => f.(accountType := value)
      case Currency => f.(currency := value)
      case Balance => f.(balance := value)
      case Tags => f.(tags := value);
    (g, ClearError(errors, field))
  }

  /** `handleSubmit`: a valid form is handed to `onSave` as it stands, and
      the buttons are disabled while that call is pending. */
  function Submit(f: FormData): (r: (Submission<FormData>, bool))
    ensures r.0.Submitted? <==> NoErrors(Validate(f))
    ensures r.0.Submitted? ==> r.0.payload == f
    ensures r.1 <==> r.0.Submitted?
  {
    if NoErrors(Validate(f)) then (Submitted(f), true) else (Blocked, false)
  }
}

=== FILE: bank_account_list.dfy ===
/** The bank-account list: the total balance, the masked account number,
    the tag chips, and the icon and colour of each account type. */
module BankAccountList {
  import opened Wrappers
  import opened Text
  import opened Ledger
  import opened Records

  // ---------------------------------------------------------------------------
  // Total balance
  // ---------------------------------------------------------------------------

  /** `balance || 0`: a missing balance counts as 0. */
  function BalanceOf(a: BankAccount): real {
    a.balance.GetOr(0.0)
  }

  /** `accounts.reduce((sum, a) => sum + (a.balance || 0), 0)`. */
  function TotalBalance(accounts: seq<BankAccount>): real {
    if accounts == [] then 0.0
    else TotalBalance(accounts[..|accounts| - 1]) + BalanceOf(accounts[|accounts| - 1])
  }

  /** The total over two lists of accounts is the sum of their totals. */
  lemma {:induction false} TotalBalanceAppend(a: seq<BankAccount>, b: seq<BankAccount>)
    ensures TotalBalance(a + b) == TotalBalance(a) + TotalBalance(b)
    decreases |b|
  {
    if b != [] {
      var b' := b[..|b| - 1];
      assert (a + b)[..|a + b| - 1] == a + b';
      assert (a + b)[|a + b| - 1] == b[|b| - 1];
      TotalBalanceAppend(a, b');
    } else {
      assert a + b == a;
    }
  }

  /** Only the stated balances count: the total is the sum of the balances
      of the accounts that have one. */
  function StatedBalances(accounts: seq<BankAccount>): (r: seq<real>)
    ensures |r| <= |accounts|
  {
    if accounts == [] then []
    else
      var last := accounts[|accounts| - 1];
      StatedBalances(accounts[..|accounts| - 1]) + (if last.balance.Some? then [last.balance.value] else [])
  }

  lemma {:induction false} TotalIsSumOfStated(accounts: seq<BankAccount>)
    ensures TotalBalance(accounts) == Sum(StatedBalances(accounts))
    decreases |accounts|
  {
    if accounts != [] {
      var init := accounts[..|accounts| - 1];
      var last := accounts[|accounts| - 1];
      TotalIsSumOfStated(init);
      if last.balance.Some? {
        SumSnoc(StatedBalances(init), last.balance.value);
      } else {
        assert StatedBalances(accounts) == StatedBalances(init) + [];
        assert StatedBalances(init) + [] == StatedBalances(init);
      }
    }
  }

  // ---------------------------------------------------------------------------
  // Masked account number
  // ---------------------------------------------------------------------------

  /** `s.slice(-4)`: the last four characters, or all of a shorter string. */
  function LastFour(s: string): (r: string)
    ensures |r| == if |s| < 4 then |s| else 4
    ensures r == s[|s| - |r|..]
  {
    if |s| < 4 then s else s[|s| - 4..]
  }

  /** `****{number?.slice(-4) || '0000'}`. */
  function Masked(number: Option<string>): (r: string)
    ensures number.Some? && number.value != "" ==> r == "****" + LastFour(number.value)
    ensures number.None? || number.value == "" ==> r == "****0000"
  {
    if number.Some? && number.value != "" then "****" + LastFour(number.value) else "****0000"
  }

  /** The mask shows at most four characters of the number, all from its
      end: two numbers with the same last four characters look alike. */
  lemma MaskShowsOnlyLastFour(s: string, t: string)
    requires |s| >= 4 && |t| >= 4
    requires s[|s| - 4..] == t[|t| - 4..]
    ensures Masked(Some(s)) == Masked(Some(t))
    ensures |Masked(Some(s))| == 8
  {
    assert s != [] && t != [];
  }

  // ---------------------------------------------------------------------------
  // Tags
  // ---------------------------------------------------------------------------

  /** `account.Tags && Tags.split(',').map(t => t.trim())`: no chips when the
      tags are missing or empty. */
  function Chips(tags: Option<string>): (r: seq<string>)
    ensures tags.None? || tags.value == "" ==> r == []
    ensures tags.Some? && tags.value != "" ==> |r| == Count(tags.value, ',') + 1
    ensures tags.Some? && tags.value != "" ==>
      forall i :: 0 <= i < |r| ==> r[i] == Trim(Split(tags.value, ',')[i])
  {
    if tags.None? || tags.value == "" then []
    else
      var pieces := Split(tags.value, ',');
      seq(|pieces|, i requires 0 <= i < |pieces| => Trim(pieces[i]))
  }

  /** Pieces with no padding come out of the chips unchanged. */
  lemma ChipsOfUnpadded(t: string, names: seq<string>)
    requires t != [] && Split(t, ',') == names
    requires forall i :: 0 <= i < |names| ==> names[i] != [] && !IsSpace(names[i][0]) && !IsSpace(names[i][|names[i]| - 1])
    ensures Chips(Some(t)) == names
  {
    var r := Chips(Some(t));
    forall i | 0 <= i < |names|
      ensures r[i] == names[i]
    {
      TrimUnpadded(names[i]);
    }
  }

  /** A join starts with its first piece, so it is empty only if that is. */
  lemma JoinStartsWithFirst(parts: seq<string>, sep: char)
    requires |parts| >= 1
    ensures |Join(parts, sep)| >= |parts[0]|
  {
  }

  /** Tags written as a comma-separated list of trimmed names come back as
      those names, in order. */
  lemma ChipsRoundTrip(names: seq<string>)
    requires |names| >= 1
    requires forall i :: 0 <= i < |names| ==> ',' !in names[i]
    requires forall i :: 0 <= i < |names| ==> names[i] != [] && !IsSpace(names[i][0]) && !IsSpace(names[i][|names[i]| - 1])
    ensures Chips(Some(Join(names, ','))) == names
  {
    SplitJoin(names, ',');
    JoinStartsWithFirst(names, ',');
    ChipsOfUnpadded(Join(names, ','), names);
  }

  // ---------------------------------------------------------------------------
  // Account types
  // ---------------------------------------------------------------------------

  datatype Icon = CreditCard | PiggyBank | TrendingDown

  /** `getAccountTypeIcon`. */
  function IconOf(accountType: Option<string>): (r: Icon)
    ensures r == PiggyBank <==> accountType == Some("Savings")
    ensures r == TrendingDown <==> accountType == Some("Loan")
  {
    if accountType == Some("Savings") then PiggyBank
    else if accountType == Some("Loan") then TrendingDown
    else CreditCard
  }

  datatype Colour = Blue | Green | Purple | Orange | Slate

  const KnownTypes: seq<string> := ["Checking", "Savings", "Credit Card", "Loan"]

  /** `getAccountTypeColor`: one colour per known type, slate for any other
      or a missing one. */
  function ColourOf(accountType: Option<string>): (r: Colour)
    ensures r == Slate <==> accountType.None? || accountType.value !in KnownTypes
  {
    match accountType
    case Some("Checking") => Blue
    case Some("Savings") => Green
    case Some("Credit Card") => Purple
    case Some("Loan") => Orange
    case _ => Slate
  }

  /** Each known type has a colour of its own. */
  lemma KnownColoursDistinct(i: int, j: int)
    requires 0 <= i < |KnownTypes| && 0 <= j < |KnownTypes|
    ensures ColourOf(Some(KnownTypes[i])) == ColourOf(Some(KnownTypes[j])) <==> i == j
  {
  }

  // ---------------------------------------------------------------------------
  // The list
  // ---------------------------------------------------------------------------

  datatype Card = Card(
    id: int,
    name: Option<string>,
    bankName: Option<string>,
    balance: real,
    currency: string,
    icon: Icon,
    colour: Colour,
    number: string,
    chips: seq<string>)

  /** What one account's card shows; the currency defaults to USD. */
  function CardOf(a: BankAccount): (c: Card)
    ensures c.id == a.id && c.balance == BalanceOf(a)
    ensures c.number == Masked(a.accountNumber) && c.chips == Chips(a.tags)
  {
    Card(a.id, a.name, a.bankName, BalanceOf(a), a.currency.GetOr("USD"),
      IconOf(a.accountType), ColourOf(a.accountType), Masked(a.accountNumber), Chips(a.tags))
  }

  datatype View = NoAccounts | Accounts(cards: seq<Card>, total: real)

  /** The empty state for no accounts; otherwise one card per account, in
      order, over the total balance. */
  function Show(accounts: seq<BankAccount>): (v: View)
    ensures v.NoAccounts? <==> accounts == []
    ensures v.Accounts? ==> |v.cards| == |accounts| && v.total == TotalBalance(accounts)
    ensures v.Accounts? ==> forall i :: 0 <= i < |accounts| ==> v.cards[i] == CardOf(accounts[i])
  {
    if accounts == [] then NoAccounts
    else Accounts(seq(|accounts|, i requires 0 <= i < |accounts| => CardOf(accounts[i])), TotalBalance(accounts))
  }
}

=== FILE: budget_form.dfy ===
/** The monthly-budget form: per-category limits, their total, the edit of
    one limit, the `"name:amount,..."` reading of categories held as text,
    and the budget handed to `onSubmit`. */
module BudgetForm {
  import opened Wrappers
  import opened Text
  import opened Ledger
  import opened Forms

  /** The categories the form holds: normally an object of limits; an
      edited budget may bring them as text. */
  datatype Categories = Object(entries: Dict<string>) | Encoded(text: string)

  datatype BudgetData = BudgetData(month: string, year: int, categories: Categories)

  const DefaultCategoryNames: seq<string> := [
    "Food & Dining", "Transportation", "Housing", "Utilities", "Entertainment",
    "Healthcare", "Shopping", "Education", "Travel", "Other"]

  /** The ten default categories, each with limit 0. */
  function DefaultCategories(): (d: Dict<string>)
    ensures Keys(d) == DefaultCategoryNames
    ensures forall i :: 0 <= i < |d| ==> d[i].1 == 0.0
  {
    seq(|DefaultCategoryNames|, i requires 0 <= i < |DefaultCategoryNames| => (DefaultCategoryNames[i], 0.0))
  }

  /** JavaScript truthiness of the categories value: an object always, text
      unless empty. */
  predicate Present(c: Categories) {
    c.Object? || c.text != ""
  }

  /** The starting state: an edited budget's month, year and categories with
      `||` defaults, or this month's name, this year and the defaults. */
  function Initial(initial: Option<BudgetData>, monthName: string, thisYear: int): (b: BudgetData)
    ensures initial.None? ==> b == BudgetData(monthName, thisYear, Object(DefaultCategories()))
    ensures initial.Some? ==> b.month == if initial.value.month != "" then initial.value.month else monthName
    ensures initial.Some? ==> b.year == if initial.value.year != 0 then initial.value.year else thisYear
    ensures initial.Some? && Present(initial.value.categories) ==> b.categories == initial.value.categories
    ensures initial.Some? && !Present(initial.value.categories) ==> b.categories == Object(DefaultCategories())
  {
    match initial
    case None => BudgetData(monthName, thisYear, Object(DefaultCategories()))
    case Some(d) =>
      BudgetData(
        if d.month != "" then d.month else monthName,
        if d.year != 0 then d.year else thisYear,
        if Present(d.categories) then d.categories else Object(DefaultCategories()))
  }

  // ---------------------------------------------------------------------------
  // Editing one limit
  // ---------------------------------------------------------------------------

  /** `handleCategoryChange(category, value)`: the limit becomes
      `parseFloat(value) || 0`; an existing category keeps its place, a new
      one goes last. */
  function ChangeCategory(b: BudgetData, category: string, value: string): (r: BudgetData)
    requires b.categories.Object?
    ensures r.month == b.month && r.year == b.year && r.categories.Object?
    ensures Keys(r.categories.entries) == if category in Keys(b.categories.entries) then Keys(b.categories.entries)
                                         else Keys(b.categories.entries) + [category]
  {
    b.(categories := Object(Put(b.categories.entries, category, ParseFloat(value).GetOr(0.0))))
  }

  /** After the edit that category reads the parsed limit (0 when unreadable)
      and every other category reads as before. */
  lemma ChangeCategoryGet(b: BudgetData, category: string, value: string, other: string)
    requires b.categories.Object?
    ensures Get(ChangeCategory(b, category, value).categories.entries, other) ==
      if other == category then Some(ParseFloat(value).GetOr(0.0)) else Get(b.categories.entries, other)
  {
    PutGet(b.categories.entries, category, ParseFloat(value).GetOr(0.0), other);
  }

  /** The edit moves the total by the difference between the new and the
      old limit of that category. */
  lemma ChangeCategoryTotal(b: BudgetData, category: string, value: string)
    requires b.categories.Object? && UniqueKeys(b.categories.entries)
    ensures Total(ChangeCategory(b, category, value).categories) ==
      Total(b.categories) - Get(b.categories.entries, category).GetOr(0.0) + ParseFloat(value).GetOr(0.0)
  {
    PutValuesSum(b.categories.entries, category, ParseFloat(value).GetOr(0.0));
  }

  // ---------------------------------------------------------------------------
  // Categories held as text
  // ---------------------------------------------------------------------------

  /** One `"name:amount"` piece: both halves trimmed, kept only when both
      are non-empty, the amount read by `parseFloat` with 0 for `NaN`. */
  function Entry(item: string): Option<(string, real)> {
    var parts := Split(item, ':');
    var name := Trim(parts[0]);
    var amount := if |parts| >= 2 then Trim(parts[1]) else "";
    if name != "" && amount != "" then Some((name, ParseFloat(amount).GetOr(0.0))) else None
  }

  /** The pieces folded into an object, left to right; a later piece for
      the same name overwrites the earlier one. */
  function ParseItems(items: seq<string>): Dict<string> {
    if items == [] then []
    else
      var acc := ParseItems(items[..|items| - 1]);
      match Entry(items[|items| - 1])
      case Some(e) => Put(acc, e.0, e.1)
      case None => acc
  }

  /** The `split(',').reduce(...)` reading of categories held as text. */
  function ParseCategories(s: string): Dict<string> {
    ParseItems(Split(s, ','))
  }

  /** Independent reading of a name's limit: the amount of the last piece
      naming it. */
  function LastEntry(items: seq<string>, name: string): Option<real> {
    if items == [] then None
    else
      var e := Entry(items[|items| - 1]);
      if e.Some? && e.value.0 == name then Some(e.value.1)
      else LastEntry(items[..|items| - 1], name)
  }

  /** Each name in the result holds the amount of the last piece naming
      it, and a name no kept piece carries is absent. */
  lemma {:induction false} ParseItemsGet(items: seq<string>, name: string)
    ensures Get(ParseItems(items), name) == LastEntry(items, name)
    decreases |items|
  {
    if items != [] {
      var init := items[..|items| - 1];
      ParseItemsGet(init, name);
      match Entry(items[|items| - 1])
      case Some(e) => PutGet(ParseItems(init), e.0, e.1, name);
      case None =>
    }
  }

  /** The parsed object never holds a name twice. */
  lemma {:induction false} ParseItemsUnique(items: seq<string>)
    ensures UniqueKeys(ParseItems(items))
    decreases |items|
  {
    if items != [] {
      var init := items[..|items| - 1];
      ParseItemsUnique(init);
      match Entry(items[|items| - 1])
      case Some(e) => PutUnique(ParseItems(init), e.0, e.1);
      case None =>
    }
  }

  /** A piece without a colon has no amount and is skipped. */
  lemma PieceWithoutColon(item: string)
    requires ':' !in item
    ensures Entry(item).None?
  {
    SplitFree(item, ':');
  }

  /** A piece written as `name:amount` is read back as the trimmed name
      with the amount's value, when both are non-blank. */
  lemma PieceRoundTrip(name: string, amount: string)
    requires ':' !in name && ':' !in amount
    requires !IsBlank(name) && !IsBlank(amount)
    ensures Entry(name + ":" + amount) == Some((Trim(name), ParseFloat(Trim(amount)).GetOr(0.0)))
  {
    SplitPrefix(name, amount, ':');
    SplitFree(amount, ':');
    assert name + ":" + amount == name + [':'] + amount;
    assert Split(name + ":" + amount, ':') == [name, amount];
  }

  /** Text made by joining comma-free pieces is read piece by piece. */
  lemma ParseJoined(items: seq<string>)
    requires |items| >= 1
    requires forall i :: 0 <= i < |items| ==> ',' !in items[i]
    ensures ParseCategories(Join(items, ',')) == ParseItems(items)
  {
    SplitJoin(items, ',');
  }

  // ---------------------------------------------------------------------------
  // Total and submission
  // ---------------------------------------------------------------------------

  /** The categories as submitted: text is parsed, an object is kept. */
  function Formatted(c: Categories): Dict<string> {
    match c
    case Object(d) => d
    case Encoded(s) => ParseCategories(s)
  }

  /** `getTotalBudget` as written: `Object.values(categories).reduce((s, a)
      => s + a, 0)`. On an object it is the sum of the limits; on text the
      values are its characters, so the `+` concatenates them after the 0. */
  function TotalAsWritten(c: Categories): Input {
    match c
    case Object(d) => Num(Sum(Values(d)))
    case Encoded(s) => if s == "" then Num(0.0) else Str("0" + s)
  }

  /** The total line under the limits, `getTotalBudget().toFixed(2)`: a
      string total has no `toFixed`, so the render throws a `TypeError`. */
  function TotalShown(c: Categories): (r: Result<real>)
    ensures r.Ok? <==> c.Object? || c.text == ""
    ensures c.Object? ==> r == Ok(Sum(Values(c.entries)))
  {
    match TotalAsWritten(c)
    case Num(n) => Ok(n)
    case Str(_) => Err("TypeError: toFixed is not a function")
  }

  /** The total the form means: the sum of the limits it submits. */
  function Total(c: Categories): real {
    Sum(Values(Formatted(c)))
  }

  /** The budget handed to `onSubmit`; `totalBudget` is whatever the total
      evaluated to. */
  datatype Payload = Payload(
    month: string,
    year: int,
    categories: Dict<string>,
    totalBudget: Input,
    isActive: bool,
    id: Option<int>)

  /** `handleSubmit` as written: rejected when `totalBudget <= 0`. */
  function SubmitAsWritten(b: BudgetData, id: Option<int>): (s: Submission<Payload>)
    ensures s.Submitted? <==> !LessEq(TotalAsWritten(b.categories), Num(0.0))
    ensures s.Submitted? ==> s.payload == Payload(b.month, b.year, Formatted(b.categories), TotalAsWritten(b.categories), true, id)
  {
    var total := TotalAsWritten(b.categories);
    if LessEq(total, Num(0.0)) then Blocked
    else Submitted(Payload(b.month, b.year, Formatted(b.categories), total, true, id))
  }

  /** `handleSubmit` with the total taken over the submitted limits:
      rejected unless it is positive; otherwise the budget goes out active,
      with that total and the edited budget's Id. */
  function Submit(b: BudgetData, id: Option<int>): (s: Submission<Payload>)
    ensures s.Submitted? <==> Sum(Values(Formatted(b.categories))) > 0.0
    ensures s.Submitted? ==> s.payload.categories == Formatted(b.categories)
    ensures s.Submitted? ==> s.payload.totalBudget == Num(Sum(Values(s.payload.categories)))
    ensures s.Submitted? ==> s.payload.isActive && s.payload.id == id
    ensures s.Submitted? ==> s.payload.month == b.month && s.payload.year == b.year
  {
    var total := Total(b.categories);
    if total <= 0.0 then Blocked
    else Submitted(Payload(b.month, b.year, Formatted(b.categories), Num(total), true, id))
  }

  /** For the object the form normally holds, the two readings agree. */
  lemma SubmitAgreesOnObjects(b: BudgetData, id: Option<int>)
    requires b.categories.Object?
    ensures SubmitAsWritten(b, id) == Submit(b, id)
  {
  }

  /** An untouched new form has ten zero limits and is always rejected. */
  lemma DefaultFormRejected(monthName: string, thisYear: int, id: Option<int>)
    ensures Submit(Initial(None, monthName, thisYear), id).Blocked?
    ensures SubmitAsWritten(Initial(None, monthName, thisYear), id).Blocked?
  {
    SumZero(Values(DefaultCategories()));
  }

  // ---------------------------------------------------------------------------
  // Text categories through the total as written
  // ---------------------------------------------------------------------------

  /** A category name as typed into the text form: no separators, no
      padding, and not starting like a number. */
  predicate PlainName(name: string) {
    name != [] && !IsSpace(name[0]) && !IsSpace(name[|name| - 1])
    && !IsDigit(name[0]) && name[0] != '.' && ':' !in name && ',' !in name
  }

  /** The text `name:n`. */
  function Piece(name: string, n: nat): string {
    name + ":" + NatToString(n)
  }

  /** A single `name:n` piece is read as that one category with limit n. */
  lemma PieceParses(name: string, n: nat)
    requires PlainName(name)
    ensures ParseCategories(Piece(name, n)) == [(name, n as real)]
  {
    var digits := NatToString(n);
    var p := Piece(name, n);
    assert ':' !in digits && ',' !in digits by {
      assert forall i :: 0 <= i < |digits| ==> IsDigit(digits[i]);
    }
    assert ',' !in p by {
      assert p == name + [':'] + digits;
    }
    SplitFree(p, ',');
    TrimUnpadded(name);
    TrimUnpadded(digits);
    PieceRoundTrip(name, digits);
    NatToStringParses(n);
    assert Entry(p) == Some((name, n as real));
    assert ParseItems([p]) == Put(ParseItems([]), name, n as real);
  }

  /** `"0" + "name:n"` is not a number: its numeral stops after the 0. */
  lemma PaddedPieceNotANumber(name: string, n: nat)
    requires PlainName(name)
    ensures ToNumber("0" + Piece(name, n)) == None
  {
    var digits := NatToString(n);
    var t := "0" + Piece(name, n);
    assert t == "0" + name + [':'] + digits;
    assert t[0] == '0' && t[1] == name[0];
    assert t[|t| - 1] == digits[|digits| - 1];
    assert IsDigit(digits[|digits| - 1]);
    TrimUnpadded(t);
    assert t[1..][0] == name[0];
    assert DigitRun(t[1..]) == 0;
    assert DigitRun(t) == 1;
  }

  /** Categories held as the text `name:n`: as written the total is the
      string `"0name:n"`. The form cannot even be shown, because the total
      line's `toFixed` throws on that string, so `handleSubmit` is never
      reached through the form; the handler itself would not reject the
      string with `<= 0` and would send it as the budget's total. */
  lemma EncodedTotalAsWritten(month: string, year: int, name: string, n: nat, id: Option<int>)
    requires PlainName(name)
    ensures TotalShown(Encoded(Piece(name, n))).Err?
    ensures var s := SubmitAsWritten(BudgetData(month, year, Encoded(Piece(name, n))), id);
            s.Submitted? && s.payload.totalBudget == Str("0" + Piece(name, n))
  {
    var t := Piece(name, n);
    assert TotalAsWritten(Encoded(t)) == Str("0" + t) by {
      assert |t| > |name|;
    }
    assert !LessEq(Str("0" + t), Num(0.0)) by {
      PaddedPieceNotANumber(name, n);
    }
  }

  /** The same budget with the total over the parsed limits: the total
      shown is the number n, and the budget is submitted exactly when n is
      positive, with total n. */
  lemma EncodedTotalCorrected(month: string, year: int, name: string, n: nat, id: Option<int>)
    requires PlainName(name)
    ensures Total(Encoded(Piece(name, n))) == n as real
    ensures var s := Submit(BudgetData(month, year, Encoded(Piece(name, n))), id);
            (s.Submitted? <==> n > 0)
            && (s.Submitted? ==> s.payload.categories == [(name, n as real)] && s.payload.totalBudget == Num(n as real))
  {
    var b := BudgetData(month, year, Encoded(Piece(name, n)));
    assert Formatted(b.categories) == [(name, n as real)] by {
      PieceParses(name, n);
    }
    assert Total(b.categories) == n as real by {
      assert Values([(name, n as real)]) == [n as real];
      assert Sum([n as real]) == Sum([]) + n as real;
    }
  }
}


=== FILE: budget_overview.dfy ===
/** The budget overview card: this month's expenses, grouped by category,
    against the active budget's total and per-category limits. */
module BudgetOverview {
  import opened Wrappers
  import opened Dates
  import opened Ledger
  import opened Lists
  import opened Records
  import ProgressBar
  import JsNumbers

  /** `toLocaleString('default', { month: 'long' })` in an English locale. */
  function MonthName(m: int): (name: string)
    requires 1 <= m <= 12
    ensures 3 <= |name| <= 9 && 'A' <= name[0] <= 'Z'
  {
    ["January", "February", "March", "April", "May", "June", "July",
     "August", "September", "October", "November", "December"][m - 1]
  }

  /** Different months have different names, so comparing names compares
      months. */
  lemma MonthNameInjective(m: int, n: int)
    requires 1 <= m <= 12 && 1 <= n <= 12
    ensures MonthName(m) == MonthName(n) <==> m == n
  {
    if m != n {
      var a := MonthName(m);
      var b := MonthName(n);
      if |a| == |b| {
        assert a[0] != b[0] || a[1] != b[1] || a[2] != b[2];
      }
    }
  }

  /** An expense counts when its month name and year equal today's. */
  predicate InCurrentMonth(e: Expense, today: Date) {
    MonthName(e.date.month) == MonthName(today.month) && e.date.year == today.year
  }

  /** The month-name test is exactly "same calendar month". */
  lemma InCurrentMonthMeaning(e: Expense, today: Date)
    ensures InCurrentMonth(e, today) <==> SameMonth(e.date, today)
  {
    MonthNameInjective(e.date.month, today.month);
  }

  function CurrentMonthExpenses(es: seq<Expense>, today: Date): (r: seq<Expense>)
    ensures forall i :: 0 <= i < |r| ==> r[i] in es && SameMonth(r[i].date, today)
    ensures forall i :: 0 <= i < |es| && SameMonth(es[i].date, today) ==> es[i] in r
  {
    var r := Filter(es, e => InCurrentMonth(e, today));
    forall i | 0 <= i < |r| ensures SameMonth(r[i].date, today) {
      InCurrentMonthMeaning(r[i], today);
    }
    forall i | 0 <= i < |es| && SameMonth(es[i].date, today) ensures es[i] in r {
      InCurrentMonthMeaning(es[i], today);
    }
    r
  }

  /** How a category row reads: what is left, or how far over. */
  datatype Standing = Left(amount: real) | Over(amount: real)

  /** One category of the breakdown. */
  datatype Row = Row(category: string, limit: real, spent: real, remaining: real, standing: Standing)

  /** What the card shows. */
  datatype View =
    | Loading
    | NoBudget
    | Overview(
        totalBudget: real,
        totalSpent: real,
        remainingBudget: real,
        spendingByCategory: Dict<string>,
        usage: JsNumbers.Num,
        rows: seq<Row>)

  /** `remaining >= 0 ? "$r left" : "$|r| over"`. */
  function StandingOf(remaining: real): (s: Standing)
    ensures s.Left? <==> remaining >= 0.0
    ensures s.amount >= 0.0
    ensures s.amount == remaining || s.amount == -remaining
  {
    if remaining >= 0.0 then Left(remaining) else Over(-remaining)
  }

  function RowFor(entry: (string, real), spending: Dict<string>): (r: Row)
    ensures r.category == entry.0 && r.limit == entry.1
    ensures r.spent == Get(spending, entry.0).GetOr(0.0)
    ensures r.spent + r.remaining == r.limit
  {
    var spent := Get(spending, entry.0).GetOr(0.0);
    Row(entry.0, entry.1, spent, entry.1 - spent, StandingOf(entry.1 - spent))
  }

  predicate HasLimit(entry: (string, real)) {
    entry.1 != 0.0
  }

  /** The budget entry each row shows. */
  function RowEntries(rows: seq<Row>): (e: Dict<string>)
    ensures |e| == |rows| && forall i :: 0 <= i < |rows| ==> e[i] == (rows[i].category, rows[i].limit)
  {
    seq(|rows|, i requires 0 <= i < |rows| => (rows[i].category, rows[i].limit))
  }

  /** `Object.entries(budget.categories).map(...)`, where a limit of exactly
      0 renders nothing: one row per entry with a non-zero limit, in the
      budget's order. */
  function Rows(categories: Dict<string>, spending: Dict<string>): (rows: seq<Row>)
    ensures |rows| <= |categories|
    ensures forall i :: 0 <= i < |rows| ==> rows[i] == RowFor(RowEntries(rows)[i], spending)
    ensures IsSubsequence(RowEntries(rows), categories)
    ensures forall i :: 0 <= i < |categories| ==>
      multiset(RowEntries(rows))[categories[i]] == if categories[i].1 != 0.0 then multiset(categories)[categories[i]] else 0
  {
    var kept := Filter(categories, HasLimit);
    FilterKeepsOrder(categories, HasLimit);
    forall i | 0 <= i < |categories|
      ensures multiset(kept)[categories[i]] == if HasLimit(categories[i]) then multiset(categories)[categories[i]] else 0
    {
      FilterCounts(categories, HasLimit, categories[i]);
    }
    var rows := seq(|kept|, i requires 0 <= i < |kept| => RowFor(kept[i], spending));
    assert RowEntries(rows) == kept;
    rows
  }

  function Show(loading: bool, budget: Option<Budget>, expenses: seq<Expense>, today: Date): (v: View)
    ensures loading ==> v.Loading?
    ensures !loading && budget.None? ==> v.NoBudget?
    ensures !loading && budget.Some? ==>
      && v.Overview?
      && v.totalBudget == budget.value.totalBudget.GetOr(0.0)
      && v.usage == ProgressBar.Percentage(v.totalSpent, v.totalBudget)
      && v.rows == Rows(budget.value.categories, v.spendingByCategory)
  {
    if loading then Loading
    else if budget.None? then NoBudget
    else
      var b := budget.value;
      var current := CurrentMonthExpenses(expenses, today);
      var spending := Group(CategoryAmounts(current));
      var totalSpent := Spending(current);
      var totalBudget := b.totalBudget.GetOr(0.0);
      Overview(totalBudget, totalSpent, totalBudget - totalSpent, spending,
               ProgressBar.Percentage(totalSpent, totalBudget),
               Rows(b.categories, spending))
  }

  // ---------------------------------------------------------------------------
  // Properties of the overview
  // ---------------------------------------------------------------------------

  /** Per-category spend is the sum of that category's amounts this month,
      and a category nobody spent on this month is absent. */
  lemma SpendingByCategory(b: Budget, expenses: seq<Expense>, today: Date, c: string)
    ensures var v := Show(false, Some(b), expenses, today);
            var pairs := CategoryAmounts(CurrentMonthExpenses(expenses, today));
            Get(v.spendingByCategory, c) == if c in Keys(pairs) then Some(TotalFor(pairs, c)) else None
  {
    GroupGet(CategoryAmounts(CurrentMonthExpenses(expenses, today)), c);
  }

  /** The total spent is the sum of this month's amounts and also the sum of
      the per-category totals; the remaining budget is the total (0 when
      missing) minus it, and is negative when spending exceeds the total. */
  lemma Totals(b: Budget, expenses: seq<Expense>, today: Date)
    ensures var v := Show(false, Some(b), expenses, today);
            var current := CurrentMonthExpenses(expenses, today);
            && v.totalSpent == Sum(Amounts(current))
            && v.totalSpent == Sum(Values(v.spendingByCategory))
            && v.remainingBudget == b.totalBudget.GetOr(0.0) - v.totalSpent
            && (v.remainingBudget < 0.0 <==> v.totalSpent > b.totalBudget.GetOr(0.0))
  {
    var current := CurrentMonthExpenses(expenses, today);
    GroupValuesSum(CategoryAmounts(current));
    CategoryAmountsValues(current);
  }

  /** Each row of the overview shows, as spent, the sum of this month's
      amounts in its category (0 when nothing was spent), and the usage bar
      is this month's spending against the budget's total. */
  lemma RowsShowMonthSpending(b: Budget, expenses: seq<Expense>, today: Date)
    ensures var v := Show(false, Some(b), expenses, today);
            var pairs := CategoryAmounts(CurrentMonthExpenses(expenses, today));
            && (forall i :: 0 <= i < |v.rows| ==>
                  v.rows[i].spent == if v.rows[i].category in Keys(pairs) then TotalFor(pairs, v.rows[i].category) else 0.0)
            && (b.totalBudget.GetOr(0.0) > 0.0 && Spending(CurrentMonthExpenses(expenses, today)) <= b.totalBudget.GetOr(0.0) ==>
                  v.usage == JsNumbers.Finite(Spending(CurrentMonthExpenses(expenses, today)) / b.totalBudget.GetOr(0.0) * 100.0))
  {
    var v := Show(false, Some(b), expenses, today);
    var pairs := CategoryAmounts(CurrentMonthExpenses(expenses, today));
    forall i | 0 <= i < |v.rows|
      ensures v.rows[i].spent == if v.rows[i].category in Keys(pairs) then TotalFor(pairs, v.rows[i].category) else 0.0
    {
      GroupGet(pairs, v.rows[i].category);
    }
  }

  /** A category with limit exactly 0 has no row; every other entry of the
      budget has a row. */
  lemma RowsCoverLimits(categories: Dict<string>, spending: Dict<string>)
    ensures var rows := Rows(categories, spending);
            && (forall i :: 0 <= i < |rows| ==> rows[i].limit != 0.0 && (rows[i].category, rows[i].limit) in categories)
            && (forall i :: 0 <= i < |categories| && categories[i].1 != 0.0 ==>
                  exists j :: 0 <= j < |rows| && rows[j].category == categories[i].0 && rows[j].limit == categories[i].1)
  {
    var kept := Filter(categories, HasLimit);
    var rows := Rows(categories, spending);
    forall i | 0 <= i < |categories| && categories[i].1 != 0.0
      ensures exists j :: 0 <= j < |rows| && rows[j].category == categories[i].0 && rows[j].limit == categories[i].1
    {
      assert HasLimit(categories[i]);
      assert categories[i] in kept;
      var j :| 0 <= j < |kept| && kept[j] == categories[i];
      assert rows[j] == RowFor(kept[j], spending);
    }
  }

  /** When the budget names each category once, as an object does, each
      category with a non-zero limit has exactly one row, and the rows keep
      the budget's order. */
  lemma RowsOnePerLimit(categories: Dict<string>, spending: Dict<string>)
    requires UniqueKeys(categories)
    ensures var rows := Rows(categories, spending);
            forall i, j :: 0 <= i < j < |rows| ==> rows[i].category != rows[j].category
    ensures var rows := Rows(categories, spending);
            forall i :: 0 <= i < |categories| && categories[i].1 != 0.0 ==>
              exists j :: 0 <= j < |rows| && rows[j] == RowFor(categories[i], spending)
  {
    var rows := Rows(categories, spending);
    var entries := RowEntries(rows);
    SubsequenceDistinct(entries, categories, (e: (string, real)) => e.0);
    forall i | 0 <= i < |categories| && categories[i].1 != 0.0
      ensures exists j :: 0 <= j < |rows| && rows[j] == RowFor(categories[i], spending)
    {
      assert multiset(entries)[categories[i]] > 0;
      var j :| 0 <= j < |entries| && entries[j] == categories[i];
      assert rows[j] == RowFor(entries[j], spending);
    }
  }

  /** A budgeted category nobody spent on shows 0 spent and its whole limit
      remaining, reading "left" when the limit is positive. */
  lemma UnspentCategoryRow(entry: (string, real), spending: Dict<string>)
    requires entry.0 !in Keys(spending)
    ensures RowFor(entry, spending).spent == 0.0
    ensures RowFor(entry, spending).remaining == entry.1
    ensures entry.1 > 0.0 ==> RowFor(entry, spending).standing == Left(entry.1)
  {
  }

  /** The per-category spending map only holds categories spent on this
      month, so a category outside it shows 0 spent. */
  lemma NoSpendingShowsZero(b: Budget, expenses: seq<Expense>, today: Date, c: string)
    requires forall i :: 0 <= i < |expenses| && SameMonth(expenses[i].date, today) ==> expenses[i].category != c
    ensures var v := Show(false, Some(b), expenses, today);
            c !in Keys(v.spendingByCategory)
  {
    var current := CurrentMonthExpenses(expenses, today);
    var pairs := CategoryAmounts(current);
    assert c !in Keys(pairs) by {
      forall i | 0 <= i < |current| ensures current[i].category != c {
        InCurrentMonthMeaning(current[i], today);
      }
    }
    GroupGet(pairs, c);
  }
}

=== FILE: budget_service.dfy ===
/** The budget service over an in-memory table of raw `budget_c` records,
    in the table's own order. The record API's replies are parameters: each
    call says how the server answered. JSON is an abstract codec: `encode`
    stands for `JSON.stringify` on a categories object and `parse` for
    `JSON.parse`, `None` when it throws. */
module BudgetService {
  import opened Wrappers
  import opened Text
  import opened Ledger
  import opened Forms
  import opened Lists
  import opened Sorting

  /** A stored record, with the table's field names. */
  datatype Raw = Raw(
    id: int,
    name: string,
    month: string,
    year: Option<int>,
    categoriesText: Option<string>,
    totalBudget: Option<real>,
    isActive: bool)

  type Table = seq<Raw>

  function RawId(r: Raw): int { r.id }

  /** The Ids of a table are unique, as the server assigns them. */
  predicate UniqueIds(t: Table) {
    forall i, j :: 0 <= i < j < |t| ==> t[i].id != t[j].id
  }

  /** A record as the service hands it out: the raw fields, plus the decoded
      `categories`. */
  datatype Fetched = Fetched(record: Raw, categories: Dict<string>)

  /** How the server answered a create, update or delete: the response
      failed, the first result failed (with or without a message), there
      was no result, or the first result succeeded. */
  datatype Reply = ResponseFailed(message: string) | ResultFailed(reason: Option<string>) | NoResult | Accepted

  // ---------------------------------------------------------------------------
  // Reading
  // ---------------------------------------------------------------------------

  /** The categories read back from `categories_c` by `getAll`, `getById`
      and `getActive`: missing or empty text and unparsable text all give
      the empty object. */
  function DecodeCategories(parse: string -> Option<Dict<string>>, text: Option<string>): (d: Dict<string>)
    ensures text.None? || text.value == "" ==> d == []
    ensures text.Some? && text.value != "" && parse(text.value).None? ==> d == []
    ensures text.Some? && text.value != "" && parse(text.value).Some? ==> d == parse(text.value).value
  {
    if text.Some? && text.value != "" then parse(text.value).GetOr([]) else []
  }

  /** The categories returned by `create` and `update`: `categories_c ||
      '{}'` parsed, the empty object when that throws. */
  function DecodeReturned(parse: string -> Option<Dict<string>>, text: Option<string>): (d: Dict<string>)
    ensures text.Some? && text.value != "" ==> d == parse(text.value).GetOr([])
    ensures text.None? || text.value == "" ==> d == parse("{}").GetOr([])
  {
    parse(if text.Some? && text.value != "" then text.value else "{}").GetOr([])
  }

  function Decode(parse: string -> Option<Dict<string>>, r: Raw): (f: Fetched)
    ensures f.record == r
  {
    Fetched(r, DecodeCategories(parse, r.categoriesText))
  }

  const PageLimit: nat := 100

  /** `orderBy year_c DESC`: later years first, records without a year
      last; the server's tie order is taken to be the table order. */
  predicate NewerYearFirst(a: Raw, b: Raw) {
    match (a.year, b.year)
    case (Some(x), Some(y)) => x >= y
    case (Some(_), None) => true
    case (None, Some(_)) => false
    case (None, None) => true
  }

  /** The one page `getAll` asks for: the first 100 records by year. */
  function Page(t: Table): (p: Table)
    ensures |p| <= PageLimit && |p| <= |t|
    ensures |t| <= PageLimit ==> multiset(p) == multiset(t)
  {
    Take(Sort(t, NewerYearFirst), PageLimit)
  }

  /** The year order is a consistent comparator. */
  lemma YearOrderConsistent()
    ensures IsTotalPreorder(NewerYearFirst)
  {
  }

  /** The page is ordered by year, newest first, and it holds the newest
      records: every record left out is no newer than any record in it. */
  lemma PageNewestFirst(t: Table)
    ensures forall i, j :: 0 <= i < j < |Page(t)| ==> NewerYearFirst(Page(t)[i], Page(t)[j])
    ensures forall x :: x in multiset(t) - multiset(Page(t)) ==>
      forall i :: 0 <= i < |Page(t)| ==> NewerYearFirst(Page(t)[i], x)
  {
    var s := Sort(t, NewerYearFirst);
    YearOrderConsistent();
    SortSorted(t, NewerYearFirst);
    var n := if |s| < PageLimit then |s| else PageLimit;
    assert Page(t) == s[..n];
    SortedPrefix(s, n, NewerYearFirst);
  }

  /** `getAll`: the page, each record with its categories decoded, or the
      response's failure. */
  function GetAll(t: Table, ok: bool, failure: string, parse: string -> Option<Dict<string>>): (r: Result<seq<Fetched>>)
    ensures ok <==> r.Ok?
    ensures !ok ==> r == Err(failure)
    ensures ok ==> |r.value| == |Page(t)| && forall i :: 0 <= i < |Page(t)| ==> r.value[i] == Decode(parse, Page(t)[i])
  {
    if !ok then Err(failure)
    else
      var p := Page(t);
      Ok(seq(|p|, i requires 0 <= i < |p| => Decode(parse, p[i])))
  }

  /** The first record in table order that satisfies `p`, if any. */
  function FirstWhere(t: Table, p: Raw -> bool): (r: Option<Raw>)
    ensures r.Some? <==> exists i :: 0 <= i < |t| && p(t[i])
    ensures r.Some? ==> r.value in t && p(r.value)
  {
    if t == [] then None
    else if p(t[0]) then Some(t[0])
    else
      var rest := FirstWhere(t[1..], p);
      assert forall i :: 0 < i < |t| ==> t[i] == t[1..][i - 1];
      rest
  }

  function IsActive(r: Raw): bool { r.isActive }

  function FirstActive(t: Table): Option<Raw> { FirstWhere(t, IsActive) }

  /** The error a missing record leads to: `budget.categories_c` read off
      `null`. */
  const MissingRecord: string := "Cannot read properties of null (reading 'categories_c')"

  /** `getById(id)`: the record with Id `parseInt(id)`, its categories
      decoded; a failed response, or no such record, rejects. */
  function GetById(t: Table, id: Input, ok: bool, failure: string, parse: string -> Option<Dict<string>>): (r: Result<Fetched>)
    ensures !ok ==> r == Err(failure)
    ensures ok ==> (r.Ok? <==> exists i :: 0 <= i < |t| && Some(t[i].id) == ParseIntOf(id))
    ensures ok && r.Ok? ==> r.value.record in t && Some(r.value.record.id) == ParseIntOf(id)
    ensures ok && r.Ok? ==> r.value.categories == DecodeCategories(parse, r.value.record.categoriesText)
    ensures ok && r.Err? ==> r.message == MissingRecord
  {
    if !ok then Err(failure)
    else match FirstWhere(t, (x: Raw) => Some(x.id) == ParseIntOf(id))
      case None => Err(MissingRecord)
      case Some(rec) => Ok(Decode(parse, rec))
  }

  /** With unique Ids the record found is the one the Id names. */
  lemma GetByIdFindsRecord(t: Table, k: int, parse: string -> Option<Dict<string>>, failure: string)
    requires UniqueIds(t)
    requires 0 <= k < |t| && t[k].id >= 0
    ensures GetById(t, Num(t[k].id as real), true, failure, parse) == Ok(Decode(parse, t[k]))
  {
    var p := (x: Raw) => Some(x.id) == ParseIntOf(Num(t[k].id as real));
    assert ParseIntOf(Num(t[k].id as real)) == Some(t[k].id);
    FirstWhereAt(t, p, k);
  }

  /** A record that satisfies `p` with none before it is the one found. */
  lemma {:induction false} FirstWhereAt(t: Table, p: Raw -> bool, k: int)
    requires 0 <= k < |t| && p(t[k])
    requires forall j :: 0 <= j < k ==> !p(t[j])
    ensures FirstWhere(t, p) == Some(t[k])
    decreases k
  {
    if k > 0 {
      assert !p(t[0]);
      FirstWhereAt(t[1..], p, k - 1);
    }
  }

  /** `getActive`: `where is_active_c = true`, one record; `null` when there
      is none. */
  function GetActive(t: Table, ok: bool, failure: string, parse: string -> Option<Dict<string>>): (r: Result<Option<Fetched>>)
    ensures !ok ==> r == Err(failure)
    ensures ok ==> r.Ok? && (r.value.None? <==> forall i :: 0 <= i < |t| ==> !t[i].isActive)
    ensures ok && r.value.Some? ==> r.value.value.record == FirstActive(t).value
  {
    if !ok then Err(failure)
    else match FirstActive(t)
      case None => Ok(None)
      case Some(rec) => Ok(Some(Decode(parse, rec)))
  }

  // ---------------------------------------------------------------------------
  // Deactivation
  // ---------------------------------------------------------------------------

  /** Clears `is_active_c` on every record whose Id is listed. */
  function ClearActive(t: Table, ids: set<int>): (r: Table)
    ensures |r| == |t|
    ensures forall i :: 0 <= i < |t| ==> r[i] == if t[i].id in ids then t[i].(isActive := false) else t[i]
  {
    seq(|t|, i requires 0 <= i < |t| => if t[i].id in ids then t[i].(isActive := false) else t[i])
  }

  /** The Ids of the active records in the page. */
  function ActiveIds(page: Table): set<int> {
    set i | 0 <= i < |page| && page[i].isActive :: page[i].id
  }

  /** `_deactivateOtherBudgets`: read the page and mark its active records
      inactive in one bulk update. A failed read, or a bulk update the
      server did not apply, is logged and swallowed: the table is then as
      it was. */
  function Deactivate(t: Table, fetched: bool, applied: bool): (r: Table)
    ensures |r| == |t|
    ensures !fetched || !applied ==> r == t
    ensures fetched && applied ==> r == ClearActive(t, ActiveIds(Page(t)))
  {
    if fetched && applied then ClearActive(t, ActiveIds(Page(t))) else t
  }

  /** With the whole table in one page, a successful deactivation leaves no
      record active and changes nothing but the flags. */
  lemma DeactivateAll(t: Table)
    requires |t| <= PageLimit
    ensures forall i :: 0 <= i < |t| ==> !Deactivate(t, true, true)[i].isActive
    ensures forall i :: 0 <= i < |t| ==> Deactivate(t, true, true)[i] == t[i].(isActive := false)
  {
    var p := Page(t);
    forall i | 0 <= i < |t| && t[i].isActive
      ensures t[i].id in ActiveIds(p)
    {
      assert t[i] in multiset(t);
      assert t[i] in multiset(p);
      var j :| 0 <= j < |p| && p[j] == t[i];
    }
  }

  // ---------------------------------------------------------------------------
  // Writing
  // ---------------------------------------------------------------------------

  /** What `create` and `update` are given: the form's budget. */
  datatype BudgetInput = BudgetInput(
    month: string,
    year: int,
    categories: Dict<string>,
    totalBudget: Input,
    isActive: Option<bool>)

  /** The record `Name`, the same on create and update. */
  function BudgetName(month: string, year: int): (n: string)
    ensures |n| == |month| + |IntToString(year)| + 8
    ensures n[..|month|] == month
    ensures n[|month|..] == " " + IntToString(year) + " Budget"
  {
    month + " " + IntToString(year) + " Budget"
  }

  /** The record a create or update writes. */
  function Written(id: int, b: BudgetInput, encode: Dict<string> -> string, active: bool): (r: Raw)
    ensures r.id == id && r.name == BudgetName(b.month, b.year) && r.month == b.month
    ensures r.year == Some(b.year) && r.categoriesText == Some(encode(b.categories))
    ensures r.totalBudget == ParseFloatOf(b.totalBudget) && r.isActive == active
  {
    Raw(id, BudgetName(b.month, b.year), b.month, Some(b.year), Some(encode(b.categories)),
      ParseFloatOf(b.totalBudget), active)
  }

  /** The rejection a reply leads to, or `None` for a usable result. */
  function Failure(reply: Reply, fallback: string, missing: string): (e: Option<string>)
    ensures e.None? <==> reply.Accepted?
    ensures reply.ResponseFailed? ==> e == Some(reply.message)
    ensures reply.ResultFailed? && reply.reason.Some? && reply.reason.value != "" ==> e == reply.reason
    ensures reply.ResultFailed? && (reply.reason.None? || reply.reason.value == "") ==> e == Some(fallback)
    ensures reply.NoResult? ==> e == Some(missing)
  {
    match reply
    case ResponseFailed(m) => Some(m)
    case ResultFailed(m) => Some(if m.Some? && m.value != "" then m.value else fallback)
    case NoResult => Some(missing)
    case Accepted => None
  }

  /** `create`: deactivation first, then one new active record with the
      server's next Id; the promise resolves to that record, or rejects with
      the reply's failure. Deactivation happens whatever the reply. */
  function Create(t: Table, b: BudgetInput, fetched: bool, applied: bool, reply: Reply, newId: int,
                  encode: Dict<string> -> string, parse: string -> Option<Dict<string>>): (r: (Table, Result<Fetched>))
    ensures reply.Accepted? ==> r.0 == Deactivate(t, fetched, applied) + [Written(newId, b, encode, true)]
    ensures reply.Accepted? ==> r.1.Ok? && r.1.value.record == Written(newId, b, encode, true)
    ensures reply.Accepted? ==> r.1.value.categories == DecodeReturned(parse, Some(encode(b.categories)))
    ensures !reply.Accepted? ==> r.0 == Deactivate(t, fetched, applied)
    ensures !reply.Accepted? ==> r.1 == Err(Failure(reply, "Failed to create budget", "No result returned from create operation").value)
  {
    var cleared := Deactivate(t, fetched, applied);
    match Failure(reply, "Failed to create budget", "No result returned from create operation")
    case Some(m) => (cleared, Err(m))
    case None =>
      var rec := Written(newId, b, encode, true);
      (cleared + [rec], Ok(Fetched(rec, DecodeReturned(parse, rec.categoriesText))))
  }

  /** `update(id)`: the record with Id `parseInt(id)` is overwritten,
      active unless the input says otherwise; no other record changes. */
  function Update(t: Table, id: Input, b: BudgetInput, reply: Reply,
                  encode: Dict<string> -> string, parse: string -> Option<Dict<string>>): (r: (Table, Result<Fetched>))
    requires ParseIntOf(id).Some?
    ensures |r.0| == |t|
    ensures reply.Accepted? ==> forall i :: 0 <= i < |t| ==>
      r.0[i] == if t[i].id == ParseIntOf(id).value then Written(t[i].id, b, encode, b.isActive.GetOr(true)) else t[i]
    ensures reply.Accepted? ==> r.1.Ok? && r.1.value.record.isActive == b.isActive.GetOr(true)
    ensures !reply.Accepted? ==> r.0 == t && r.1.Err?
  {
    var key := ParseIntOf(id).value;
    match Failure(reply, "Failed to update budget", "No result returned from update operation")
    case Some(m) => (t, Err(m))
    case None =>
      var rec := Written(key, b, encode, b.isActive.GetOr(true));
      (ReplaceById(t, RawId, key, rec), Ok(Fetched(rec, DecodeReturned(parse, rec.categoriesText))))
  }

  /** `delete(id)`: the record leaves the table; a reply without results
      counts as success. */
  function Delete(t: Table, id: Input, reply: Reply): (r: (Table, Result<()>))
    requires ParseIntOf(id).Some?
    ensures reply.Accepted? || reply.NoResult? ==> r.1.Ok? && r.0 == RemoveById(t, RawId, ParseIntOf(id).value)
    ensures !(reply.Accepted? || reply.NoResult?) ==> r.1.Err? && r.0 == t
  {
    match reply
    case ResponseFailed(m) => (t, Err(m))
    case ResultFailed(m) => (t, Err(if m.Some? && m.value != "" then m.value else "Failed to delete budget"))
    case _ => (RemoveById(t, RawId, ParseIntOf(id).value), Ok(()))
  }

  /** After an accepted delete the Id reads as missing, and every other
      record is still there, as often and in the order it was. */
  lemma DeleteThenGetById(t: Table, id: Input, reply: Reply, parse: string -> Option<Dict<string>>)
    requires ParseIntOf(id).Some?
    requires reply.Accepted? || reply.NoResult?
    ensures GetById(Delete(t, id, reply).0, id, true, "", parse) == Err(MissingRecord)
    ensures IsSubsequence(Delete(t, id, reply).0, t)
    ensures forall i :: 0 <= i < |t| && t[i].id != ParseIntOf(id).value ==>
      multiset(Delete(t, id, reply).0)[t[i]] == multiset(t)[t[i]]
  {
    var key := ParseIntOf(id).value;
    var left := Delete(t, id, reply).0;
    assert left == RemoveById(t, RawId, key);
    assert !exists i :: 0 <= i < |left| && Some(left[i].id) == ParseIntOf(id) by {
      forall i | 0 <= i < |left| ensures left[i].id != key {
        assert RawId(left[i]) != key;
      }
    }
    var g := GetById(left, id, true, "", parse);
    assert g.Err? && g.message == MissingRecord;
  }

  /** Deleting the one active budget leaves none active, so `getActive`
      then resolves to null. */
  lemma DeleteActiveLeavesNoneActive(t: Table, j: int, id: Input, reply: Reply, parse: string -> Option<Dict<string>>)
    requires UniqueIds(t)
    requires 0 <= j < |t| && t[j].isActive && ParseIntOf(id) == Some(t[j].id)
    requires forall i :: 0 <= i < |t| && t[i].isActive ==> i == j
    requires reply.Accepted? || reply.NoResult?
    ensures GetActive(Delete(t, id, reply).0, true, "", parse) == Ok(None)
  {
    var left := Delete(t, id, reply).0;
    forall k | 0 <= k < |left| ensures !left[k].isActive {
      var i :| 0 <= i < |t| && t[i] == left[k];
      assert left[k].id != t[j].id;
    }
  }

  // ---------------------------------------------------------------------------
  // The activation protocol
  // ---------------------------------------------------------------------------

  /** When the whole table fits in one page, the deactivation goes through
      and the create is accepted, exactly one budget is active afterwards:
      the new one, which `getActive` then returns. */
  lemma CreateLeavesOneActive(t: Table, b: BudgetInput, reply: Reply, newId: int,
                              encode: Dict<string> -> string, parse: string -> Option<Dict<string>>)
    requires |t| <= PageLimit
    requires reply.Accepted?
    ensures var after := Create(t, b, true, true, reply, newId, encode, parse).0;
            |after| == |t| + 1
            && (forall i :: 0 <= i < |after| ==> (after[i].isActive <==> i == |t|))
            && after[|t|].id == newId
            && FirstActive(after) == Some(Written(newId, b, encode, true))
  {
    DeactivateAll(t);
    var after := Create(t, b, true, true, reply, newId, encode, parse).0;
    var cleared := Deactivate(t, true, true);
    assert after == cleared + [Written(newId, b, encode, true)];
    assert forall i :: 0 <= i < |t| ==> after[i] == cleared[i];
    FirstWhereAt(after, IsActive, |t|);
  }

  /** Deactivation errors are swallowed: when the page cannot be read, an
      already active budget stays active next to the new one. */
  lemma FailedDeactivationLeavesTwoActive(t: Table, b: BudgetInput, applied: bool, reply: Reply, newId: int,
                                          encode: Dict<string> -> string, parse: string -> Option<Dict<string>>, i: int)
    requires 0 <= i < |t| && t[i].isActive
    requires reply.Accepted?
    ensures var after := Create(t, b, false, applied, reply, newId, encode, parse).0;
            after[i] == t[i] && after[i].isActive && after[|t|].isActive && i != |t|
  {
  }

  /** An accepted update rewrites one record: a record with any other Id is
      untouched, and no other record is deactivated. */
  lemma UpdateTouchesOne(t: Table, id: Input, b: BudgetInput, reply: Reply,
                         encode: Dict<string> -> string, parse: string -> Option<Dict<string>>, i: int)
    requires ParseIntOf(id).Some? && reply.Accepted?
    requires 0 <= i < |t| && t[i].id != ParseIntOf(id).value
    ensures Update(t, id, b, reply, encode, parse).0[i] == t[i]
    ensures Update(t, id, b, reply, encode, parse).0[i].isActive == t[i].isActive
  {
  }

  /** With a codec that reads back what it writes, a created budget is read
      back by `getAll` with the categories it was given. */
  lemma CreateThenRead(t: Table, b: BudgetInput, reply: Reply, newId: int,
                       encode: Dict<string> -> string, parse: string -> Option<Dict<string>>)
    requires reply.Accepted?
    requires encode(b.categories) != "" && parse(encode(b.categories)) == Some(b.categories)
    ensures var rec := Create(t, b, true, true, reply, newId, encode, parse).1.value;
            rec.categories == b.categories && Decode(parse, rec.record).categories == b.categories
  {
  }
}

=== FILE: category_chart.dfy ===
/** The spending-by-category donut: totals per category, largest first,
    at most eight slices, and the "Total Spent" caption. */
module CategoryChart {
  import opened Wrappers
  import opened Ledger
  import opened Sorting
  import opened Lists
  import opened Records

  const MaxSlices: nat := 8

  /** `([, a], [, b]) => b - a` read as "compare(x, y) <= 0": larger totals
      first. */
  predicate LargerTotalFirst(x: (string, real), y: (string, real)) {
    y.1 <= x.1
  }

  /** The category totals, largest first, cut to eight. */
  function TopCategories(expenses: seq<Expense>): (top: Dict<string>)
    ensures var n := |Group(CategoryAmounts(expenses))|;
            |top| == if n < MaxSlices then n else MaxSlices
  {
    Take(Sort(Group(CategoryAmounts(expenses)), LargerTotalFirst), MaxSlices)
  }

  datatype Chart = Placeholder | Donut(labels: seq<string>, series: seq<real>, total: real)

  /** The chart, or the "No spending data available" placeholder when the
      series is empty. */
  function Show(expenses: seq<Expense>): (c: Chart)
    ensures c.Donut? <==> TopCategories(expenses) != []
    ensures c.Donut? ==> |c.labels| == |c.series| == |TopCategories(expenses)|
    ensures c.Donut? ==> forall i :: 0 <= i < |c.labels| ==> (c.labels[i], c.series[i]) == TopCategories(expenses)[i]
    ensures c.Donut? ==> c.total == Sum(c.series)
  {
    var top := TopCategories(expenses);
    if |Values(top)| == 0 then Placeholder
    else Donut(Keys(top), Values(top), Sum(Values(top)))
  }

  // ---------------------------------------------------------------------------
  // Properties
  // ---------------------------------------------------------------------------

  lemma SortedTotals(expenses: seq<Expense>)
    ensures var totals := Group(CategoryAmounts(expenses));
            var sorted := Sort(totals, LargerTotalFirst);
            && SortedBy(sorted, LargerTotalFirst)
            && UniqueKeys(sorted)
  {
    var totals := Group(CategoryAmounts(expenses));
    SortSorted(totals, LargerTotalFirst);
    GroupUnique(CategoryAmounts(expenses));
    assert DistinctBy(totals, (p: (string, real)) => p.0);
    SortDistinct(totals, LargerTotalFirst, (p: (string, real)) => p.0);
  }

  /** Each slice is a distinct category holding the sum of that category's
      amounts, and the slices run from the largest total down. */
  lemma SlicesAreCategoryTotals(expenses: seq<Expense>)
    ensures var top := TopCategories(expenses);
            var pairs := CategoryAmounts(expenses);
            && UniqueKeys(top)
            && (forall i :: 0 <= i < |top| ==> top[i].0 in Keys(pairs) && top[i].1 == TotalFor(pairs, top[i].0))
            && (forall i, j :: 0 <= i < j < |top| ==> top[j].1 <= top[i].1)
  {
    var pairs := CategoryAmounts(expenses);
    var totals := Group(pairs);
    var sorted := Sort(totals, LargerTotalFirst);
    var top := TopCategories(expenses);
    SortedTotals(expenses);
    GroupUnique(pairs);
    forall i | 0 <= i < |top|
      ensures top[i].0 in Keys(pairs) && top[i].1 == TotalFor(pairs, top[i].0)
    {
      assert top[i] == sorted[i];
      assert sorted[i] in multiset(totals);
      var k :| 0 <= k < |totals| && totals[k] == sorted[i];
      GetUnique(totals, k);
      GroupGet(pairs, totals[k].0);
    }
  }

  /** Each label of the donut is a distinct category spent on, and the value
      beside it is that category's total; the values run from the largest
      down. */
  lemma ChartSlicesAreCategoryTotals(expenses: seq<Expense>)
    ensures var c := Show(expenses);
            var pairs := CategoryAmounts(expenses);
            c.Donut? ==>
              && (forall i, j :: 0 <= i < j < |c.labels| ==> c.labels[i] != c.labels[j])
              && (forall i :: 0 <= i < |c.labels| ==> c.labels[i] in Keys(pairs) && c.series[i] == TotalFor(pairs, c.labels[i]))
              && (forall i, j :: 0 <= i < j < |c.series| ==> c.series[j] <= c.series[i])
  {
    var c := Show(expenses);
    var top := TopCategories(expenses);
    SlicesAreCategoryTotals(expenses);
    if c.Donut? {
      assert forall i :: 0 <= i < |c.labels| ==> c.labels[i] == top[i].0 && c.series[i] == top[i].1;
    }
  }

  /** The slices kept are the largest: every category left out totals no
      more than any slice shown. */
  lemma KeptAreLargest(expenses: seq<Expense>)
    ensures var totals := Group(CategoryAmounts(expenses));
            var top := TopCategories(expenses);
            forall j :: 0 <= j < |totals| && totals[j] !in top ==>
              forall i :: 0 <= i < |top| ==> totals[j].1 <= top[i].1
  {
    var totals := Group(CategoryAmounts(expenses));
    var sorted := Sort(totals, LargerTotalFirst);
    var top := TopCategories(expenses);
    SortedTotals(expenses);
    assert top == sorted[..|top|];
    forall j, i | 0 <= j < |totals| && totals[j] !in top && 0 <= i < |top|
      ensures totals[j].1 <= top[i].1
    {
      assert totals[j] in multiset(sorted);
      LeftOutNoLarger(sorted, |top|, totals[j], i);
    }
  }

  /** In a list sorted largest first, an entry outside the first `n` is no
      larger than any of them. */
  lemma LeftOutNoLarger(sorted: Dict<string>, n: nat, x: (string, real), i: int)
    requires SortedBy(sorted, LargerTotalFirst)
    requires n <= |sorted| && x in sorted && x !in sorted[..n] && 0 <= i < n
    ensures x.1 <= sorted[i].1
  {
    var m :| 0 <= m < |sorted| && sorted[m] == x;
    assert forall k :: 0 <= k < n ==> sorted[..n][k] == sorted[k];
    assert n <= m;
  }

  /** With at most eight categories nothing is cut, and the "Total Spent"
      caption is the sum of every amount. */
  lemma TotalWhenFewCategories(expenses: seq<Expense>)
    requires |Group(CategoryAmounts(expenses))| <= MaxSlices
    requires expenses != []
    ensures Show(expenses).Donut?
    ensures Show(expenses).total == Sum(Amounts(expenses))
  {
    var pairs := CategoryAmounts(expenses);
    var totals := Group(pairs);
    var sorted := Sort(totals, LargerTotalFirst);
    PermutationValuesSum(sorted, totals);
    GroupValuesSum(pairs);
    CategoryAmountsValues(expenses);
    GroupKeys(pairs);
    assert Keys(pairs)[0] == pairs[0].0;
  }

  /** No expenses, no slices: the placeholder is shown; any expense gives at
      least one slice. */
  lemma PlaceholderIffEmpty(expenses: seq<Expense>)
    ensures Show(expenses).Placeholder? <==> expenses == []
  {
    var pairs := CategoryAmounts(expenses);
    GroupKeys(pairs);
    if expenses != [] {
      assert Keys(pairs)[0] == pairs[0].0;
      assert pairs[0].0 in Keys(Group(pairs));
    }
  }
}

=== FILE: dashboard.dfy ===
/** The dashboard's statistics: this month's spending against the budget,
    the savings-goal completion rate, the month-over-month spending change,
    and the five most recent expenses. */
module Dashboard {
  import opened Wrappers
  import opened Dates
  import opened Ledger
  import opened Lists
  import opened Records
  import BudgetOverview

  /** How a stat card colours its change. */
  datatype Trend = Positive | Negative | Neutral

  /** The "Budget Remaining" card's caption. */
  datatype BudgetCaption = OverBudget | PercentLeft(percent: real) | NoCaption

  /** The figures the dashboard shows. */
  datatype Stats = Stats(
    thisMonthSpending: real,
    remainingBudget: real,
    goalCompletionRate: real,
    spendingChange: real,
    changeLabel: Option<real>,
    spendingTrend: Trend,
    budgetCaption: BudgetCaption,
    budgetTrend: Trend,
    activeGoals: nat,
    recent: seq<Expense>)

  datatype Page = Loading | Failed(message: string) | Ready(stats: Stats)

  /** `monthStart <= date && date <= monthEnd` for the month of `now`. */
  predicate InThisMonth(e: Expense, now: Date) {
    InWindow(e.date, MonthStart(now), MonthEnd(now))
  }

  /** The same test for the month before, from
      `new Date(now.getFullYear(), now.getMonth() - 1)`. */
  predicate InLastMonth(e: Expense, now: Date) {
    var last := MonthsBack(now, 1);
    InWindow(e.date, MonthStart(last), MonthEnd(last))
  }

  function ThisMonthExpenses(es: seq<Expense>, now: Date): seq<Expense> {
    Filter(es, e => InThisMonth(e, now))
  }

  function LastMonthExpenses(es: seq<Expense>, now: Date): seq<Expense> {
    Filter(es, e => InLastMonth(e, now))
  }

  /** `totalGoalTarget > 0 ? progress / target * 100 : 0`. */
  function CompletionRate(goals: seq<Goal>): (rate: real)
    ensures Sum(Targets(goals)) <= 0.0 ==> rate == 0.0
    ensures Sum(Targets(goals)) > 0.0 ==> rate * Sum(Targets(goals)) == Sum(Progresses(goals)) * 100.0
    ensures rate >= 0.0 || Sum(Progresses(goals)) < 0.0
  {
    var target := Sum(Targets(goals));
    var progress := Sum(Progresses(goals));
    if target > 0.0 then
      assert progress / target * 100.0 * target == progress * 100.0;
      progress / target * 100.0
    else 0.0
  }

  function Targets(goals: seq<Goal>): (r: seq<real>)
    ensures |r| == |goals| && forall i :: 0 <= i < |goals| ==> r[i] == goals[i].targetAmount
  {
    seq(|goals|, i requires 0 <= i < |goals| => goals[i].targetAmount)
  }

  function Progresses(goals: seq<Goal>): (r: seq<real>)
    ensures |r| == |goals| && forall i :: 0 <= i < |goals| ==> r[i] == goals[i].currentAmount
  {
    seq(|goals|, i requires 0 <= i < |goals| => goals[i].currentAmount)
  }

  /** `last > 0 ? (current - last) / last * 100 : 0`. */
  function SpendingChange(current: real, last: real): (change: real)
    ensures last <= 0.0 ==> change == 0.0
    ensures last > 0.0 ==> change * last == (current - last) * 100.0
    ensures last > 0.0 ==> (change > 0.0 <==> current > last) && (change < 0.0 <==> current < last)
  {
    if last > 0.0 then
      assert (current - last) / last > 0.0 <==> current - last > 0.0;
      assert (current - last) / last < 0.0 <==> current - last < 0.0;
      assert (current - last) / last * 100.0 * last == (current - last) * 100.0;
      (current - last) / last * 100.0
    else 0.0
  }

  /** The change is relative to last month: applying it to last month's
      spending gives this month's back. */
  lemma SpendingChangeRecoversCurrent(current: real, last: real)
    requires last > 0.0
    ensures last + last * SpendingChange(current, last) / 100.0 == current
  {
    var change := SpendingChange(current, last);
    assert last * change == (current - last) * 100.0;
  }

  /** More spending than last month is bad news. */
  function SpendingTrend(change: real): (t: Trend)
    ensures t == Negative <==> change > 0.0
    ensures t == Positive <==> change < 0.0
    ensures t == Neutral <==> change == 0.0
  {
    if change > 0.0 then Negative else if change < 0.0 then Positive else Neutral
  }

  /** The change caption, omitted when the change is 0. */
  function ChangeLabel(change: real): (shown: Option<real>)
    ensures shown.None? <==> change == 0.0
    ensures shown.Some? ==> shown.value == change
  {
    if change != 0.0 then Some(change) else None
  }

  function Caption(remaining: real, totalBudget: real): (c: BudgetCaption)
    ensures c == OverBudget <==> remaining < 0.0
    ensures c.PercentLeft? <==> remaining >= 0.0 && totalBudget > 0.0
    ensures c.PercentLeft? ==> c.percent * totalBudget == remaining * 100.0
  {
    if remaining < 0.0 then OverBudget
    else if totalBudget > 0.0 then PercentLeft(remaining / totalBudget * 100.0)
    else NoCaption
  }

  function Show(
    loading: bool, error: Option<string>, expenses: seq<Expense>,
    budget: Option<Budget>, goals: seq<Goal>, now: Date): (p: Page)
    ensures loading ==> p.Loading?
    ensures !loading && error.Some? && error.value != "" ==> p == Failed(error.value)
    ensures !loading && (error.None? || error.value == "") ==> p.Ready?
    ensures p.Ready? ==> |p.stats.recent| <= 5 && p.stats.activeGoals == |goals|
    ensures p.Ready? ==>
      var st := p.stats;
      var total := if budget.Some? then budget.value.totalBudget.GetOr(0.0) else 0.0;
      && st.goalCompletionRate == CompletionRate(goals)
      && st.spendingChange == SpendingChange(st.thisMonthSpending, Spending(LastMonthExpenses(expenses, now)))
      && st.changeLabel == ChangeLabel(st.spendingChange)
      && st.spendingTrend == SpendingTrend(st.spendingChange)
      && st.budgetCaption == Caption(st.remainingBudget, total)
      && (st.budgetTrend == Negative <==> st.remainingBudget < 0.0)
      && (st.budgetTrend == Positive <==> st.remainingBudget >= 0.0)
  {
    if loading then Loading
    else if error.Some? && error.value != "" then Failed(error.value)
    else
      var spending := Spending(ThisMonthExpenses(expenses, now));
      var totalBudget := if budget.Some? then budget.value.totalBudget.GetOr(0.0) else 0.0;
      var remaining := totalBudget - spending;
      var change := SpendingChange(spending, Spending(LastMonthExpenses(expenses, now)));
      Ready(Stats(
        spending, remaining, CompletionRate(goals), change,
        ChangeLabel(change), SpendingTrend(change),
        Caption(remaining, totalBudget), if remaining < 0.0 then Negative else Positive,
        |goals|, Take(expenses, 5)))
  }

  // ---------------------------------------------------------------------------
  // Properties
  // ---------------------------------------------------------------------------

  /** The window is inclusive at both ends and holds exactly the expenses of
      the current calendar month. */
  lemma ThisMonthMeaning(es: seq<Expense>, now: Date)
    ensures forall i :: 0 <= i < |es| ==> (InThisMonth(es[i], now) <==> SameMonth(es[i].date, now))
    ensures InThisMonth(Expense(0, 0.0, "", "", MonthStart(now), ""), now)
    ensures InThisMonth(Expense(0, 0.0, "", "", MonthEnd(now), ""), now)
  {
    forall i | 0 <= i < |es| ensures InThisMonth(es[i], now) <==> SameMonth(es[i].date, now) {
      MonthWindow(es[i].date, now);
    }
  }

  /** The previous month's window holds exactly the expenses whose month is
      the one before the current month, across a year boundary too. */
  lemma LastMonthMeaning(e: Expense, now: Date)
    ensures InLastMonth(e, now) <==> MonthIndex(e.date) == MonthIndex(now) - 1
  {
    var last := MonthsBack(now, 1);
    MonthWindow(e.date, last);
    MonthIndexOrder(e.date, last);
  }

  /** The dashboard and the budget overview count the same expenses as
      "this month", although one compares dates and the other month names. */
  lemma SameMonthAsOverview(es: seq<Expense>, now: Date)
    ensures ThisMonthExpenses(es, now) == BudgetOverview.CurrentMonthExpenses(es, now)
  {
    forall i | 0 <= i < |es|
      ensures InThisMonth(es[i], now) == BudgetOverview.InCurrentMonth(es[i], now)
    {
      MonthWindow(es[i].date, now);
      BudgetOverview.InCurrentMonthMeaning(es[i], now);
    }
    FilterSameTest(es, e => InThisMonth(e, now), e => BudgetOverview.InCurrentMonth(e, now));
  }

  /** The remaining budget is the budget's total (0 without a budget or a
      total) minus this month's spending, and with no expense this month it
      is the whole total. */
  lemma RemainingBudget(expenses: seq<Expense>, budget: Option<Budget>, goals: seq<Goal>, now: Date)
    ensures var p := Show(false, None, expenses, budget, goals, now);
            var total := if budget.Some? then budget.value.totalBudget.GetOr(0.0) else 0.0;
            && p.Ready?
            && p.stats.thisMonthSpending == Sum(Amounts(ThisMonthExpenses(expenses, now)))
            && p.stats.remainingBudget == total - p.stats.thisMonthSpending
            && (ThisMonthExpenses(expenses, now) == [] ==> p.stats.remainingBudget == total)
  {
  }

  /** The spending card reads as bad news exactly when this month's spending
      is above last month's, good news exactly when it is below, and neutral
      when it is equal or there was no spending last month. */
  lemma SpendingTrendMeaning(expenses: seq<Expense>, budget: Option<Budget>, goals: seq<Goal>, now: Date)
    ensures var p := Show(false, None, expenses, budget, goals, now);
            var current := Spending(ThisMonthExpenses(expenses, now));
            var last := Spending(LastMonthExpenses(expenses, now));
            && p.Ready?
            && (p.stats.spendingTrend == Negative <==> last > 0.0 && current > last)
            && (p.stats.spendingTrend == Positive <==> last > 0.0 && current < last)
            && (p.stats.changeLabel.None? <==> last <= 0.0 || current == last)
  {
  }

  /** When every goal is between 0 and its target, the completion rate is a
      percentage between 0 and 100. */
  lemma CompletionRateBounded(goals: seq<Goal>)
    requires forall i :: 0 <= i < |goals| ==> 0.0 <= goals[i].currentAmount <= goals[i].targetAmount
    ensures 0.0 <= CompletionRate(goals) <= 100.0
  {
    var zeros := seq(|goals|, i => 0.0);
    SumMonotone(zeros, Progresses(goals));
    SumMonotone(Progresses(goals), Targets(goals));
    SumZero(zeros);
  }

  /** When every goal has reached its target exactly and some target is
      positive, the completion rate is 100. */
  lemma CompletionRateAllReached(goals: seq<Goal>)
    requires forall i :: 0 <= i < |goals| ==> goals[i].currentAmount == goals[i].targetAmount
    requires Sum(Targets(goals)) > 0.0
    ensures CompletionRate(goals) == 100.0
  {
    assert Progresses(goals) == Targets(goals);
    HundredPercent(CompletionRate(goals), Sum(Targets(goals)), Sum(Progresses(goals)));
  }

  /** The rate of a part equal to its positive whole is 100. */
  lemma HundredPercent(r: real, t: real, p: real)
    requires t > 0.0 && p == t && r * t == p * 100.0
    ensures r == 100.0
  {
  }

  /** The recent list is the first five expenses in the order given, or all
      of them when there are fewer. */
  lemma RecentAreFirstFive(expenses: seq<Expense>, budget: Option<Budget>, goals: seq<Goal>, now: Date)
    ensures var p := Show(false, None, expenses, budget, goals, now);
            && |p.stats.recent| == (if |expenses| < 5 then |expenses| else 5)
            && forall i :: 0 <= i < |p.stats.recent| ==> p.stats.recent[i] == expenses[i]
  {
  }
}

=== FILE: dates.dfy ===
/** Calendar dates as the application handles them: an expense date or goal
    deadline is a `yyyy-MM-dd` string read with `new Date(...)`, compared with
    `<`/`>=` against month boundaries from date-fns, and bucketed per day or
    per month. A date is a valid proleptic Gregorian (year, month, day); time
    of day appears only where "now" carries it, and time zones are left out. */
module Dates {

  datatype CivilDate = CivilDate(year: int, month: int, day: int)

  predicate IsLeapYear(y: int) {
    y % 4 == 0 && (y % 100 != 0 || y % 400 == 0)
  }

  function DaysInMonth(y: int, m: int): (n: int)
    requires 1 <= m <= 12
    ensures 28 <= n <= 31
  {
    if m == 2 then (if IsLeapYear(y) then 29 else 28)
    else if m == 4 || m == 6 || m == 9 || m == 11 then 30
    else 31
  }

  predicate ValidDate(d: CivilDate) {
    1 <= d.month <= 12 && 1 <= d.day <= DaysInMonth(d.year, d.month)
  }

  /** A calendar day that exists. */
  type Date = d: CivilDate | ValidDate(d) witness CivilDate(2000, 1, 1)

  // ---------------------------------------------------------------------------
  // Ordering: JavaScript compares the instants at the start of each day
  // ---------------------------------------------------------------------------

  /** `a < b` for the start-of-day instants of two dates. */
  predicate Before(a: CivilDate, b: CivilDate) {
    a.year < b.year || (a.year == b.year && (a.month < b.month || (a.month == b.month && a.day < b.day)))
  }

  /** `a <= b` for the start-of-day instants of two dates. */
  predicate AtOrBefore(a: CivilDate, b: CivilDate) {
    !Before(b, a)
  }

  /** `lo <= d && d <= hi`: the inclusive window test used by every filter. */
  predicate InWindow(d: CivilDate, lo: CivilDate, hi: CivilDate) {
    AtOrBefore(lo, d) && AtOrBefore(d, hi)
  }

  predicate SameMonth(a: CivilDate, b: CivilDate) {
    a.year == b.year && a.month == b.month
  }

  // ---------------------------------------------------------------------------
  // Month boundaries
  // ---------------------------------------------------------------------------

  /** date-fns `startOfMonth`. */
  function MonthStart(t: Date): (r: Date)
    ensures SameMonth(r, t) && r.day == 1
  {
    CivilDate(t.year, t.month, 1)
  }

  /** date-fns `endOfMonth`, at day granularity: the last day of the month
      (the instant 23:59:59.999 of it is after every start-of-day instant of
      that day, so the inclusive comparison is the same). */
  function MonthEnd(t: Date): (r: Date)
    ensures SameMonth(r, t) && r.day == DaysInMonth(t.year, t.month)
  {
    CivilDate(t.year, t.month, DaysInMonth(t.year, t.month))
  }

  /** The window from the start to the end of a month holds exactly the days
      of that month. */
  lemma MonthWindow(d: Date, t: Date)
    ensures InWindow(d, MonthStart(t), MonthEnd(t)) <==> SameMonth(d, t)
  {
  }

  /** Months counted from year 0: January of year y is 12 * y. */
  function MonthIndex(d: CivilDate): int {
    d.year * 12 + d.month - 1
  }

  /** The first day of the month `k` months before the month of `t`:
      `startOfMonth(subMonths(t, k))`, and for k = 1 also
      `new Date(t.getFullYear(), t.getMonth() - 1)`. */
  function MonthsBack(t: Date, k: nat): (r: Date)
    ensures r.day == 1 && MonthIndex(r) == MonthIndex(t) - k
  {
    var idx := MonthIndex(t) - k;
    CivilDate(idx / 12, idx % 12 + 1, 1)
  }

  /** On valid dates, comparing (year, month) lexicographically is comparing
      month indices. */
  lemma MonthIndexOrder(a: Date, b: Date)
    ensures MonthIndex(a) < MonthIndex(b) <==> (a.year < b.year || (a.year == b.year && a.month < b.month))
    ensures MonthIndex(a) == MonthIndex(b) <==> SameMonth(a, b)
  {
  }

  /** The window from the start of the month `k` months back to the end of
      the current month holds exactly the dates whose month lies in that span
      of k + 1 months. */
  lemma MonthsWindow(d: Date, t: Date, k: nat)
    ensures InWindow(d, MonthsBack(t, k), MonthEnd(t))
        <==> MonthIndex(t) - k <= MonthIndex(d) <= MonthIndex(t)
  {
    var s := MonthsBack(t, k);
    MonthIndexOrder(s, d);
    MonthIndexOrder(d, t);
  }

  /** The days of the month of `t`, first to last
      (`eachDayOfInterval` over the month). */
  function DaysOfMonth(t: Date): (days: seq<Date>)
    ensures |days| == DaysInMonth(t.year, t.month)
    ensures forall i :: 0 <= i < |days| ==> days[i] == CivilDate(t.year, t.month, i + 1)
  {
    seq(DaysInMonth(t.year, t.month), i requires 0 <= i < DaysInMonth(t.year, t.month) => CivilDate(t.year, t.month, i + 1))
  }

  /** A date is among the days of the month exactly when it lies in that month. */
  lemma DaysOfMonthMembers(d: Date, t: Date)
    ensures d in DaysOfMonth(t) <==> SameMonth(d, t)
  {
    if SameMonth(d, t) {
      assert DaysOfMonth(t)[d.day - 1] == d;
    }
  }

  // ---------------------------------------------------------------------------
  // Day steps
  // ---------------------------------------------------------------------------

  /** The day before `t`. */
  function PrevDay(t: Date): (r: Date)
    ensures Before(r, t)
  {
    if t.day > 1 then CivilDate(t.year, t.month, t.day - 1)
    else if t.month > 1 then CivilDate(t.year, t.month - 1, DaysInMonth(t.year, t.month - 1))
    else CivilDate(t.year - 1, 12, 31)
  }

  /** No date lies strictly between a day and the day before it. */
  lemma PrevDayAdjacent(d: Date, t: Date)
    requires Before(d, t)
    ensures AtOrBefore(d, PrevDay(t))
  {
  }

  /** The day `k` days before `t`: `new Date(y, m, t.getDate() - k)`. */
  function DaysBack(t: Date, k: nat): (r: Date)
    ensures AtOrBefore(r, t)
    ensures k > 0 ==> Before(r, t)
    decreases k
  {
    if k == 0 then t else DaysBack(PrevDay(t), k - 1)
  }

  /** The `n` consecutive days ending with `t`, in calendar order
      (`eachDayOfInterval` from `DaysBack(t, n - 1)` to `t`). */
  function DaysEndingAt(t: Date, n: nat): (days: seq<Date>)
    ensures |days| == n
    ensures n > 0 ==> days[0] == DaysBack(t, n - 1) && days[n - 1] == t
    ensures forall i :: 0 <= i < |days| ==> InWindow(days[i], DaysBack(t, n - 1), t)
    decreases n
  {
    if n == 0 then []
    else if n == 1 then [t]
    else DaysEndingAt(PrevDay(t), n - 1) + [t]
  }

  /** Every date in the window `[DaysBack(t, n - 1), t]` is one of the listed
      days, so the listing is the whole window. */
  lemma {:induction false} DaysEndingAtCovers(d: Date, t: Date, n: nat)
    requires n > 0
    requires InWindow(d, DaysBack(t, n - 1), t)
    ensures d in DaysEndingAt(t, n)
    decreases n
  {
    if d != t {
      assert Before(d, t);
      PrevDayAdjacent(d, t);
      if n > 1 {
        DaysEndingAtCovers(d, PrevDay(t), n - 1);
      }
    }
  }

  /** The listing is strictly increasing, so no day appears twice. */
  lemma {:induction false} DaysEndingAtIncreasing(t: Date, n: nat)
    ensures forall i, j :: 0 <= i < j < n ==> Before(DaysEndingAt(t, n)[i], DaysEndingAt(t, n)[j])
    decreases n
  {
    if n > 1 {
      DaysEndingAtIncreasing(PrevDay(t), n - 1);
      var days := DaysEndingAt(t, n);
      var prefix := DaysEndingAt(PrevDay(t), n - 1);
      assert days == prefix + [t];
      forall i, j | 0 <= i < j < n
        ensures Before(days[i], days[j])
      {
        if j == n - 1 {
          assert AtOrBefore(prefix[i], PrevDay(t));
        } else {
          assert days[i] == prefix[i] && days[j] == prefix[j];
        }
      }
    }
  }

  // ---------------------------------------------------------------------------
  // Day numbers and whole-day differences
  // ---------------------------------------------------------------------------

  function DaysInYear(y: int): int {
    if IsLeapYear(y) then 366 else 365
  }

  /** Days in the years before `y` since a fixed origin (proleptic Gregorian). */
  function DaysBeforeYear(y: int): int {
    365 * (y - 1) + (y - 1) / 4 - (y - 1) / 100 + (y - 1) / 400
  }

  /** Days in the months of year `y` before month `m`. */
  function DaysBeforeMonth(y: int, m: int): (n: int)
    requires 1 <= m <= 12
    ensures n >= 0
  {
    if m == 1 then 0 else DaysBeforeMonth(y, m - 1) + DaysInMonth(y, m - 1)
  }

  /** The day number of a date; consecutive dates have consecutive numbers. */
  function Ordinal(d: Date): int {
    DaysBeforeYear(d.year) + DaysBeforeMonth(d.year, d.month) + d.day
  }

  /** The leap-day counts step by one exactly at multiples of 4, 100, 400. */
  lemma DivSteps(y: int)
    ensures y / 4 - (y - 1) / 4 == (if y % 4 == 0 then 1 else 0)
    ensures y / 100 - (y - 1) / 100 == (if y % 100 == 0 then 1 else 0)
    ensures y / 400 - (y - 1) / 400 == (if y % 400 == 0 then 1 else 0)
    ensures y % 100 == 0 ==> y % 4 == 0
    ensures y % 400 == 0 ==> y % 100 == 0
  {
  }

  lemma DaysBeforeNextYear(y: int)
    ensures DaysBeforeYear(y + 1) == DaysBeforeYear(y) + DaysInYear(y)
  {
    DivSteps(y);
  }

  /** The twelve months fill the year. */
  lemma DaysBeforeDecember(y: int)
    ensures DaysBeforeMonth(y, 12) + 31 == DaysInYear(y)
  {
    var feb := DaysInMonth(y, 2);
    assert DaysBeforeMonth(y, 2) == 31;
    assert DaysBeforeMonth(y, 3) == 31 + feb;
    assert DaysBeforeMonth(y, 4) == 62 + feb;
    assert DaysBeforeMonth(y, 5) == 92 + feb;
    assert DaysBeforeMonth(y, 6) == 123 + feb;
    assert DaysBeforeMonth(y, 7) == 153 + feb;
    assert DaysBeforeMonth(y, 8) == 184 + feb;
    assert DaysBeforeMonth(y, 9) == 215 + feb;
    assert DaysBeforeMonth(y, 10) == 245 + feb;
    assert DaysBeforeMonth(y, 11) == 276 + feb;
    assert DaysBeforeMonth(y, 12) == 306 + feb;
  }

  lemma {:induction false} DaysBeforeMonthGrows(y: int, m: int, m': int)
    requires 1 <= m < m' <= 12
    ensures DaysBeforeMonth(y, m) + DaysInMonth(y, m) <= DaysBeforeMonth(y, m')
  {
    if m' > m + 1 {
      DaysBeforeMonthGrows(y, m, m' - 1);
    }
  }

  lemma {:induction false} DaysBeforeYearGrows(y: int, y': int)
    requires y < y'
    ensures DaysBeforeYear(y) + DaysInYear(y) <= DaysBeforeYear(y')
    decreases y' - y
  {
    DaysBeforeNextYear(y);
    if y' > y + 1 {
      DaysBeforeYearGrows(y + 1, y');
      DaysBeforeNextYear(y + 1);
    }
  }

  /** Day numbers follow the calendar order. */
  lemma OrdinalOrder(a: Date, b: Date)
    ensures Before(a, b) <==> Ordinal(a) < Ordinal(b)
    ensures a == b <==> Ordinal(a) == Ordinal(b)
  {
    forall x: Date, z: Date | Before(x, z)
      ensures Ordinal(x) < Ordinal(z)
    {
      OrdinalMonotone(x, z);
    }
    if a != b {
      assert Before(a, b) || Before(b, a);
    }
  }

  lemma OrdinalMonotone(a: Date, b: Date)
    requires Before(a, b)
    ensures Ordinal(a) < Ordinal(b)
  {
    if a.year < b.year {
      if a.month < 12 {
        DaysBeforeMonthGrows(a.year, a.month, 12);
      }
      DaysBeforeDecember(a.year);
      DaysBeforeYearGrows(a.year, b.year);
    } else if a.month < b.month {
      DaysBeforeMonthGrows(a.year, a.month, b.month);
    }
  }

  /** The day before is one day number earlier. */
  lemma PrevDayOrdinal(t: Date)
    ensures Ordinal(PrevDay(t)) == Ordinal(t) - 1
  {
    if t.day == 1 {
      if t.month > 1 {
        assert DaysBeforeMonth(t.year, t.month) == DaysBeforeMonth(t.year, t.month - 1) + DaysInMonth(t.year, t.month - 1);
      } else {
        DaysBeforeDecember(t.year - 1);
        DaysBeforeNextYear(t.year - 1);
      }
    }
  }

  /** Going back `k` days lowers the day number by `k`. */
  lemma {:induction false} DaysBackOrdinal(t: Date, k: nat)
    ensures Ordinal(DaysBack(t, k)) == Ordinal(t) - k
    decreases k
  {
    if k > 0 {
      PrevDayOrdinal(t);
      DaysBackOrdinal(PrevDay(t), k - 1);
    }
  }

  /** Only February's length depends on the year. */
  lemma {:induction false} DaysBeforeMonthAcrossYears(y: int, y': int, m: int)
    requires 1 <= m <= 12
    ensures DaysBeforeMonth(y', m) - DaysBeforeMonth(y, m) == if m <= 2 then 0 else DaysInMonth(y', 2) - DaysInMonth(y, 2)
    decreases m
  {
    if m > 1 {
      DaysBeforeMonthAcrossYears(y, y', m - 1);
    }
  }

  /** The same month and day of a later year is at least 364 days on. */
  lemma SameDayLaterYear(a: Date, b: Date)
    requires a.month == b.month && a.day == b.day && a.year < b.year
    ensures Ordinal(b) - Ordinal(a) >= 364
  {
    DaysBeforeYearGrows(a.year, b.year);
    DaysBeforeMonthAcrossYears(a.year, b.year, a.month);
  }

  /** Fewer than 365 consecutive days never repeat a month and day, so their
      'MMM d' labels are distinct. */
  lemma DaysEndingAtDistinctDays(t: Date, n: nat)
    requires n <= 364
    ensures var days := DaysEndingAt(t, n);
            forall i, j :: 0 <= i < j < n ==> days[i].month != days[j].month || days[i].day != days[j].day
  {
    var days := DaysEndingAt(t, n);
    DaysEndingAtIncreasing(t, n);
    if n > 0 {
      DaysBackOrdinal(t, n - 1);
    }
    forall i, j | 0 <= i < j < n
      ensures days[i].month != days[j].month || days[i].day != days[j].day
    {
      if days[i].month == days[j].month && days[i].day == days[j].day {
        OrdinalOrder(DaysBack(t, n - 1), days[i]);
        OrdinalOrder(days[j], t);
        SameDayLaterYear(days[i], days[j]);
      }
    }
  }

  const MsPerDay: int := 86400000

  /** Integer division truncating toward zero, as `Math.trunc(a / b)`. */
  function TruncDiv(a: int, b: int): (q: int)
    requires b > 0
    ensures a >= 0 ==> b * q <= a < b * (q + 1)
    ensures a < 0 ==> b * (q - 1) < a <= b * q
  {
    if a >= 0 then a / b else -((-a) / b)
  }

  /** date-fns `differenceInDays(deadline, now)` where the deadline is read
      at the start of its day and "now" is `msOfDay` milliseconds into
      `today`: the number of full days between the two instants, truncated
      toward zero. */
  function DaysUntil(deadline: Date, today: Date, msOfDay: int): int
    requires 0 <= msOfDay < MsPerDay
  {
    TruncDiv((Ordinal(deadline) - Ordinal(today)) * MsPerDay - msOfDay, MsPerDay)
  }

  /** The whole-day difference is the calendar-day difference, less one for a
      future deadline when the current day is already under way. */
  lemma DaysUntilCalendar(deadline: Date, today: Date, msOfDay: int)
    requires 0 <= msOfDay < MsPerDay
    ensures var k := Ordinal(deadline) - Ordinal(today);
      DaysUntil(deadline, today, msOfDay) == (if k > 0 && msOfDay > 0 then k - 1 else k)
  {
    var k := Ordinal(deadline) - Ordinal(today);
    var a := k * MsPerDay - msOfDay;
    var q := DaysUntil(deadline, today, msOfDay);
    if k > 0 && msOfDay > 0 {
      assert MsPerDay * (k - 1) < a < MsPerDay * k;
      assert q == k - 1;
    } else if k > 0 || (k == 0 && msOfDay == 0) {
      assert a == MsPerDay * k;
      assert q == k;
    } else if k == 0 {
      assert -MsPerDay < a <= 0;
      assert q == 0;
    } else {
      assert MsPerDay * (k - 1) < MsPerDay * k - msOfDay <= MsPerDay * k;
      assert q == k;
    }
  }

  /** A deadline is in the past (fewer than zero days remain) exactly when it
      falls on an earlier calendar day than today. */
  lemma DaysUntilNegative(deadline: Date, today: Date, msOfDay: int)
    requires 0 <= msOfDay < MsPerDay
    ensures DaysUntil(deadline, today, msOfDay) < 0 <==> Before(deadline, today)
  {
    DaysUntilCalendar(deadline, today, msOfDay);
    OrdinalOrder(deadline, today);
  }
}

=== FILE: expense_form.dfy ===
/** The expense form: the initial fields, the validator, the payload handed
    to `onSubmit`, the reset after a create, and field edits. */
module ExpenseForm {
  import opened Wrappers
  import opened Text
  import opened Forms
  import Records
  import Dates

  datatype Field = Amount | Category | Description | When

  /** The four fields; the amount is a number when copied from a record and
      the typed-in text otherwise, the date is the `yyyy-MM-dd` text. */
  datatype FormData = FormData(
    amount: Input,
    category: string,
    description: string,
    date: string)

  const AmountMessage: string := "Please enter a valid amount"
  const CategoryMessage: string := "Please select a category"
  const DescriptionMessage: string := "Please enter a description"
  const DateMessage: string := "Please select a date"

  /** The form's starting fields: an edited expense's values with `||`
      defaults (a zero amount shows as empty), or empty fields dated
      `today`. `dateText` renders a record's date. */
  function Initial(initial: Option<Records.Expense>, today: string, dateText: Dates.Date -> string): (f: FormData)
    ensures initial.None? ==> f == FormData(Str(""), "", "", today)
    ensures initial.Some? && initial.value.amount != 0.0 ==> f.amount == Num(initial.value.amount)
    ensures initial.Some? && initial.value.amount == 0.0 ==> f.amount == Str("")
    ensures initial.Some? ==> f.category == initial.value.category && f.description == initial.value.description
    ensures initial.Some? && dateText(initial.value.date) != "" ==> f.date == dateText(initial.value.date)
    ensures initial.Some? && dateText(initial.value.date) == "" ==> f.date == today
  {
    match initial
    case None => FormData(Str(""), "", "", today)
    case Some(e) =>
      var shown := dateText(e.date);
      FormData(
        if e.amount != 0.0 then Num(e.amount) else Str(""),
        e.category,
        e.description,
        if shown != "" then shown else today)
  }

  /** `validateForm`: one message per failing field. */
  function Validate(f: FormData): (errors: map<Field, string>)
    ensures Amount in errors <==> !Truthy(f.amount) || LessEq(f.amount, Num(0.0))
    ensures Category in errors <==> f.category == ""
    ensures Description in errors <==> IsBlank(f.description)
    ensures When in errors <==> f.date == ""
    ensures Amount in errors ==> errors[Amount] == AmountMessage
    ensures Category in errors ==> errors[Category] == CategoryMessage
    ensures Description in errors ==> errors[Description] == DescriptionMessage
    ensures When in errors ==> errors[When] == DateMessage
  {
    var e0: map<Field, string> := map[];
    var e1 := if !Truthy(f.amount) || LessEq(f.amount, Num(0.0)) then e0[Amount := AmountMessage] else e0;
    var e2 := if f.category == "" then e1[Category := CategoryMessage] else e1;
    var e3 := if IsBlank(f.description) then e2[Description := DescriptionMessage] else e2;
    if f.date == "" then e3[When := DateMessage] else e3
  }

  /** An accepted amount that reads as a number is positive. */
  lemma AcceptedAmountIsPositive(f: FormData)
    requires NoErrors(Validate(f))
    requires ToNum(f.amount).Some?
    ensures ToNum(f.amount).value > 0.0
  {
    assert Amount !in Validate(f);
  }

  /** Any amount reading as zero or less, the empty field included, is
      rejected. */
  lemma NonPositiveAmountRejected(f: FormData)
    requires ToNum(f.amount).Some? && ToNum(f.amount).value <= 0.0
    ensures Amount in Validate(f)
  {
  }

  /** The expense handed to `onSubmit`: the amount through `parseFloat`
      (`None` for `NaN`), the creation stamp, and the Id only when editing. */
  datatype Payload = Payload(
    amount: Option<real>,
    category: string,
    description: string,
    date: string,
    createdAt: string,
    id: Option<int>)

  /** `handleSubmit` up to the `onSubmit` call; `createdAt` is the clock's
      ISO stamp. */
  function Submit(f: FormData, editing: Option<int>, createdAt: string): (s: Submission<Payload>)
    ensures s.Submitted? <==> NoErrors(Validate(f))
    ensures s.Submitted? ==> s.payload.amount == ParseFloatOf(f.amount)
    ensures s.Submitted? ==> s.payload.category == f.category && s.payload.description == f.description
    ensures s.Submitted? ==> s.payload.date == f.date && s.payload.createdAt == createdAt
    ensures s.Submitted? ==> s.payload.id == editing
  {
    if !NoErrors(Validate(f)) then Blocked
    else Submitted(Payload(ParseFloatOf(f.amount), f.category, f.description, f.date, createdAt, editing))
  }

  /** A whole number typed into the amount field is submitted as that
      number. */
  lemma TypedAmountSubmitted(f: FormData, n: nat, editing: Option<int>, createdAt: string)
    requires f.amount == Str(NatToString(n))
    requires NoErrors(Validate(f))
    ensures n > 0
    ensures Submit(f, editing, createdAt).Submitted?
    ensures Submit(f, editing, createdAt).payload.amount == Some(n as real)
  {
    TypedNumber(n);
    AcceptedAmountIsPositive(f);
  }

  /** The form after `onSubmit` settles: cleared, and dated today, only
      after a successful create. */
  function AfterSubmit(f: FormData, editing: Option<int>, succeeded: bool, today: string): (r: FormData)
    ensures editing.Some? || !succeeded ==> r == f
    ensures editing.None? && succeeded ==> r == Initial(None, today, _ => "")
  {
    if succeeded && editing.None? then FormData(Str(""), "", "", today) else f
  }

  /** The text of a field as the inputs show it. */
  function Shown(f: FormData, field: Field): Input {
    match field
    case Amount => f.amount
    case Category => Str(f.category)
    case Description => Str(f.description)
    case When => Str(f.date)
  }

  /** `handleChange(field, value)` with the input's text. */
  function Change(f: FormData, errors: map<Field, string>, field: Field, value: string): (r: (FormData, map<Field, string>))
    ensures Shown(r.0, field) == Str(value)
    ensures forall other: Field :: other != field ==> Shown(r.0, other) == Shown(f, other)
    ensures r.1 == ClearError(errors, field)
  {
    var g := match field
      case Amount => f.(amount := Str(value))
      case Category => f.(category := value)
      case Description => f.(description := value)
      case When => f.(date := value);
    (g, ClearError(errors, field))
  }
}

=== FILE: expense_list.dfy ===
/** The expense list: a category filter and a case-insensitive search,
    then one of three orderings. */
module ExpenseList {
  import opened Text
  import opened Dates
  import opened Sorting
  import opened Lists
  import opened Records

  /** The category choices of the filter. */
  const FilterCategories: seq<string> := [
    "Food & Dining", "Transportation", "Housing", "Utilities", "Entertainment",
    "Healthcare", "Shopping", "Education", "Travel", "Other"]

  /** `!filterCategory || expense.category === filterCategory`. */
  predicate MatchesCategory(e: Expense, filterCategory: string) {
    filterCategory == "" || e.category == filterCategory
  }

  /** An empty search matches everything; otherwise the lower-cased term
      must occur in the lower-cased description or category. */
  predicate MatchesSearch(e: Expense, searchTerm: string) {
    searchTerm == "" ||
    Contains(Lower(e.description), Lower(searchTerm)) ||
    Contains(Lower(e.category), Lower(searchTerm))
  }

  predicate Kept(e: Expense, filterCategory: string, searchTerm: string) {
    MatchesCategory(e, filterCategory) && MatchesSearch(e, searchTerm)
  }

  // ---------------------------------------------------------------------------
  // The comparators, read as "compare(a, b) <= 0"
  // ---------------------------------------------------------------------------

  /** 'date': `new Date(b.date) - new Date(a.date)`, newest first. */
  predicate NewerFirst(a: Expense, b: Expense) {
    AtOrBefore(b.date, a.date)
  }

  /** 'amount': `b.amount - a.amount`, largest first. */
  predicate LargerFirst(a: Expense, b: Expense) {
    b.amount <= a.amount
  }

  /** 'category': `a.category.localeCompare(b.category)`, in character-code
      order. */
  predicate CategoryOrder(a: Expense, b: Expense) {
    StrLe(a.category, b.category)
  }

  /** Any other key: the comparator returns 0 for every pair. */
  predicate Unordered(a: Expense, b: Expense) {
    true
  }

  function Comparator(sortBy: string): (Expense, Expense) -> bool {
    match sortBy
    case "date" => NewerFirst
    case "amount" => LargerFirst
    case "category" => CategoryOrder
    case _ => Unordered
  }

  /** `filteredExpenses`: the kept expenses, ordered by `sortBy`. */
  function Visible(expenses: seq<Expense>, filterCategory: string, searchTerm: string, sortBy: string): (r: seq<Expense>)
    ensures |r| <= |expenses|
    ensures forall i :: 0 <= i < |r| ==> r[i] in expenses && Kept(r[i], filterCategory, searchTerm)
    ensures forall i :: 0 <= i < |expenses| && Kept(expenses[i], filterCategory, searchTerm) ==> expenses[i] in r
  {
    var kept := Filter(expenses, e => Kept(e, filterCategory, searchTerm));
    var r := Sort(kept, Comparator(sortBy));
    forall i | 0 <= i < |r|
      ensures r[i] in expenses && Kept(r[i], filterCategory, searchTerm)
    {
      assert r[i] in multiset(kept);
      var k :| 0 <= k < |kept| && kept[k] == r[i];
    }
    forall i | 0 <= i < |expenses| && Kept(expenses[i], filterCategory, searchTerm)
      ensures expenses[i] in r
    {
      assert expenses[i] in kept;
      assert expenses[i] in multiset(r);
    }
    r
  }

  /** With no category chosen and an empty search, every expense is shown:
      the list is a reordering of all of them. */
  lemma NoFilterKeepsAll(expenses: seq<Expense>, sortBy: string)
    ensures multiset(Visible(expenses, "", "", sortBy)) == multiset(expenses)
  {
    FilterAll(expenses, e => Kept(e, "", ""));
  }

  /** The shown list is a reordering of exactly the kept expenses, so
      "Showing X of Y" never has X above Y. */
  lemma VisibleIsPermutation(expenses: seq<Expense>, filterCategory: string, searchTerm: string, sortBy: string)
    ensures multiset(Visible(expenses, filterCategory, searchTerm, sortBy))
         == multiset(Filter(expenses, e => Kept(e, filterCategory, searchTerm)))
  {
  }

  lemma DateOrderConsistent()
    ensures IsTotalPreorder(NewerFirst)
  {
  }

  lemma CategoryOrderConsistent()
    ensures IsTotalPreorder(CategoryOrder)
  {
    forall a: Expense, b: Expense
      ensures CategoryOrder(a, b) || CategoryOrder(b, a)
    {
      if StrLess(a.category, b.category) && StrLess(b.category, a.category) {
        StrLessTransitive(a.category, b.category, a.category);
        StrLessIrreflexive(a.category);
      }
    }
    forall a: Expense, b: Expense, c: Expense | CategoryOrder(a, b) && CategoryOrder(b, c)
      ensures CategoryOrder(a, c)
    {
      StrLessTrichotomy(a.category, b.category);
      StrLessTrichotomy(b.category, c.category);
      if StrLess(c.category, a.category) {
        if a.category == b.category {
        } else if b.category == c.category {
        } else {
          StrLessTransitive(c.category, a.category, b.category);
        }
      }
    }
  }

  /** Sorting by 'date' shows dates from newest to oldest. */
  lemma ByDateNewestFirst(expenses: seq<Expense>, filterCategory: string, searchTerm: string)
    ensures var r := Visible(expenses, filterCategory, searchTerm, "date");
            forall i, j :: 0 <= i < j < |r| ==> AtOrBefore(r[j].date, r[i].date)
  {
    DateOrderConsistent();
    SortSorted(Filter(expenses, e => Kept(e, filterCategory, searchTerm)), NewerFirst);
  }

  /** Sorting by 'amount' shows amounts from largest to smallest. */
  lemma ByAmountLargestFirst(expenses: seq<Expense>, filterCategory: string, searchTerm: string)
    ensures var r := Visible(expenses, filterCategory, searchTerm, "amount");
            forall i, j :: 0 <= i < j < |r| ==> r[j].amount <= r[i].amount
  {
    SortSorted(Filter(expenses, e => Kept(e, filterCategory, searchTerm)), LargerFirst);
  }

  /** Sorting by 'category' shows categories in ascending order. */
  lemma ByCategoryAscending(expenses: seq<Expense>, filterCategory: string, searchTerm: string)
    ensures var r := Visible(expenses, filterCategory, searchTerm, "category");
            forall i, j :: 0 <= i < j < |r| ==> StrLe(r[i].category, r[j].category)
  {
    var kept := Filter(expenses, e => Kept(e, filterCategory, searchTerm));
    assert Visible(expenses, filterCategory, searchTerm, "category") == Sort(kept, CategoryOrder);
    CategoryOrderConsistent();
    SortSorted(kept, CategoryOrder);
  }

  /** Any other sort key keeps the kept expenses in their original order. */
  lemma UnknownKeyKeepsOrder(expenses: seq<Expense>, filterCategory: string, searchTerm: string, sortBy: string)
    requires sortBy !in {"date", "amount", "category"}
    ensures Visible(expenses, filterCategory, searchTerm, sortBy)
         == Filter(expenses, e => Kept(e, filterCategory, searchTerm))
  {
    SortKeepsTies(Filter(expenses, e => Kept(e, filterCategory, searchTerm)), Unordered);
  }

  /** The search ignores letter case in the term. */
  lemma SearchIgnoresCase(e: Expense, term: string)
    ensures MatchesSearch(e, Lower(term)) <==> MatchesSearch(e, term)
  {
    LowerIdempotent(term);
  }
}

=== FILE: forms.dfy ===
/** What the forms hold and how JavaScript reads it. A field holds a number
    (an initial value copied from a record) or a string (anything typed);
    the validators compare these with `<`, `<=`, `>` and test them for
    truthiness, and the error maps gate submission. */
module Forms {
  import opened Wrappers
  import opened Text

  datatype Input = Num(n: real) | Str(s: string)

  /** JavaScript truthiness: `0` and `''` are false. */
  predicate Truthy(v: Input) {
    match v
    case Num(x) => x != 0.0
    case Str(s) => s != ""
  }

  /** `Number(v)`; `None` stands for `NaN`. */
  function ToNum(v: Input): Option<real> {
    match v
    case Num(x) => Some(x)
    case Str(s) => ToNumber(s)
  }

  /** `a < b`: two strings compare by code units; otherwise both sides are
      converted to numbers and any `NaN` makes the answer false. */
  predicate Less(a: Input, b: Input) {
    if a.Str? && b.Str? then StrLess(a.s, b.s)
    else ToNum(a).Some? && ToNum(b).Some? && ToNum(a).value < ToNum(b).value
  }

  /** `a <= b`, with the same two regimes. */
  predicate LessEq(a: Input, b: Input) {
    if a.Str? && b.Str? then !StrLess(b.s, a.s)
    else ToNum(a).Some? && ToNum(b).Some? && ToNum(a).value <= ToNum(b).value
  }

  /** `a > b` compared as numbers, whatever the field types. */
  predicate NumGreater(a: Input, b: Input) {
    ToNum(a).Some? && ToNum(b).Some? && ToNum(a).value > ToNum(b).value
  }

  /** When one side is a number, `>` is the numeric comparison. */
  lemma GreaterWithNumber(a: Input, b: Input)
    requires a.Num? || b.Num?
    ensures Less(b, a) <==> NumGreater(a, b)
  {
  }

  /** A value above 0 is truthy: the empty string reads as 0. */
  lemma PositiveIsTruthy(v: Input)
    requires Less(Num(0.0), v)
    ensures Truthy(v)
  {
  }

  /** The typed-in digits of a number read as that number. */
  lemma TypedNumber(n: nat)
    ensures ToNum(Str(NatToString(n))) == Some(n as real)
    ensures ParseFloatOf(Str(NatToString(n))) == Some(n as real)
  {
    NatToStringParses(n);
  }

  /** `parseFloat(v)`; a number field parses to itself. */
  function ParseFloatOf(v: Input): Option<real> {
    match v
    case Num(x) => Some(x)
    case Str(s) => ParseFloat(s)
  }

  /** `parseInt(v)`: a number field is truncated toward zero. */
  function ParseIntOf(v: Input): Option<int> {
    match v
    case Num(x) => Some(if x >= 0.0 then x.Floor else -((-x).Floor))
    case Str(s) => ParseInt(s)
  }

  /** `if (errors[field]) setErrors({ ...errors, [field]: '' })`: a shown
      message is blanked, every other entry stays. */
  function ClearError<F>(errors: map<F, string>, field: F): (r: map<F, string>)
    ensures r.Keys == errors.Keys
    ensures field in r && errors[field] != "" ==> r[field] == ""
    ensures forall f :: f in errors && f != field ==> r[f] == errors[f]
    ensures field in errors && errors[field] == "" ==> r == errors
  {
    if field in errors && errors[field] != "" then errors[field := ""] else errors
  }

  /** `Object.keys(newErrors).length === 0`. */
  predicate NoErrors<F>(errors: map<F, string>) {
    |errors| == 0
  }

  /** What pressing submit leads to: nothing beyond showing the errors, or a
      call to the form's `onSubmit` with a payload. */
  datatype Submission<P> = Blocked | Submitted(payload: P)
}

=== FILE: goal_form.dfy ===
/** The savings-goal form: its validator, the payload handed to
    `onSubmit`, the reset after a create, and the progress preview. */
module GoalForm {
  import opened Wrappers
  import opened Text
  import opened Forms
  import JsNumbers
  import opened Dates
  import opened Records

  datatype Field = Name | TargetAmount | CurrentAmount | Deadline | Priority | Category

  datatype FormData = FormData(
    name: string,
    targetAmount: Input,
    currentAmount: Input,
    deadline: string,
    priority: Input,
    category: string)

  const NameMessage: string := "Please enter a goal name"
  const TargetMessage: string := "Please enter a valid target amount"
  const NegativeMessage: string := "Current amount cannot be negative"
  const ExceedMessage: string := "Current amount cannot exceed target amount"
  const DeadlineMessage: string := "Please select a deadline"
  const CategoryMessage: string := "Please select a category"

  /** The fields of a new form; `deadline` is six months from today,
      rendered by the caller. */
  function EmptyForm(deadline: string): FormData {
    FormData("", Str(""), Num(0.0), deadline, Num(1.0), "")
  }

  /** The form's starting fields: an edited goal's values with the `||`
      defaults of the source (a zero target shows as empty, a zero current
      amount as 0, a zero priority as 1), or the empty form.
      `dateText` renders a record's date. */
  function Initial(initial: Option<Goal>, defaultDeadline: string, dateText: Date -> string): (f: FormData)
    ensures initial.None? ==> f == EmptyForm(defaultDeadline)
    ensures initial.Some? ==> f.name == initial.value.name && f.category == initial.value.category
    ensures initial.Some? ==> ToNum(f.currentAmount) == Some(initial.value.currentAmount)
    ensures initial.Some? && initial.value.targetAmount != 0.0 ==> f.targetAmount == Num(initial.value.targetAmount)
    ensures initial.Some? && initial.value.targetAmount == 0.0 ==> f.targetAmount == Str("")
    ensures initial.Some? ==> f.priority == Num(if initial.value.priority == 0 then 1.0 else initial.value.priority as real)
    ensures initial.Some? ==> f.deadline == if dateText(initial.value.deadline) != "" then dateText(initial.value.deadline) else defaultDeadline
  {
    match initial
    case None => EmptyForm(defaultDeadline)
    case Some(g) =>
      var shown := dateText(g.deadline);
      FormData(
        g.name,
        if g.targetAmount != 0.0 then Num(g.targetAmount) else Str(""),
        Num(g.currentAmount),
        if shown != "" then shown else defaultDeadline,
        Num(if g.priority != 0 then g.priority as real else 1.0),
        g.category)
  }

  /** The checks every field goes through; `exceeds` decides whether the
      current amount is above the target. */
  function Check(f: FormData, exceeds: bool): (errors: map<Field, string>)
    ensures Name in errors <==> IsBlank(f.name)
    ensures TargetAmount in errors <==> !Truthy(f.targetAmount) || LessEq(f.targetAmount, Num(0.0))
    ensures CurrentAmount in errors <==> Less(f.currentAmount, Num(0.0)) || exceeds
    ensures CurrentAmount in errors ==> errors[CurrentAmount] == if exceeds then ExceedMessage else NegativeMessage
    ensures Deadline in errors <==> f.deadline == ""
    ensures Category in errors <==> f.category == ""
    ensures Priority !in errors
  {
    var e0: map<Field, string> := map[];
    var e1 := if IsBlank(f.name) then e0[Name := NameMessage] else e0;
    var e2 := if !Truthy(f.targetAmount) || LessEq(f.targetAmount, Num(0.0)) then e1[TargetAmount := TargetMessage] else e1;
    var e3 := if Less(f.currentAmount, Num(0.0)) then e2[CurrentAmount := NegativeMessage] else e2;
    var e4 := if exceeds then e3[CurrentAmount := ExceedMessage] else e3;
    var e5 := if f.deadline == "" then e4[Deadline := DeadlineMessage] else e4;
    if f.category == "" then e5[Category := CategoryMessage] else e5
  }

  /** `validateForm` as written: `currentAmount > targetAmount` compares two
      typed-in strings by code units. */
  function ValidateAsWritten(f: FormData): (errors: map<Field, string>)
    ensures Name in errors <==> IsBlank(f.name)
    ensures TargetAmount in errors <==> !Truthy(f.targetAmount) || LessEq(f.targetAmount, Num(0.0))
    ensures CurrentAmount in errors <==> Less(f.currentAmount, Num(0.0)) || Less(f.targetAmount, f.currentAmount)
    ensures CurrentAmount in errors ==>
      errors[CurrentAmount] == if Less(f.targetAmount, f.currentAmount) then ExceedMessage else NegativeMessage
    ensures Deadline in errors <==> f.deadline == ""
    ensures Category in errors <==> f.category == ""
    ensures Priority !in errors
  {
    Check(f, Less(f.targetAmount, f.currentAmount))
  }

  /** `validateForm` with the amounts compared as numbers, as the message
      "cannot exceed target amount" means. */
  function Validate(f: FormData): (errors: map<Field, string>)
    ensures Name in errors <==> IsBlank(f.name)
    ensures TargetAmount in errors <==> !Truthy(f.targetAmount) || LessEq(f.targetAmount, Num(0.0))
    ensures CurrentAmount in errors <==> Less(f.currentAmount, Num(0.0)) || NumGreater(f.currentAmount, f.targetAmount)
    ensures CurrentAmount in errors ==>
      errors[CurrentAmount] == if NumGreater(f.currentAmount, f.targetAmount) then ExceedMessage else NegativeMessage
    ensures Deadline in errors <==> f.deadline == ""
    ensures Category in errors <==> f.category == ""
    ensures Priority !in errors
  {
    Check(f, NumGreater(f.currentAmount, f.targetAmount))
  }

  /** The two validators differ only when both amounts are strings. */
  lemma ValidatorsAgreeOnNumbers(f: FormData)
    requires f.targetAmount.Num? || f.currentAmount.Num?
    ensures ValidateAsWritten(f) == Validate(f)
  {
    var asWritten := Less(f.targetAmount, f.currentAmount);
    var numeric := NumGreater(f.currentAmount, f.targetAmount);
    assert asWritten == numeric by {
      GreaterWithNumber(f.currentAmount, f.targetAmount);
    }
    calc {
      ValidateAsWritten(f);
      Check(f, asWritten);
      Check(f, numeric);
      Validate(f);
    }
  }

  /** The goal "Car", 50 saved of 100, both amounts typed in. */
  function TypedGoal(): FormData {
    FormData("Car", Str("100"), Str("50"), "2030-01-01", Num(1.0), "Car Purchase")
  }

  /** On the typed goal the validator as written reports that 50 exceeds
      100, because "50" sorts after "100"; the numeric validator accepts it. */
  lemma TypedAmountsCounterexample()
    ensures CurrentAmount in ValidateAsWritten(TypedGoal())
    ensures ValidateAsWritten(TypedGoal())[CurrentAmount] == ExceedMessage
    ensures NoErrors(Validate(TypedGoal()))
  {
    AsWrittenRejectsTypedGoal();
    NumericAcceptsTypedGoal();
  }

  lemma AsWrittenRejectsTypedGoal()
    ensures CurrentAmount in ValidateAsWritten(TypedGoal())
    ensures ValidateAsWritten(TypedGoal())[CurrentAmount] == ExceedMessage
  {
    assert StrLess("100", "50");
  }

  lemma NumericAcceptsTypedGoal()
    ensures NoErrors(Validate(TypedGoal()))
  {
    TypedNameNotBlank();
    TypedTargetPasses();
    TypedCurrentPasses();
    var e := Validate(TypedGoal());
    assert Name !in e && TargetAmount !in e && CurrentAmount !in e;
    assert Deadline !in e && Priority !in e && Category !in e;
    forall fld: Field ensures fld !in e {
      match fld
      case Name =>
      case TargetAmount =>
      case CurrentAmount =>
      case Deadline =>
      case Priority =>
      case Category =>
    }
    assert e.Keys == {};
  }

  /** The typed target is a positive amount. */
  lemma TypedTargetPasses()
    ensures Truthy(TypedGoal().targetAmount) && !LessEq(TypedGoal().targetAmount, Num(0.0))
  {
    var t := TypedGoal().targetAmount;
    assert ToNum(t) == Some(100.0) by {
      TypedHundredAndFifty();
    }
  }

  /** The typed current amount is neither negative nor above the target. */
  lemma TypedCurrentPasses()
    ensures !Less(TypedGoal().currentAmount, Num(0.0))
    ensures !NumGreater(TypedGoal().currentAmount, TypedGoal().targetAmount)
  {
    TypedHundredAndFifty();
  }

  lemma TypedNameNotBlank()
    ensures !IsBlank("Car")
  {
    TrimUnpadded("Car");
  }

  lemma TypedHundredAndFifty()
    ensures ToNum(Str("100")) == Some(100.0)
    ensures ToNum(Str("50")) == Some(50.0)
  {
    assert DigitChar(0) == '0' && DigitChar(1) == '1' && DigitChar(5) == '5';
    assert NatToString(1) == "1";
    assert NatToString(10) == "10";
    assert NatToString(100) == "100";
    assert NatToString(5) == "5";
    assert NatToString(50) == "50";
    TypedNumber(100);
    TypedNumber(50);
  }

  /** A goal whose amounts are numbers and which passes validation has a
      positive target and a current amount between 0 and the target. */
  lemma ValidNumbersRespectCap(f: FormData)
    requires f.targetAmount.Num? && f.currentAmount.Num?
    requires NoErrors(Validate(f))
    ensures f.targetAmount.n > 0.0
    ensures 0.0 <= f.currentAmount.n <= f.targetAmount.n
  {
    assert TargetAmount !in Validate(f);
    assert CurrentAmount !in Validate(f);
  }

  // ---------------------------------------------------------------------------
  // Submission
  // ---------------------------------------------------------------------------

  /** The goal handed to `onSubmit`: the amounts parsed (`NaN` as `None`),
      the current amount 0 when unparsable, the priority an integer, and the
      Id only when editing. */
  datatype Payload = Payload(
    name: string,
    targetAmount: Option<real>,
    currentAmount: real,
    deadline: string,
    priority: Option<int>,
    category: string,
    id: Option<int>)

  /** `goalData`: the amounts through `parseFloat`, the current amount 0
      when unparsable, the priority through `parseInt`, and the Id only
      when editing. */
  function PayloadOf(f: FormData, editing: Option<int>): (p: Payload)
    ensures p.name == f.name && p.deadline == f.deadline && p.category == f.category
    ensures p.targetAmount == ParseFloatOf(f.targetAmount)
    ensures p.currentAmount == ParseFloatOf(f.currentAmount).GetOr(0.0)
    ensures p.priority == ParseIntOf(f.priority) && p.id == editing
  {
    Payload(f.name, ParseFloatOf(f.targetAmount), ParseFloatOf(f.currentAmount).GetOr(0.0),
      f.deadline, ParseIntOf(f.priority), f.category, editing)
  }

  /** `handleSubmit` as written: the goal goes out exactly when
      `validateForm`, with its string comparison, finds nothing. */
  function SubmitAsWritten(f: FormData, editing: Option<int>): (s: Submission<Payload>)
    ensures s.Submitted? <==> NoErrors(ValidateAsWritten(f))
    ensures s.Submitted? ==> s.payload == PayloadOf(f, editing)
  {
    if !NoErrors(ValidateAsWritten(f)) then Blocked
    else Submitted(PayloadOf(f, editing))
  }

  /** `handleSubmit` with the amounts compared as numbers. */
  function Submit(f: FormData, editing: Option<int>): (s: Submission<Payload>)
    ensures s.Submitted? <==> NoErrors(Validate(f))
    ensures s.Submitted? ==> s.payload == PayloadOf(f, editing)
  {
    if !NoErrors(Validate(f)) then Blocked
    else Submitted(PayloadOf(f, editing))
  }

  /** While one amount is still a number, the two submissions coincide. */
  lemma SubmitsAgreeOnNumbers(f: FormData, editing: Option<int>)
    requires f.targetAmount.Num? || f.currentAmount.Num?
    ensures SubmitAsWritten(f, editing) == Submit(f, editing)
  {
    ValidatorsAgreeOnNumbers(f);
  }

  /** The typed goal, 50 saved of 100, is never handed to `onSubmit` as
      written; the numeric comparison sends it. */
  lemma TypedGoalNeverSent(editing: Option<int>)
    ensures SubmitAsWritten(TypedGoal(), editing).Blocked?
    ensures Submit(TypedGoal(), editing).Submitted?
  {
    AsWrittenRejectsTypedGoal();
    NumericAcceptsTypedGoal();
  }

  /** A goal sent with numeric amounts has a positive target and a current
      amount between 0 and the target. */
  lemma SubmittedRespectsCap(f: FormData, editing: Option<int>)
    requires f.targetAmount.Num? && f.currentAmount.Num?
    requires Submit(f, editing).Submitted?
    ensures f.targetAmount.n > 0.0
    ensures 0.0 <= f.currentAmount.n <= f.targetAmount.n
  {
    ValidNumbersRespectCap(f);
  }

  /** The form after `onSubmit` settles: cleared only after a successful
      create; an edit, or a rejected call, leaves it as it was. */
  function AfterSubmit(f: FormData, editing: Option<int>, succeeded: bool, newDeadline: string): (r: FormData)
    ensures editing.Some? || !succeeded ==> r == f
    ensures editing.None? && succeeded ==> r == EmptyForm(newDeadline)
  {
    if succeeded && editing.None? then EmptyForm(newDeadline) else f
  }

  /** A field as the inputs show it. */
  function Shown(f: FormData, field: Field): Input {
    match field
    case Name => Str(f.name)
    case TargetAmount => f.targetAmount
    case CurrentAmount => f.currentAmount
    case Deadline => Str(f.deadline)
    case Priority => f.priority
    case Category => Str(f.category)
  }

  /** `handleChange(field, value)` with the input's text: that field shows
      the text, the others are untouched, and its error is blanked. */
  function Change(f: FormData, errors: map<Field, string>, field: Field, value: string): (r: (FormData, map<Field, string>))
    ensures Shown(r.0, field) == Str(value)
    ensures forall other: Field :: other != field ==> Shown(r.0, other) == Shown(f, other)
    ensures r.1 == ClearError(errors, field)
  {
    var g := match field
      case Name => f.(name := value)
      case TargetAmount => f.(targetAmount := Str(value))
      case CurrentAmount => f.(currentAmount := Str(value))
      case Deadline => f.(deadline := value)
      case Priority => f.(priority := Str(value))
      case Category => f.(category := value);
    (g, ClearError(errors, field))
  }

  // ---------------------------------------------------------------------------
  // Progress preview
  // ---------------------------------------------------------------------------

  /** The preview is shown when `targetAmount > 0`. */
  predicate PreviewShown(f: FormData) {
    Less(Num(0.0), f.targetAmount)
  }

  /** `getProgressPercentage`: 0 without a target, otherwise
      `Math.min(current / target * 100, 100)`. */
  function ProgressPercentage(f: FormData): (p: JsNumbers.Num)
    ensures !Truthy(f.targetAmount) ==> p == JsNumbers.Finite(0.0)
    ensures Truthy(f.targetAmount) && (ToNum(f.currentAmount).None? || ToNum(f.targetAmount).None?) ==> p.NaN?
  {
    if !Truthy(f.targetAmount) then JsNumbers.Finite(0.0)
    else match (ToNum(f.currentAmount), ToNum(f.targetAmount))
      case (Some(c), Some(t)) => JsNumbers.Min(JsNumbers.Scale(JsNumbers.Div(c, t), 100.0), 100.0)
      case _ => JsNumbers.NaN
  }

  /** Whenever the preview is shown and the current amount is a
      non-negative number, it shows a percentage between 0 and 100, which is
      the ratio itself until the target is reached. */
  lemma PreviewBounded(f: FormData)
    requires PreviewShown(f)
    requires ToNum(f.currentAmount).Some? && ToNum(f.currentAmount).value >= 0.0
    ensures var p := ProgressPercentage(f);
            p.Finite? && 0.0 <= p.value <= 100.0
    ensures var c := ToNum(f.currentAmount).value;
            var t := ToNum(f.targetAmount).value;
            c <= t ==> ProgressPercentage(f) == JsNumbers.Finite(c / t * 100.0)
  {
    var c := ToNum(f.currentAmount).value;
    var t := ToNum(f.targetAmount).value;
    assert t > 0.0;
    PositiveIsTruthy(f.targetAmount);
    assert JsNumbers.Div(c, t) == JsNumbers.Finite(c / t);
    RatioPercent(c, t);
  }

  /** With a positive target, the preview is the share of the target
      reached, capped at 100 once the current amount passes the target. */
  lemma ProgressPercentageValue(f: FormData)
    requires Truthy(f.targetAmount)
    requires ToNum(f.currentAmount).Some? && ToNum(f.targetAmount).Some?
    requires ToNum(f.targetAmount).value > 0.0
    ensures var c := ToNum(f.currentAmount).value;
            var t := ToNum(f.targetAmount).value;
            c <= t ==> ProgressPercentage(f) == JsNumbers.Finite(c / t * 100.0)
    ensures var c := ToNum(f.currentAmount).value;
            var t := ToNum(f.targetAmount).value;
            c > t ==> ProgressPercentage(f) == JsNumbers.Finite(100.0)
  {
    var c := ToNum(f.currentAmount).value;
    var t := ToNum(f.targetAmount).value;
    assert JsNumbers.Div(c, t) == JsNumbers.Finite(c / t);
    RatioAgainstHundred(c, t);
  }

  /** Against a positive whole, a part is at most the whole exactly when
      its percentage is at most 100. */
  lemma RatioAgainstHundred(c: real, t: real)
    requires t > 0.0
    ensures c <= t <==> c / t * 100.0 <= 100.0
  {
    assert c / t * t == c;
    if c <= t {
      assert c / t <= 1.0;
    } else {
      assert c / t > 1.0;
    }
  }

  /** A share of a positive whole, as a percentage. */
  lemma RatioPercent(c: real, t: real)
    requires t > 0.0 && c >= 0.0
    ensures c / t * 100.0 >= 0.0
    ensures c <= t ==> c / t * 100.0 <= 100.0
  {
    if c <= t {
      assert c / t * t == c;
      assert c / t <= 1.0;
    }
  }
}

=== FILE: goals_list.dfy ===
/** The savings-goals list: goals ordered by priority then deadline, each
    card showing completion, days remaining or overdue, and quick-add
    buttons that refuse to pass the target. */
module GoalsList {
  import opened Dates
  import opened Sorting
  import opened Records

  // ---------------------------------------------------------------------------
  // Ordering
  // ---------------------------------------------------------------------------

  /** The comparator `a.priority - b.priority`, falling back to
      `deadline(a) - deadline(b)` for equal priorities, read as
      "`compare(a, b) <= 0`". */
  predicate GoalLe(a: Goal, b: Goal) {
    if a.priority != b.priority then a.priority < b.priority
    else AtOrBefore(a.deadline, b.deadline)
  }

  /** The comparator is consistent, so the sort is well defined. */
  lemma GoalLeTotalPreorder()
    ensures IsTotalPreorder(GoalLe)
  {
  }

  /** `[...goals].sort(...)`: a reordering of a copy of the goals. */
  function SortedGoals(goals: seq<Goal>): (r: seq<Goal>)
    ensures multiset(r) == multiset(goals)
  {
    Sort(goals, GoalLe)
  }

  /** Earlier cards never have a larger priority number, and among equal
      priorities never a later deadline. */
  lemma SortedGoalsOrder(goals: seq<Goal>)
    ensures var r := SortedGoals(goals);
            forall i, j :: 0 <= i < j < |r| ==>
              r[i].priority <= r[j].priority &&
              (r[i].priority == r[j].priority ==> AtOrBefore(r[i].deadline, r[j].deadline))
  {
    GoalLeTotalPreorder();
    SortSorted(goals, GoalLe);
  }

  // ---------------------------------------------------------------------------
  // Quick add
  // ---------------------------------------------------------------------------

  /** The amounts on the quick-add buttons. */
  const QuickAmounts: seq<real> := [25.0, 50.0, 100.0]

  /** What pressing a quick-add button does. */
  datatype QuickAddOutcome =
    | Rejected                             // "Cannot exceed target amount"
    | AddProgress(id: int, newAmount: real) // onAddProgress(goal.Id, newAmount)

  function QuickAdd(g: Goal, amount: real): (o: QuickAddOutcome)
    ensures o.Rejected? <==> g.currentAmount + amount > g.targetAmount
    ensures o.AddProgress? ==> o.id == g.id && o.newAmount == g.currentAmount + amount
  {
    var newAmount := g.currentAmount + amount;
    if newAmount > g.targetAmount then Rejected else AddProgress(g.id, newAmount)
  }

  /** An accepted quick add never takes a goal past its target, and reaching
      the target exactly is allowed. */
  lemma QuickAddKeepsCap(g: Goal, amount: real)
    ensures QuickAdd(g, amount).AddProgress? ==> QuickAdd(g, amount).newAmount <= g.targetAmount
    ensures g.currentAmount + amount == g.targetAmount ==> QuickAdd(g, amount).AddProgress?
  {
  }

  // ---------------------------------------------------------------------------
  // A goal's card
  // ---------------------------------------------------------------------------

  function PriorityLabel(priority: int): (s: string)
    ensures priority == 1 <==> s == "High"
    ensures priority == 2 <==> s == "Medium"
    ensures priority == 3 <==> s == "Low"
    ensures priority !in {1, 2, 3} <==> s == "Unknown"
  {
    match priority
    case 1 => "High"
    case 2 => "Medium"
    case 3 => "Low"
    case _ => "Unknown"
  }

  datatype PriorityColour = Red | Yellow | Green | Slate

  function PriorityColourOf(priority: int): (c: PriorityColour)
    ensures c == Slate <==> PriorityLabel(priority) == "Unknown"
  {
    match priority
    case 1 => Red
    case 2 => Yellow
    case 3 => Green
    case _ => Slate
  }

  /** The status line of a card. */
  datatype Status = Overdue(days: nat) | Completed | DaysLeft(left: int)

  datatype Card = Card(
    goal: Goal,
    daysRemaining: int,
    isCompleted: bool,
    isOverdue: bool,
    status: Status,
    quickAdds: seq<real>)

  predicate IsCompleted(g: Goal) {
    g.currentAmount >= g.targetAmount
  }

  function StatusOf(overdue: bool, completed: bool, daysRemaining: int): (s: Status)
    ensures s.Overdue? <==> overdue
    ensures s.Overdue? ==> s.days as int == if daysRemaining < 0 then -daysRemaining else daysRemaining
    ensures s == Completed <==> !overdue && completed
    ensures s.DaysLeft? ==> s.left == daysRemaining
  {
    if overdue then Overdue(if daysRemaining < 0 then -daysRemaining else daysRemaining)
    else if completed then Completed
    else DaysLeft(daysRemaining)
  }

  /** The card of one goal, "now" being `msOfDay` milliseconds into `today`. */
  function CardOf(g: Goal, today: Date, msOfDay: int): (c: Card)
    requires 0 <= msOfDay < MsPerDay
    ensures c.goal == g
    ensures c.isCompleted <==> g.currentAmount >= g.targetAmount
    ensures c.isOverdue <==> c.daysRemaining < 0 && !c.isCompleted
    ensures c.quickAdds == if c.isCompleted then [] else QuickAmounts
  {
    var days := DaysUntil(g.deadline, today, msOfDay);
    var completed := IsCompleted(g);
    var overdue := days < 0 && !completed;
    Card(g, days, completed, overdue, StatusOf(overdue, completed, days),
         if completed then [] else QuickAmounts)
  }

  /** A completed goal is never overdue and shows "Completed!", whatever its
      deadline; an incomplete goal is overdue exactly when its deadline is an
      earlier day than today. */
  lemma CompletedNeverOverdue(g: Goal, today: Date, msOfDay: int)
    requires 0 <= msOfDay < MsPerDay
    ensures IsCompleted(g) ==> !CardOf(g, today, msOfDay).isOverdue && CardOf(g, today, msOfDay).status == Completed
    ensures !IsCompleted(g) ==> (CardOf(g, today, msOfDay).isOverdue <==> Before(g.deadline, today))
  {
    DaysUntilNegative(g.deadline, today, msOfDay);
  }

  datatype View = Loading | NoGoals | Cards(cards: seq<Card>)

  function Show(loading: bool, goals: seq<Goal>, today: Date, msOfDay: int): (v: View)
    requires 0 <= msOfDay < MsPerDay
    ensures loading ==> v.Loading?
    ensures !loading ==> (v.NoGoals? <==> goals == [])
    ensures v.Cards? ==> |v.cards| == |goals|
    ensures v.Cards? ==> forall i :: 0 <= i < |goals| ==> v.cards[i] == CardOf(SortedGoals(goals)[i], today, msOfDay)
  {
    if loading then Loading
    else if |goals| == 0 then NoGoals
    else
      var sorted := SortedGoals(goals);
      Cards(seq(|sorted|, i requires 0 <= i < |sorted| => CardOf(sorted[i], today, msOfDay)))
  }

  /** The goals of the cards. */
  function CardGoals(cards: seq<Card>): (r: seq<Goal>)
    ensures |r| == |cards| && forall i :: 0 <= i < |cards| ==> r[i] == cards[i].goal
  {
    seq(|cards|, i requires 0 <= i < |cards| => cards[i].goal)
  }

  /** The page shows every goal once, as a card, by priority and then by
      deadline. */
  lemma ShowsEveryGoalInOrder(goals: seq<Goal>, today: Date, msOfDay: int)
    requires 0 <= msOfDay < MsPerDay
    requires goals != []
    ensures var v := Show(false, goals, today, msOfDay);
            v.Cards? && multiset(CardGoals(v.cards)) == multiset(goals)
    ensures var cards := Show(false, goals, today, msOfDay).cards;
            forall i, j :: 0 <= i < j < |cards| ==>
              cards[i].goal.priority <= cards[j].goal.priority &&
              (cards[i].goal.priority == cards[j].goal.priority ==> AtOrBefore(cards[i].goal.deadline, cards[j].goal.deadline))
  {
    var v := Show(false, goals, today, msOfDay);
    assert CardGoals(v.cards) == SortedGoals(goals);
    SortedGoalsOrder(goals);
  }

  /** A goal at exactly its target with a deadline long past is complete,
      not overdue, and offers no quick add. */
  lemma GoalAtTargetExample()
    ensures var g := Goal(1, "Trip", 200.0, 200.0, CivilDate(2020, 1, 1), 1, "Travel");
            var c := CardOf(g, CivilDate(2024, 6, 1), 0);
            c.isCompleted && !c.isOverdue && c.status == Completed && c.quickAdds == []
  {
  }

  /** Adding 50 to 180 of 200 is refused; adding 20 is accepted and reaches
      the target. */
  lemma QuickAddExample()
    ensures QuickAdd(Goal(1, "Trip", 200.0, 180.0, CivilDate(2030, 1, 1), 1, "Travel"), 50.0) == Rejected
    ensures QuickAdd(Goal(1, "Trip", 200.0, 180.0, CivilDate(2030, 1, 1), 1, "Travel"), 20.0) == AddProgress(1, 200.0)
  {
  }
}

=== FILE: hooks.dfy ===
/** What the data hooks share: a list of records held in component state,
    a loading flag and an error, and the list updates applied once a service
    call resolves. A service call is a parameter: the `Result` it settled
    with. A rejected call leaves the list alone, and the hook's own promise
    rejects with the same message. */
module ListHooks {
  import opened Wrappers
  import opened Lists

  /** The state of a data hook; `E` is how it records an error. */
  datatype Collection<T, E> = Collection(items: seq<T>, loading: bool, error: E)

  /** Where `add` puts the created record. */
  datatype Placement = Prepend | Append

  /** `parseInt(id) === record.Id`; an unreadable Id matches nothing. */
  predicate Matches<T>(idOf: T -> int, key: Option<int>, x: T) {
    key == Some(idOf(x))
  }

  /** The load effect once `getAll` settles: the data replaces the list, or
      the failure is recorded and the list kept; loading ends either way. */
  function Loaded<T, E>(c: Collection<T, E>, fetched: Result<seq<T>>, cleared: E, failure: E): (r: Collection<T, E>)
    ensures !r.loading
    ensures fetched.Ok? ==> r.items == fetched.value && r.error == cleared
    ensures fetched.Err? ==> r.items == c.items && r.error == failure
  {
    match fetched
    case Ok(data) => Collection(data, false, cleared)
    case Err(_) => Collection(c.items, false, failure)
  }

  /** `add`: the created record joins the list at the hook's end. */
  function Added<T, E>(c: Collection<T, E>, created: Result<T>, at: Placement): (r: Collection<T, E>)
    ensures r.loading == c.loading && r.error == c.error
    ensures created.Ok? && at == Prepend ==> r.items == [created.value] + c.items
    ensures created.Ok? && at == Append ==> r.items == c.items + [created.value]
    ensures created.Err? ==> r == c
  {
    match created
    case Ok(x) => c.(items := if at == Prepend then [x] + c.items else c.items + [x])
    case Err(_) => c
  }

  /** `update(id)`: every record carrying `parseInt(id)` is replaced by the
      returned one, and nothing else moves. */
  function Updated<T, E>(c: Collection<T, E>, idOf: T -> int, key: Option<int>, updated: Result<T>): (r: Collection<T, E>)
    ensures r.loading == c.loading && r.error == c.error
    ensures |r.items| == |c.items|
    ensures updated.Ok? ==> forall i :: 0 <= i < |c.items| ==>
      r.items[i] == if Matches(idOf, key, c.items[i]) then updated.value else c.items[i]
    ensures updated.Err? || key.None? ==> r == c
  {
    match (updated, key)
    case (Ok(u), Some(id)) => c.(items := ReplaceById(c.items, idOf, id, u))
    case _ => c
  }

  /** `delete(id)`: the records carrying `parseInt(id)` leave the list and
      the others stay, in order. */
  function Deleted<T, E>(c: Collection<T, E>, idOf: T -> int, key: Option<int>, done: Result<()>): (r: Collection<T, E>)
    ensures r.loading == c.loading && r.error == c.error
    ensures |r.items| <= |c.items|
    ensures done.Ok? ==> forall i :: 0 <= i < |r.items| ==> r.items[i] in c.items && !Matches(idOf, key, r.items[i])
    ensures done.Ok? ==> forall i :: 0 <= i < |c.items| && !Matches(idOf, key, c.items[i]) ==> c.items[i] in r.items
    ensures done.Ok? ==> forall i :: 0 <= i < |c.items| ==>
      multiset(r.items)[c.items[i]] == if Matches(idOf, key, c.items[i]) then 0 else multiset(c.items)[c.items[i]]
    ensures done.Ok? ==> IsSubsequence(r.items, c.items)
    ensures done.Err? || key.None? ==> r == c
  {
    match (done, key)
    case (Ok(_), Some(id)) => c.(items := RemoveById(c.items, idOf, id))
    case _ => SubsequenceOfItself(c.items); c
  }

  /** Deleting a record just added, whose Id was not yet in the list, gives
      the list back, wherever it was placed. */
  lemma AddThenDelete<T, E>(c: Collection<T, E>, idOf: T -> int, x: T, at: Placement)
    requires forall i :: 0 <= i < |c.items| ==> idOf(c.items[i]) != idOf(x)
    ensures Deleted(Added(c, Ok(x), at), idOf, Some(idOf(x)), Ok(())) == c
  {
    RemoveAbsent(c.items, idOf, idOf(x));
    RemoveByIdSingle(x, idOf);
    if at == Prepend {
      RemoveByIdAppend([x], c.items, idOf, idOf(x));
      assert [] + c.items == c.items;
    } else {
      RemoveByIdAppend(c.items, [x], idOf, idOf(x));
      assert c.items + [] == c.items;
    }
  }

  /** Applying the same update twice is the same as applying it once. */
  lemma UpdateIdempotent<T, E>(c: Collection<T, E>, idOf: T -> int, key: Option<int>, u: T)
    requires key == Some(idOf(u))
    ensures Updated(Updated(c, idOf, key, Ok(u)), idOf, key, Ok(u)) == Updated(c, idOf, key, Ok(u))
  {
    var once := Updated(c, idOf, key, Ok(u));
    var twice := Updated(once, idOf, key, Ok(u));
    assert twice.items == once.items;
  }

  /** After a successful delete no record carries the Id. */
  lemma DeleteRemovesEvery<T, E>(c: Collection<T, E>, idOf: T -> int, id: int)
    ensures forall i :: 0 <= i < |Deleted(c, idOf, Some(id), Ok(())).items| ==>
      idOf(Deleted(c, idOf, Some(id), Ok(())).items[i]) != id
  {
  }
}

/** `useExpenses`: newest first, so a created expense goes to the front. */
module ExpenseHook {
  import opened Wrappers
  import opened Forms
  import opened Records
  import opened Lists
  import opened ListHooks

  type State = Collection<Expense, string>

  const LoadFailure: string := "Failed to load expenses"

  const Initial: State := Collection([], true, "")

  function Load(s: State, fetched: Result<seq<Expense>>): (r: State)
    ensures !r.loading
    ensures fetched.Ok? ==> r.items == fetched.value && r.error == ""
    ensures fetched.Err? ==> r.items == s.items && r.error == LoadFailure
  {
    Loaded(s, fetched, "", LoadFailure)
  }

  function Add(s: State, created: Result<Expense>): (r: State)
    ensures created.Ok? ==> r.items == [created.value] + s.items
    ensures created.Err? ==> r == s
  {
    Added(s, created, Prepend)
  }

  function Update(s: State, id: Input, updated: Result<Expense>): (r: State)
    ensures |r.items| == |s.items|
    ensures updated.Ok? ==> forall i :: 0 <= i < |s.items| ==>
      r.items[i] == if ParseIntOf(id) == Some(s.items[i].id) then updated.value else s.items[i]
    ensures updated.Err? ==> r == s
  {
    Updated(s, ExpenseId, ParseIntOf(id), updated)
  }

  function Delete(s: State, id: Input, done: Result<()>): (r: State)
    ensures done.Ok? ==> forall i :: 0 <= i < |r.items| ==> r.items[i] in s.items && ParseIntOf(id) != Some(r.items[i].id)
    ensures done.Ok? ==> forall i :: 0 <= i < |s.items| && ParseIntOf(id) != Some(s.items[i].id) ==> s.items[i] in r.items
    ensures done.Ok? ==> forall i :: 0 <= i < |s.items| ==>
      multiset(r.items)[s.items[i]] == if ParseIntOf(id) == Some(s.items[i].id) then 0 else multiset(s.items)[s.items[i]]
    ensures done.Ok? ==> IsSubsequence(r.items, s.items)
    ensures done.Err? ==> r == s
  {
    Deleted(s, ExpenseId, ParseIntOf(id), done)
  }
}

/** `useGoals`: a created goal goes to the end; a progress update replaces
    the goal like any other update. */
module GoalHook {
  import opened Wrappers
  import opened Forms
  import opened Records
  import opened Lists
  import opened ListHooks

  type State = Collection<Goal, string>

  const LoadFailure: string := "Failed to load goals"

  const Initial: State := Collection([], true, "")

  function Load(s: State, fetched: Result<seq<Goal>>): (r: State)
    ensures !r.loading
    ensures fetched.Ok? ==> r.items == fetched.value && r.error == ""
    ensures fetched.Err? ==> r.items == s.items && r.error == LoadFailure
  {
    Loaded(s, fetched, "", LoadFailure)
  }

  function Add(s: State, created: Result<Goal>): (r: State)
    ensures created.Ok? ==> r.items == s.items + [created.value]
    ensures created.Err? ==> r == s
  {
    Added(s, created, Append)
  }

  /** `updateGoal` and `updateGoalProgress`: the same list update with the
      record the service returned. */
  function Update(s: State, id: Input, updated: Result<Goal>): (r: State)
    ensures |r.items| == |s.items|
    ensures updated.Ok? ==> forall i :: 0 <= i < |s.items| ==>
      r.items[i] == if ParseIntOf(id) == Some(s.items[i].id) then updated.value else s.items[i]
    ensures updated.Err? ==> r == s
  {
    Updated(s, GoalId, ParseIntOf(id), updated)
  }

  function Delete(s: State, id: Input, done: Result<()>): (r: State)
    ensures done.Ok? ==> forall i :: 0 <= i < |r.items| ==> r.items[i] in s.items && ParseIntOf(id) != Some(r.items[i].id)
    ensures done.Ok? ==> forall i :: 0 <= i < |s.items| && ParseIntOf(id) != Some(s.items[i].id) ==> s.items[i] in r.items
    ensures done.Ok? ==> forall i :: 0 <= i < |s.items| ==>
      multiset(r.items)[s.items[i]] == if ParseIntOf(id) == Some(s.items[i].id) then 0 else multiset(s.items)[s.items[i]]
    ensures done.Ok? ==> IsSubsequence(r.items, s.items)
    ensures done.Err? ==> r == s
  {
    Deleted(s, GoalId, ParseIntOf(id), done)
  }
}

/** `useBankAccounts`: each change clears the error first; a failure records
    the rejection's message, keeps the list, and rethrows. */
module BankAccountHook {
  import opened Wrappers
  import opened Forms
  import opened Records
  import opened Lists
  import opened ListHooks

  type State = Collection<BankAccount, Option<string>>

  const Initial: State := Collection([], true, None)

  /** `fetchAccounts`: the failure's own message is recorded. */
  function Fetch(s: State, fetched: Result<seq<BankAccount>>): (r: State)
    ensures !r.loading
    ensures fetched.Ok? ==> r.items == fetched.value && r.error.None?
    ensures fetched.Err? ==> r.items == s.items && r.error == Some(fetched.message)
  {
    Loaded(s, fetched, None, if fetched.Err? then Some(fetched.message) else None)
  }

  /** The error after a change: cleared, or the rejection's message. */
  function ErrorAfter<X>(outcome: Result<X>): (e: Option<string>)
    ensures e.Some? <==> outcome.Err?
    ensures outcome.Err? ==> e == Some(outcome.message)
  {
    if outcome.Err? then Some(outcome.message) else None
  }

  /** `createAccount`: appended on success; the call resolves or rejects as
      the service did. */
  function Create(s: State, created: Result<BankAccount>): (r: (State, Result<BankAccount>))
    ensures r.1 == created
    ensures r.0.error == ErrorAfter(created)
    ensures created.Ok? ==> r.0.items == s.items + [created.value]
    ensures created.Err? ==> r.0.items == s.items
  {
    (Added(s, created, Append).(error := ErrorAfter(created)), created)
  }

  function Update(s: State, id: Input, updated: Result<BankAccount>): (r: (State, Result<BankAccount>))
    ensures r.1 == updated
    ensures r.0.error == ErrorAfter(updated)
    ensures |r.0.items| == |s.items|
    ensures updated.Ok? ==> forall i :: 0 <= i < |s.items| ==>
      r.0.items[i] == if ParseIntOf(id) == Some(s.items[i].id) then updated.value else s.items[i]
    ensures updated.Err? ==> r.0.items == s.items
  {
    (Updated(s, AccountId, ParseIntOf(id), updated).(error := ErrorAfter(updated)), updated)
  }

  function Delete(s: State, id: Input, done: Result<()>): (r: (State, Result<()>))
    ensures r.1 == done
    ensures r.0.error == ErrorAfter(done)
    ensures done.Ok? ==> forall i :: 0 <= i < |r.0.items| ==> r.0.items[i] in s.items && ParseIntOf(id) != Some(r.0.items[i].id)
    ensures done.Ok? ==> forall i :: 0 <= i < |s.items| && ParseIntOf(id) != Some(s.items[i].id) ==> s.items[i] in r.0.items
    ensures done.Ok? ==> forall i :: 0 <= i < |s.items| ==>
      multiset(r.0.items)[s.items[i]] == if ParseIntOf(id) == Some(s.items[i].id) then 0 else multiset(s.items)[s.items[i]]
    ensures done.Ok? ==> IsSubsequence(r.0.items, s.items)
    ensures done.Err? ==> r.0.items == s.items
  {
    (Deleted(s, AccountId, ParseIntOf(id), done).(error := ErrorAfter(done)), done)
  }
}

/** `useBudget`: the active budget next to the list of all budgets. */
module BudgetHook {
  import opened Wrappers
  import opened Forms
  import opened Records
  import opened Lists

  datatype State = State(budget: Option<Budget>, budgets: seq<Budget>, loading: bool, error: string)

  const LoadFailure: string := "Failed to load budget"

  const Initial: State := State(None, [], true, "")

  /** `loadBudget`: `getActive` and `getAll` together; both values are set
      only when both calls succeed. */
  function Load(s: State, active: Result<Option<Budget>>, all: Result<seq<Budget>>): (r: State)
    ensures !r.loading
    ensures active.Ok? && all.Ok? ==> r.budget == active.value && r.budgets == all.value && r.error == ""
    ensures active.Err? || all.Err? ==> r.budget == s.budget && r.budgets == s.budgets && r.error == LoadFailure
  {
    if active.Ok? && all.Ok? then State(active.value, all.value, false, "")
    else s.(loading := false, error := LoadFailure)
  }

  /** `createBudget`: the new budget becomes the current one and joins the
      end of the list; the earlier entries, active flags included, are not
      touched. */
  function Create(s: State, created: Result<Budget>): (r: State)
    ensures created.Ok? ==> r.budget == Some(created.value) && r.budgets == s.budgets + [created.value]
    ensures created.Ok? ==> r.budgets[..|s.budgets|] == s.budgets
    ensures created.Err? ==> r == s
  {
    match created
    case Ok(b) => s.(budget := Some(b), budgets := s.budgets + [b])
    case Err(_) => s
  }

  /** `updateBudget`: the returned budget becomes the current one and
      replaces the matching entries. */
  function Update(s: State, id: Input, updated: Result<Budget>): (r: State)
    ensures updated.Ok? ==> r.budget == Some(updated.value)
    ensures |r.budgets| == |s.budgets|
    ensures updated.Ok? ==> forall i :: 0 <= i < |s.budgets| ==>
      r.budgets[i] == if ParseIntOf(id) == Some(s.budgets[i].id) then updated.value else s.budgets[i]
    ensures updated.Err? ==> r == s
  {
    match updated
    case Ok(u) =>
      s.(budget := Some(u),
         budgets := match ParseIntOf(id)
           case Some(k) => ReplaceById(s.budgets, BudgetId, k, u)
           case None => s.budgets)
    case Err(_) => s
  }

  /** `deleteBudget`: the matching entries leave the list, and the current
      budget is cleared exactly when it is the one deleted. */
  function Delete(s: State, id: Input, done: Result<()>): (r: State)
    ensures done.Ok? ==> forall i :: 0 <= i < |r.budgets| ==> r.budgets[i] in s.budgets && ParseIntOf(id) != Some(r.budgets[i].id)
    ensures done.Ok? ==> forall i :: 0 <= i < |s.budgets| && ParseIntOf(id) != Some(s.budgets[i].id) ==> s.budgets[i] in r.budgets
    ensures done.Ok? ==> forall i :: 0 <= i < |s.budgets| ==>
      multiset(r.budgets)[s.budgets[i]] == if ParseIntOf(id) == Some(s.budgets[i].id) then 0 else multiset(s.budgets)[s.budgets[i]]
    ensures done.Ok? ==> IsSubsequence(r.budgets, s.budgets)
    ensures done.Ok? ==> (r.budget.None? <==> s.budget.None? || ParseIntOf(id) == Some(s.budget.value.id))
    ensures done.Ok? && r.budget.Some? ==> r.budget == s.budget
    ensures done.Err? ==> r == s
  {
    match done
    case Ok(_) =>
      var key := ParseIntOf(id);
      SubsequenceOfItself(s.budgets);
      var kept := match key
        case Some(k) => RemoveById(s.budgets, BudgetId, k)
        case None => s.budgets;
      var current := if s.budget.Some? && key == Some(s.budget.value.id) then None else s.budget;
      s.(budgets := kept, budget := current)
    case Err(_) => s
  }
}

=== FILE: jsnum.dfy ===
/** The few IEEE number outcomes the views can meet: a ratio `value / max`
    with `max` zero is `Infinity`, `-Infinity` or `NaN` in JavaScript, and
    every comparison with `NaN` is false. Finite results are exact reals;
    rounding is left out. */
module JsNumbers {

  datatype Num = Finite(value: real) | PosInf | NegInf | NaN

  /** `a / b`. */
  function Div(a: real, b: real): (r: Num)
    ensures b != 0.0 ==> r == Finite(a / b)
    ensures b == 0.0 ==> (r.NaN? <==> a == 0.0)
  {
    if b != 0.0 then Finite(a / b)
    else if a > 0.0 then PosInf
    else if a < 0.0 then NegInf
    else NaN
  }

  /** `x * k` for a positive constant `k`. */
  function Scale(x: Num, k: real): (r: Num)
    requires k > 0.0
    ensures r.Finite? <==> x.Finite?
  {
    match x
    case Finite(v) => Finite(v * k)
    case _ => x
  }

  /** `Math.min(x, c)`: `NaN` wins, otherwise the smaller. */
  function Min(x: Num, c: real): (r: Num)
    ensures r.NaN? <==> x.NaN?
  {
    match x
    case Finite(v) => Finite(if v <= c then v else c)
    case PosInf => Finite(c)
    case NegInf => NegInf
    case NaN => NaN
  }

  /** `x > c`; false for `NaN`. */
  predicate Greater(x: Num, c: real) {
    match x
    case Finite(v) => v > c
    case PosInf => true
    case NegInf => false
    case NaN => false
  }

  /** The smaller of two numbers never exceeds the bound. */
  lemma MinNotGreater(x: Num, c: real)
    ensures !Greater(Min(x, c), c)
  {
  }
}

=== FILE: ledger.dfy ===
/** Exact money arithmetic used by every aggregation: sums of amounts, and
    JavaScript objects used as per-key accumulators
    (`acc[key] = (acc[key] || 0) + amount`). Amounts are exact `real`s;
    floating-point rounding is left out. */
module Ledger {
  import opened Wrappers

  /** `xs.reduce((sum, x) => sum + x, 0)`. */
  function Sum(xs: seq<real>): real {
    if xs == [] then 0.0 else Sum(xs[..|xs| - 1]) + xs[|xs| - 1]
  }

  lemma {:induction false} SumAppend(a: seq<real>, b: seq<real>)
    ensures Sum(a + b) == Sum(a) + Sum(b)
    decreases |b|
  {
    if b != [] {
      var b' := b[..|b| - 1];
      var x := b[|b| - 1];
      assert a + b == (a + b') + [x];
      assert b' + [x] == b;
      calc {
        Sum(a + b);
        { SumSnoc(a + b', x); }
        Sum(a + b') + x;
        { SumAppend(a, b'); }
        Sum(a) + Sum(b') + x;
        { SumSnoc(b', x); }
        Sum(a) + Sum(b);
      }
    } else {
      assert a + b == a;
    }
  }

  lemma SumSnoc(xs: seq<real>, x: real)
    ensures Sum(xs + [x]) == Sum(xs) + x
  {
    assert (xs + [x])[..|xs|] == xs;
  }

  lemma SumFront(x: real, xs: seq<real>)
    ensures Sum([x] + xs) == x + Sum(xs)
  {
    SumAppend([x], xs);
    assert [x][..0] == [];
  }

  /** A sum of non-negative amounts is non-negative. */
  lemma {:induction false} SumNonNegative(xs: seq<real>)
    requires forall i :: 0 <= i < |xs| ==> xs[i] >= 0.0
    ensures Sum(xs) >= 0.0
    decreases |xs|
  {
    if xs != [] {
      SumNonNegative(xs[..|xs| - 1]);
    }
  }

  /** Summing pointwise smaller amounts gives a smaller sum. */
  lemma {:induction false} SumMonotone(xs: seq<real>, ys: seq<real>)
    requires |xs| == |ys|
    requires forall i :: 0 <= i < |xs| ==> xs[i] <= ys[i]
    ensures Sum(xs) <= Sum(ys)
    decreases |xs|
  {
    if xs != [] {
      SumMonotone(xs[..|xs| - 1], ys[..|ys| - 1]);
    }
  }

  /** All-zero amounts sum to zero. */
  lemma {:induction false} SumZero(xs: seq<real>)
    requires forall i :: 0 <= i < |xs| ==> xs[i] == 0.0
    ensures Sum(xs) == 0.0
    decreases |xs|
  {
    if xs != [] {
      SumZero(xs[..|xs| - 1]);
    }
  }

  // ---------------------------------------------------------------------------
  // Objects with numeric values, in insertion order
  // ---------------------------------------------------------------------------

  /** A JavaScript object mapping keys to numbers: its entries in insertion
      order, which is the order `Object.keys`/`Object.entries` report for
      non-numeric keys. The same shape also serves as a list of
      (key, amount) pairs with repeats. */
  type Dict<K> = seq<(K, real)>

  function Keys<K>(d: Dict<K>): seq<K> {
    seq(|d|, i requires 0 <= i < |d| => d[i].0)
  }

  function Values<K>(d: Dict<K>): seq<real> {
    seq(|d|, i requires 0 <= i < |d| => d[i].1)
  }

  /** No key appears twice, as in any object. */
  predicate UniqueKeys<K(==)>(d: Dict<K>) {
    forall i, j :: 0 <= i < j < |d| ==> d[i].0 != d[j].0
  }

  /** `obj[k]`, `None` for `undefined`: the value of the first entry with
      that key. */
  function Get<K(==)>(d: Dict<K>, k: K): (r: Option<real>)
    ensures r.Some? <==> k in Keys(d)
    ensures r.Some? ==> (k, r.value) in d
  {
    if d == [] then None
    else
      assert Keys(d) == [d[0].0] + Keys(d[1..]);
      if d[0].0 == k then Some(d[0].1)
      else Get(d[1..], k)
  }

  /** With unique keys, the entry holding a key holds the value `Get` reads. */
  lemma {:induction false} GetUnique<K>(d: Dict<K>, i: int)
    requires UniqueKeys(d) && 0 <= i < |d|
    ensures Get(d, d[i].0) == Some(d[i].1)
  {
    if i > 0 {
      GetUnique(d[1..], i - 1);
    }
  }

  /** `obj[k] = v`: an existing key keeps its place and takes the new value,
      a new key goes last. */
  function Put<K(==)>(d: Dict<K>, k: K, v: real): (r: Dict<K>)
    ensures k in Keys(d) ==> Keys(r) == Keys(d)
    ensures k !in Keys(d) ==> Keys(r) == Keys(d) + [k]
  {
    if d == [] then [(k, v)]
    else
      assert Keys(d) == [d[0].0] + Keys(d[1..]);
      if d[0].0 == k then
        var r := [(k, v)] + d[1..];
        assert Keys(r) == Keys(d);
        r
      else
        var r := [d[0]] + Put(d[1..], k, v);
        assert Keys(r) == [d[0].0] + Keys(Put(d[1..], k, v));
        r
  }

  /** After `obj[k] = v`, reading `k` gives `v` and every other key reads as
      before. */
  lemma {:induction false} PutGet<K>(d: Dict<K>, k: K, v: real, k': K)
    ensures Get(Put(d, k, v), k') == if k' == k then Some(v) else Get(d, k')
    decreases |d|
  {
    if d != [] && d[0].0 != k {
      PutGet(d[1..], k, v, k');
    }
  }

  /** Storing under a key keeps the keys unique. */
  lemma PutUnique<K>(d: Dict<K>, k: K, v: real)
    requires UniqueKeys(d)
    ensures UniqueKeys(Put(d, k, v))
  {
    var r := Put(d, k, v);
    assert forall i :: 0 <= i < |r| ==> r[i].0 == Keys(r)[i];
    assert forall i :: 0 <= i < |d| ==> d[i].0 == Keys(d)[i];
  }

  /** Taking out the entry at `k` takes its count out of the multiset. */
  lemma RemoveAtMultiset<K>(b: Dict<K>, k: nat)
    requires k < |b|
    ensures multiset(b[..k] + b[k + 1..]) == multiset(b) - multiset{b[k]}
  {
    assert b == b[..k] + [b[k]] + b[k + 1..];
    assert multiset(b) == multiset(b[..k]) + multiset{b[k]} + multiset(b[k + 1..]);
  }

  /** Taking out the entry at `k` takes its value out of the sum. */
  lemma RemoveAtSum<K>(b: Dict<K>, k: nat)
    requires k < |b|
    ensures Sum(Values(b)) == Sum(Values(b[..k] + b[k + 1..])) + b[k].1
  {
    var front := Values(b[..k]);
    var back := Values(b[k + 1..]);
    assert Values(b) == (front + [b[k].1]) + back;
    assert Values(b[..k] + b[k + 1..]) == front + back;
    SumAppend(front + [b[k].1], back);
    SumSnoc(front, b[k].1);
    SumAppend(front, back);
  }

  /** Splitting off the last entry of `a`: the rest is `a` with that entry
      removed, as a multiset and as a sum. */
  lemma DropLast<K>(a: Dict<K>)
    requires a != []
    ensures multiset(a[..|a| - 1]) == multiset(a) - multiset{a[|a| - 1]}
    ensures a[|a| - 1] in multiset(a)
    ensures Sum(Values(a)) == Sum(Values(a[..|a| - 1])) + a[|a| - 1].1
  {
    var x := a[|a| - 1];
    var a' := a[..|a| - 1];
    assert a == a' + [x];
    assert multiset(a) == multiset(a') + multiset{x};
    assert Values(a) == Values(a') + [x.1];
    SumSnoc(Values(a'), x.1);
  }

  /** An entry of the multiset of `b` sits at some index of `b`. */
  lemma IndexOf<K>(b: Dict<K>, x: (K, real)) returns (k: nat)
    requires x in multiset(b)
    ensures k < |b| && b[k] == x
  {
    assert x in b;
    k :| 0 <= k < |b| && b[k] == x;
  }

  /** Reordering the entries does not change the sum of the values. */
  lemma {:induction false} PermutationValuesSum<K>(a: Dict<K>, b: Dict<K>)
    requires multiset(a) == multiset(b)
    ensures Sum(Values(a)) == Sum(Values(b))
    decreases |a|
  {
    if a == [] {
      assert |b| == |multiset(b)| == 0;
    } else {
      DropLast(a);
      var k := IndexOf(b, a[|a| - 1]);
      RemoveAtMultiset(b, k);
      PermutationValuesSum(a[..|a| - 1], b[..k] + b[k + 1..]);
      RemoveAtSum(b, k);
    }
  }

  /** `obj[k] = (obj[k] || 0) + x`. */
  function AddTo<K(==)>(d: Dict<K>, k: K, x: real): Dict<K> {
    Put(d, k, Get(d, k).GetOr(0.0) + x)
  }

  /** Storing a value changes the sum of all values by the difference with
      the value it replaces. */
  lemma {:induction false} PutValuesSum<K>(d: Dict<K>, k: K, v: real)
    requires UniqueKeys(d)
    ensures Sum(Values(Put(d, k, v))) == Sum(Values(d)) - Get(d, k).GetOr(0.0) + v
    decreases |d|
  {
    if d == [] {
      assert Values(Put(d, k, v)) == [v];
      assert [v][..0] == [];
    } else {
      assert Values(d) == [d[0].1] + Values(d[1..]);
      SumFront(d[0].1, Values(d[1..]));
      if d[0].0 == k {
        assert Values(Put(d, k, v)) == [v] + Values(d[1..]);
        SumFront(v, Values(d[1..]));
      } else {
        assert UniqueKeys(d[1..]);
        PutValuesSum(d[1..], k, v);
        assert Values(Put(d, k, v)) == [d[0].1] + Values(Put(d[1..], k, v));
        SumFront(d[0].1, Values(Put(d[1..], k, v)));
      }
    }
  }

  /** Adding to a key's entry changes that entry only. */
  lemma {:induction false} AddToGet<K>(d: Dict<K>, k: K, x: real, k': K)
    ensures Get(AddTo(d, k, x), k') == if k' == k then Some(Get(d, k).GetOr(0.0) + x) else Get(d, k')
  {
    var v := Get(d, k).GetOr(0.0) + x;
    assert AddTo(d, k, x) == Put(d, k, v);
    PutGet(d, k, v, k');
  }

  /** Adding to a key's entry adds to the sum of all values. */
  lemma {:induction false} AddToValuesSum<K>(d: Dict<K>, k: K, x: real)
    requires UniqueKeys(d)
    ensures Sum(Values(AddTo(d, k, x))) == Sum(Values(d)) + x
  {
    PutValuesSum(d, k, Get(d, k).GetOr(0.0) + x);
  }

  // ---------------------------------------------------------------------------
  // Grouping (key, amount) pairs
  // ---------------------------------------------------------------------------

  /** The sum of the amounts paired with `k`. */
  function TotalFor<K(==)>(pairs: Dict<K>, k: K): real {
    if pairs == [] then 0.0
    else TotalFor(pairs[..|pairs| - 1], k) + (if pairs[|pairs| - 1].0 == k then pairs[|pairs| - 1].1 else 0.0)
  }

  /** `pairs.reduce((acc, [k, x]) => { acc[k] = (acc[k] || 0) + x; return acc }, {})`. */
  function Group<K(==)>(pairs: Dict<K>): Dict<K> {
    if pairs == [] then []
    else AddTo(Group(pairs[..|pairs| - 1]), pairs[|pairs| - 1].0, pairs[|pairs| - 1].1)
  }

  /** Grouping one more pair adds its amount to the entry of its key. */
  lemma GroupStep<K>(pairs: Dict<K>)
    requires pairs != []
    ensures Group(pairs) == AddTo(Group(pairs[..|pairs| - 1]), pairs[|pairs| - 1].0, pairs[|pairs| - 1].1)
  {
  }

  /** The keys of the pairs are those before the last pair and its key. */
  lemma KeysDropLast<K>(pairs: Dict<K>)
    requires pairs != []
    ensures Keys(pairs) == Keys(pairs[..|pairs| - 1]) + [pairs[|pairs| - 1].0]
  {
  }

  /** A grouping never holds a key twice. */
  lemma {:induction false} GroupUnique<K>(pairs: Dict<K>)
    ensures UniqueKeys(Group(pairs))
    decreases |pairs|
  {
    if pairs != [] {
      var init := pairs[..|pairs| - 1];
      var last := pairs[|pairs| - 1];
      GroupUnique(init);
      PutUnique(Group(init), last.0, Get(Group(init), last.0).GetOr(0.0) + last.1);
    }
  }

  /** Each key present in the pairs appears in the grouping, holding the sum
      of its amounts; a key absent from the pairs is absent. */
  lemma {:induction false} GroupGet<K>(pairs: Dict<K>, k: K)
    ensures Get(Group(pairs), k) == if k in Keys(pairs) then Some(TotalFor(pairs, k)) else None
    decreases |pairs|
  {
    if pairs != [] {
      var init := pairs[..|pairs| - 1];
      var last := pairs[|pairs| - 1];
      GroupStep(pairs);
      AddToGet(Group(init), last.0, last.1, k);
      KeysDropLast(pairs);
      GroupGet(init, k);
      if k != last.0 {
        assert TotalFor(pairs, k) == TotalFor(init, k);
      } else if k !in Keys(init) {
        TotalForAbsent(init, k);
      }
    }
  }

  /** A key that never occurs totals zero. */
  lemma {:induction false} TotalForAbsent<K>(pairs: Dict<K>, k: K)
    requires k !in Keys(pairs)
    ensures TotalFor(pairs, k) == 0.0
    decreases |pairs|
  {
    if pairs != [] {
      var init := pairs[..|pairs| - 1];
      KeysDropLast(pairs);
      TotalForAbsent(init, k);
    }
  }

  /** The keys of the grouping are exactly the keys of the pairs. */
  lemma GroupKeys<K>(pairs: Dict<K>)
    ensures forall k :: k in Keys(Group(pairs)) <==> k in Keys(pairs)
  {
    forall k {
      GroupGet(pairs, k);
    }
  }

  /** Grouping one more pair adds its amount to the grouped values. */
  lemma {:induction false} GroupStepSum<K>(pairs: Dict<K>)
    requires pairs != []
    ensures Sum(Values(Group(pairs))) == Sum(Values(Group(pairs[..|pairs| - 1]))) + pairs[|pairs| - 1].1
  {
    var init := pairs[..|pairs| - 1];
    var last := pairs[|pairs| - 1];
    GroupStep(pairs);
    GroupUnique(init);
    AddToValuesSum(Group(init), last.0, last.1);
  }

  /** Grouping neither drops nor double-counts: the grouped values add up to
      the sum of all amounts. */
  lemma {:induction false} GroupValuesSum<K>(pairs: Dict<K>)
    ensures Sum(Values(Group(pairs))) == Sum(Values(pairs))
    decreases |pairs|
  {
    if pairs != [] {
      GroupStepSum(pairs);
      GroupValuesSum(pairs[..|pairs| - 1]);
      DropLast(pairs);
    }
  }
}

=== FILE: lists.dfy ===
/** The array operations the components and hooks chain together:
    `filter`, `slice(0, n)`, and the Id-keyed replace and remove the hooks
    apply after a service call resolves. */
module Lists {

  /** `r` is some of the elements of `s`, in the order `s` has them. */
  ghost predicate IsSubsequence<T>(r: seq<T>, s: seq<T>)
    decreases |s|
  {
    if r == [] then true
    else if s == [] then false
    else (r[0] == s[0] && IsSubsequence(r[1..], s[1..])) || IsSubsequence(r, s[1..])
  }

  /** Every sequence is a subsequence of itself. */
  lemma {:induction false} SubsequenceOfItself<T>(s: seq<T>)
    ensures IsSubsequence(s, s)
    decreases |s|
  {
    if s != [] {
      SubsequenceOfItself(s[1..]);
    }
  }

  /** The elements of a subsequence are elements of the sequence. */
  lemma {:induction false} SubsequenceMembers<T>(r: seq<T>, s: seq<T>)
    requires IsSubsequence(r, s)
    ensures forall i :: 0 <= i < |r| ==> r[i] in s
    decreases |s|
  {
    if r != [] {
      if r[0] == s[0] && IsSubsequence(r[1..], s[1..]) {
        SubsequenceMembers(r[1..], s[1..]);
        forall i | 1 <= i < |r| ensures r[i] in s {
          assert r[i] == r[1..][i - 1];
          assert r[i] in s[1..];
        }
      } else {
        SubsequenceMembers(r, s[1..]);
        forall i | 0 <= i < |r| ensures r[i] in s {
          assert r[i] in s[1..];
        }
      }
    }
  }

  /** A subsequence of a sequence whose elements have distinct keys has
      distinct keys too. */
  lemma {:induction false} SubsequenceDistinct<T, K>(r: seq<T>, s: seq<T>, key: T -> K)
    requires IsSubsequence(r, s)
    requires forall i, j :: 0 <= i < j < |s| ==> key(s[i]) != key(s[j])
    ensures forall i, j :: 0 <= i < j < |r| ==> key(r[i]) != key(r[j])
    decreases |s|
  {
    if r != [] {
      if r[0] == s[0] && IsSubsequence(r[1..], s[1..]) {
        SubsequenceDistinct(r[1..], s[1..], key);
        SubsequenceMembers(r[1..], s[1..]);
        forall i, j | 0 <= i < j < |r| ensures key(r[i]) != key(r[j]) {
          assert r[j] == r[1..][j - 1];
          if i == 0 {
            var k :| 0 <= k < |s[1..]| && s[1..][k] == r[j];
            assert s[k + 1] == r[j];
          } else {
            assert r[i] == r[1..][i - 1];
          }
        }
      } else {
        SubsequenceDistinct(r, s[1..], key);
      }
    }
  }

  /** `s.filter(p)`. */
  function Filter<T>(s: seq<T>, p: T -> bool): (r: seq<T>)
    ensures |r| <= |s|
    ensures forall i :: 0 <= i < |r| ==> r[i] in s && p(r[i])
    ensures forall i :: 0 <= i < |s| && p(s[i]) ==> s[i] in r
    ensures multiset(r) <= multiset(s)
  {
    if s == [] then []
    else
      assert s == [s[0]] + s[1..];
      (if p(s[0]) then [s[0]] else []) + Filter(s[1..], p)
  }

  /** The filter keeps every passing element as often as `s` holds it and
      drops every other one. */
  lemma {:induction false} FilterCounts<T>(s: seq<T>, p: T -> bool, x: T)
    ensures multiset(Filter(s, p))[x] == if p(x) then multiset(s)[x] else 0
    decreases |s|
  {
    if s == [] {
    } else {
      FilterCounts(s[1..], p, x);
      assert s == [s[0]] + s[1..];
      var head := if p(s[0]) then [s[0]] else [];
      assert Filter(s, p) == head + Filter(s[1..], p);
      assert multiset(Filter(s, p)) == multiset(head) + multiset(Filter(s[1..], p));
      assert multiset(s) == multiset([s[0]]) + multiset(s[1..]);
    }
  }

  /** The filter keeps the order of `s`. */
  lemma {:induction false} FilterKeepsOrder<T>(s: seq<T>, p: T -> bool)
    ensures IsSubsequence(Filter(s, p), s)
    decreases |s|
  {
    if s != [] {
      FilterKeepsOrder(s[1..], p);
      var rest := Filter(s[1..], p);
      if p(s[0]) {
        assert Filter(s, p) == [s[0]] + rest;
        assert ([s[0]] + rest)[1..] == rest;
      } else {
        assert Filter(s, p) == rest;
        if rest != [] {
          assert IsSubsequence(rest, s[1..]);
        }
      }
    }
  }

  /** Filtering a concatenation filters each part and keeps them in order,
      so the kept elements keep their relative order. */
  lemma {:induction false} FilterAppend<T>(a: seq<T>, b: seq<T>, p: T -> bool)
    ensures Filter(a + b, p) == Filter(a, p) + Filter(b, p)
    decreases |a|
  {
    if a != [] {
      assert (a + b)[1..] == a[1..] + b;
      FilterAppend(a[1..], b, p);
    } else {
      assert a + b == b;
    }
  }

  /** When every element passes, the filter is the identity. */
  lemma {:induction false} FilterAll<T>(s: seq<T>, p: T -> bool)
    requires forall i :: 0 <= i < |s| ==> p(s[i])
    ensures Filter(s, p) == s
    decreases |s|
  {
    if s != [] {
      FilterAll(s[1..], p);
    }
  }

  /** Two tests that agree on every element keep the same elements. */
  lemma {:induction false} FilterSameTest<T>(s: seq<T>, p: T -> bool, q: T -> bool)
    requires forall i :: 0 <= i < |s| ==> p(s[i]) == q(s[i])
    ensures Filter(s, p) == Filter(s, q)
    decreases |s|
  {
    if s != [] {
      FilterSameTest(s[1..], p, q);
    }
  }

  /** `s.slice(0, n)`: the first `min(n, |s|)` elements. */
  function Take<T>(s: seq<T>, n: nat): (r: seq<T>)
    ensures |r| == if n < |s| then n else |s|
    ensures r <= s
  {
    if n < |s| then s[..n] else s
  }

  /** `list.map(x => x.Id === id ? updated : x)`. */
  function ReplaceById<T>(s: seq<T>, idOf: T -> int, id: int, updated: T): (r: seq<T>)
    ensures |r| == |s|
    ensures forall i :: 0 <= i < |s| ==> r[i] == if idOf(s[i]) == id then updated else s[i]
  {
    seq(|s|, i requires 0 <= i < |s| => if idOf(s[i]) == id then updated else s[i])
  }

  /** `list.filter(x => x.Id !== id)`: every element carrying the Id goes,
      every other one stays as often as it was there, in its order. */
  function RemoveById<T>(s: seq<T>, idOf: T -> int, id: int): (r: seq<T>)
    ensures forall i :: 0 <= i < |r| ==> r[i] in s && idOf(r[i]) != id
    ensures forall i :: 0 <= i < |s| && idOf(s[i]) != id ==> s[i] in r
    ensures forall i :: 0 <= i < |s| ==> multiset(r)[s[i]] == if idOf(s[i]) == id then 0 else multiset(s)[s[i]]
    ensures IsSubsequence(r, s)
    ensures |r| <= |s|
  {
    var p := x => idOf(x) != id;
    FilterKeepsOrder(s, p);
    forall i | 0 <= i < |s| ensures multiset(Filter(s, p))[s[i]] == if idOf(s[i]) == id then 0 else multiset(s)[s[i]] {
      FilterCounts(s, p, s[i]);
    }
    Filter(s, p)
  }

  /** Removing an Id that no element carries leaves the list as it was. */
  lemma RemoveAbsent<T>(s: seq<T>, idOf: T -> int, id: int)
    requires forall i :: 0 <= i < |s| ==> idOf(s[i]) != id
    ensures RemoveById(s, idOf, id) == s
  {
    FilterAll(s, x => idOf(x) != id);
  }

  /** Removing from a concatenation removes from each part. */
  lemma RemoveByIdAppend<T>(a: seq<T>, b: seq<T>, idOf: T -> int, id: int)
    ensures RemoveById(a + b, idOf, id) == RemoveById(a, idOf, id) + RemoveById(b, idOf, id)
  {
    FilterAppend(a, b, x => idOf(x) != id);
  }

  /** A lone element carrying the Id is removed. */
  lemma RemoveByIdSingle<T>(x: T, idOf: T -> int)
    ensures RemoveById([x], idOf, idOf(x)) == []
  {
    assert [x][1..] == [];
  }

  /** Replacing under an Id that no element carries leaves the list as it was. */
  lemma ReplaceAbsent<T>(s: seq<T>, idOf: T -> int, id: int, updated: T)
    requires forall i :: 0 <= i < |s| ==> idOf(s[i]) != id
    ensures ReplaceById(s, idOf, id, updated) == s
  {
  }
}

=== FILE: progress.dfy ===
/** The progress bar: `Math.min((value / max) * 100, 100)` percent, with an
    over-budget flag read from that clamped percentage. */
module ProgressBar {
  import opened JsNumbers

  /** `max = 100` when the caller gives none. */
  const DefaultMax: real := 100.0

  /** `Math.min((value / max) * 100, 100)`. */
  function Percentage(value: real, max: real): (p: Num)
    ensures max > 0.0 && value <= max ==> p == Finite(value / max * 100.0)
    ensures max > 0.0 && value > max ==> p == Finite(100.0)
    ensures max > 0.0 && value >= 0.0 ==> p.Finite? && 0.0 <= p.value <= 100.0
    ensures max == 0.0 && value > 0.0 ==> p == Finite(100.0)
  {
    Min(Scale(Div(value, max), 100.0), 100.0)
  }

  /** A bar given no maximum shows the value itself as the percentage,
      capped at 100. */
  lemma DefaultMaxShowsValue(value: real)
    ensures value <= 100.0 ==> Percentage(value, DefaultMax) == Finite(value)
    ensures value > 100.0 ==> Percentage(value, DefaultMax) == Finite(100.0)
  {
    assert value / DefaultMax * 100.0 == value;
  }

  /** `percentage > 100` as written: it tests the clamped value. */
  predicate IsOverBudgetAsWritten(value: real, max: real) {
    Greater(Percentage(value, max), 100.0)
  }

  /** The flag as written is false for every input, so the red styling of
      the label and the bar can never be chosen. */
  lemma OverBudgetAsWrittenNeverHolds(value: real, max: real)
    ensures !IsOverBudgetAsWritten(value, max)
  {
    MinNotGreater(Scale(Div(value, max), 100.0), 100.0);
  }

  /** The flag as the styling intends it: the unclamped ratio above 100%. */
  predicate IsOverBudget(value: real, max: real) {
    Greater(Scale(Div(value, max), 100.0), 100.0)
  }

  /** With a positive maximum, over budget means spending above the maximum;
      with no maximum, any spending is over. */
  lemma OverBudgetMeaning(value: real, max: real)
    ensures max > 0.0 ==> (IsOverBudget(value, max) <==> value > max)
    ensures max == 0.0 ==> (IsOverBudget(value, max) <==> value > 0.0)
  {
    if max > 0.0 {
      calc <==> {
        value / max * 100.0 > 100.0;
        value / max > 1.0;
        { assert value == value / max * max; }
        value > max;
      }
    }
  }

  /** `width: min(percentage, 100)%`: the bar never overflows its track. */
  function Width(value: real, max: real): (w: Num)
    ensures !Greater(w, 100.0)
  {
    MinNotGreater(Percentage(value, max), 100.0);
    Min(Percentage(value, max), 100.0)
  }
}

=== FILE: records.dfy ===
/** The records the views and hooks work on, in the field names the
    components read. Amounts are exact reals; a field JavaScript may find
    `undefined` is an `Option`. */
module Records {
  import opened Wrappers
  import opened Dates
  import opened Ledger

  /** One spending entry. */
  datatype Expense = Expense(
    id: int,
    amount: real,
    category: string,
    description: string,
    date: Date,
    createdAt: string)

  /** A savings goal; priority 1 is the most urgent. */
  datatype Goal = Goal(
    id: int,
    name: string,
    targetAmount: real,
    currentAmount: real,
    deadline: Date,
    priority: int,
    category: string)

  /** A monthly budget: per-category limits in insertion order, and the
      total, which may be missing. */
  datatype Budget = Budget(
    id: int,
    month: string,
    year: int,
    categories: Dict<string>,
    totalBudget: Option<real>,
    isActive: bool)

  /** A bank account as the list reads it, with the storage field names'
      optional values. */
  datatype BankAccount = BankAccount(
    id: int,
    name: Option<string>,
    bankName: Option<string>,
    accountNumber: Option<string>,
    accountType: Option<string>,
    currency: Option<string>,
    balance: Option<real>,
    tags: Option<string>)

  function ExpenseId(e: Expense): int { e.id }
  function GoalId(g: Goal): int { g.id }
  function BudgetId(b: Budget): int { b.id }
  function AccountId(a: BankAccount): int { a.id }

  function Amounts(es: seq<Expense>): (r: seq<real>)
    ensures |r| == |es|
    ensures forall i :: 0 <= i < |es| ==> r[i] == es[i].amount
  {
    seq(|es|, i requires 0 <= i < |es| => es[i].amount)
  }

  /** The (category, amount) pair of each expense, in order. */
  function CategoryAmounts(es: seq<Expense>): (r: Dict<string>)
    ensures |r| == |es|
    ensures forall i :: 0 <= i < |es| ==> r[i] == (es[i].category, es[i].amount)
  {
    seq(|es|, i requires 0 <= i < |es| => (es[i].category, es[i].amount))
  }

  /** The amounts of the pairs are the amounts of the expenses. */
  lemma CategoryAmountsValues(es: seq<Expense>)
    ensures Values(CategoryAmounts(es)) == Amounts(es)
  {
  }

  /** `expenses.reduce((sum, e) => sum + e.amount, 0)`. */
  function Spending(es: seq<Expense>): real {
    Sum(Amounts(es))
  }

  /** One more expense adds its amount to the spending. */
  lemma SpendingSnoc(es: seq<Expense>, e: Expense)
    ensures Spending(es + [e]) == Spending(es) + e.amount
  {
    var a := Amounts(es + [e]);
    assert a == Amounts(es) + [e.amount] by {
      assert |a| == |Amounts(es) + [e.amount]|;
      forall i | 0 <= i < |a| ensures a[i] == (Amounts(es) + [e.amount])[i] {
        if i < |es| {
          assert (es + [e])[i] == es[i];
        }
      }
    }
    SumSnoc(Amounts(es), e.amount);
  }
}

=== FILE: sorting.dfy ===
/** `Array.prototype.sort` with a comparator. The language guarantees a
    stable sort; the model is the stable insertion sort, where
    `le(a, b)` stands for `compare(a, b) <= 0` ("a may stay before b"). */
module Sorting {

  /** `le` is a total preorder: every pair is comparable and the order is
      transitive, as any comparator built from numeric differences is. */
  ghost predicate IsTotalPreorder<T(!new)>(le: (T, T) -> bool) {
    (forall a, b :: le(a, b) || le(b, a)) &&
    (forall a, b, c :: le(a, b) && le(b, c) ==> le(a, c))
  }

  /** Every element may stay before every later one. */
  predicate SortedBy<T>(s: seq<T>, le: (T, T) -> bool) {
    forall i, j :: 0 <= i < j < |s| ==> le(s[i], s[j])
  }

  /** Places `x` in front of the first element it may precede. */
  function Insert<T>(x: T, s: seq<T>, le: (T, T) -> bool): (r: seq<T>)
    ensures multiset(r) == multiset(s) + multiset{x}
    ensures |r| == |s| + 1
  {
    if s == [] then [x]
    else if le(x, s[0]) then [x] + s
    else
      var r := [s[0]] + Insert(x, s[1..], le);
      assert s == [s[0]] + s[1..];
      r
  }

  /** `[...s].sort(compare)`: the elements of `s`, each one stably inserted
      into the sorted rest. */
  function Sort<T>(s: seq<T>, le: (T, T) -> bool): (r: seq<T>)
    ensures multiset(r) == multiset(s)
    ensures |r| == |s|
  {
    if s == [] then []
    else
      assert s == [s[0]] + s[1..];
      Insert(s[0], Sort(s[1..], le), le)
  }

  lemma {:induction false} InsertSorted<T(!new)>(x: T, s: seq<T>, le: (T, T) -> bool)
    requires IsTotalPreorder(le)
    requires SortedBy(s, le)
    ensures SortedBy(Insert(x, s, le), le)
    decreases |s|
  {
    if s != [] && !le(x, s[0]) {
      InsertSorted(x, s[1..], le);
      var t := Insert(x, s[1..], le);
      assert le(s[0], x);
      assert forall j :: 0 <= j < |t| ==> t[j] in multiset(s[1..]) + multiset{x};
      forall j | 0 <= j < |t|
        ensures le(s[0], t[j])
      {
        assert t[j] in multiset(s[1..]) + multiset{x};
        if t[j] != x {
          assert t[j] in s[1..];
          var m :| 0 <= m < |s[1..]| && s[1..][m] == t[j];
          assert s[m + 1] == t[j];
        }
      }
    }
  }

  /** With a consistent comparator the result is in order. */
  lemma {:induction false} SortSorted<T(!new)>(s: seq<T>, le: (T, T) -> bool)
    requires IsTotalPreorder(le)
    ensures SortedBy(Sort(s, le), le)
    decreases |s|
  {
    if s != [] {
      SortSorted(s[1..], le);
      InsertSorted(s[0], Sort(s[1..], le), le);
    }
  }

  /** A prefix of a sorted sequence is sorted, and every element after it
      may follow every element in it. */
  lemma SortedPrefix<T>(s: seq<T>, n: nat, le: (T, T) -> bool)
    requires n <= |s| && SortedBy(s, le)
    ensures SortedBy(s[..n], le)
    ensures forall x :: x in multiset(s) - multiset(s[..n]) ==> forall i :: 0 <= i < n ==> le(s[i], x)
  {
    var rest := s[n..];
    assert s == s[..n] + rest;
    assert multiset(s) - multiset(s[..n]) == multiset(rest) by {
      assert multiset(s) == multiset(s[..n]) + multiset(rest);
    }
    forall x | x in multiset(rest)
      ensures forall i :: 0 <= i < n ==> le(s[i], x)
    {
      var j :| 0 <= j < |rest| && rest[j] == x;
      assert s[n + j] == x;
    }
  }

  /** A comparator that reports every pair as equal leaves the order as it
      was: the sort is stable. */
  lemma {:induction false} SortKeepsTies<T>(s: seq<T>, le: (T, T) -> bool)
    requires forall a, b :: le(a, b)
    ensures Sort(s, le) == s
    decreases |s|
  {
    if s != [] {
      SortKeepsTies(s[1..], le);
      assert s == [s[0]] + s[1..];
    }
  }

  /** No two elements share a key. */
  predicate DistinctBy<T, K(==)>(s: seq<T>, key: T -> K) {
    forall i, j :: 0 <= i < j < |s| ==> key(s[i]) != key(s[j])
  }

  lemma {:induction false} InsertDistinct<T, K>(x: T, s: seq<T>, le: (T, T) -> bool, key: T -> K)
    requires DistinctBy(s, key)
    requires forall i :: 0 <= i < |s| ==> key(s[i]) != key(x)
    ensures DistinctBy(Insert(x, s, le), key)
    decreases |s|
  {
    if s != [] && !le(x, s[0]) {
      InsertDistinct(x, s[1..], le, key);
      var t := Insert(x, s[1..], le);
      forall j | 0 <= j < |t|
        ensures key(s[0]) != key(t[j])
      {
        assert t[j] in multiset(s[1..]) + multiset{x};
        if t[j] != x {
          assert t[j] in s[1..];
          var m :| 0 <= m < |s[1..]| && s[1..][m] == t[j];
          assert s[m + 1] == t[j];
        }
      }
    }
  }

  /** Sorting keeps keys distinct: it only reorders. */
  lemma {:induction false} SortDistinct<T, K>(s: seq<T>, le: (T, T) -> bool, key: T -> K)
    requires DistinctBy(s, key)
    ensures DistinctBy(Sort(s, le), key)
    decreases |s|
  {
    if s != [] {
      var rest := Sort(s[1..], le);
      SortDistinct(s[1..], le, key);
      forall i | 0 <= i < |rest|
        ensures key(rest[i]) != key(s[0])
      {
        assert rest[i] in multiset(s[1..]);
        var m :| 0 <= m < |s[1..]| && s[1..][m] == rest[i];
        assert s[m + 1] == rest[i];
      }
      InsertDistinct(s[0], rest, le, key);
    }
  }
}

=== FILE: spending_chart.dfy ===
/** The spending-over-time chart: a date window chosen by the time range,
    the expenses inside it, and their amounts bucketed per month
    ('3months') or per day (otherwise). */
module SpendingChart {
  import opened Wrappers
  import opened Dates
  import opened Ledger
  import opened Lists
  import opened Records

  /** A bucket's label: `format(d, 'MMM yyyy')` or `format(d, 'MMM d')`. */
  datatype Label = MonthYear(month: int, year: int) | MonthDay(month: int, day: int)

  function MonthLabel(d: Date): Label { MonthYear(d.month, d.year) }
  function DayLabel(d: Date): Label { MonthDay(d.month, d.day) }

  /** The time range the buttons select; 'month' initially. */
  const InitialRange: string := "month"

  /** The inclusive window `[startDate, endDate]` for a range, "now" being
      on `today`. The 'week' window ends at "now", which is after the start
      of today, so at day granularity it ends on today. */
  function Window(range: string, today: Date): (w: (Date, Date))
    ensures AtOrBefore(w.0, w.1)
  {
    match range
    case "week" => (DaysBack(today, 6), today)
    case "3months" => (MonthsBack(today, 2), MonthEnd(today))
    case _ => (MonthStart(today), MonthEnd(today))
  }

  /** The expenses dated inside the window, each as often as listed and in
      the list's order. */
  function InRange(expenses: seq<Expense>, range: string, today: Date): (r: seq<Expense>)
    ensures forall i :: 0 <= i < |r| ==> r[i] in expenses && InWindow(r[i].date, Window(range, today).0, Window(range, today).1)
    ensures forall i :: 0 <= i < |expenses| && InWindow(expenses[i].date, Window(range, today).0, Window(range, today).1) ==>
      expenses[i] in r
    ensures forall i :: 0 <= i < |expenses| ==>
      multiset(r)[expenses[i]] ==
        if InWindow(expenses[i].date, Window(range, today).0, Window(range, today).1) then multiset(expenses)[expenses[i]] else 0
    ensures IsSubsequence(r, expenses)
  {
    var w := Window(range, today);
    var p := (e: Expense) => InWindow(e.date, w.0, w.1);
    FilterKeepsOrder(expenses, p);
    forall i | 0 <= i < |expenses|
      ensures multiset(Filter(expenses, p))[expenses[i]] == if p(expenses[i]) then multiset(expenses)[expenses[i]] else 0
    {
      FilterCounts(expenses, p, expenses[i]);
    }
    Filter(expenses, p)
  }

  /** `eachDayOfInterval({ start, end })` for the day-bucketed ranges: days
      of the window, seven ending today for 'week'. */
  function DaysOf(range: string, today: Date): (days: seq<Date>)
    requires range != "3months"
    ensures forall i :: 0 <= i < |days| ==> InWindow(days[i], Window(range, today).0, Window(range, today).1)
    ensures range == "week" ==> |days| == 7 && days[6] == today
  {
    if range == "week" then DaysEndingAt(today, 7)
    else
      var days := DaysOfMonth(today);
      forall i | 0 <= i < |days| ensures InWindow(days[i], MonthStart(today), MonthEnd(today)) {
        MonthWindow(days[i], today);
      }
      days
  }

  /** The days listed are exactly the dates of the window. */
  lemma DaysOfCoverWindow(d: Date, range: string, today: Date)
    requires range != "3months"
    ensures d in DaysOf(range, today) <==> InWindow(d, Window(range, today).0, Window(range, today).1)
  {
    WindowMeaning(d, range, today);
    if range != "week" {
      DaysOfMonthMembers(d, today);
    }
  }

  // ---------------------------------------------------------------------------
  // Buckets
  // ---------------------------------------------------------------------------

  /** `days.forEach(day => dailyData[format(day, 'MMM d')] = 0)`. */
  function EmptyBuckets(days: seq<Date>): Dict<Label> {
    if days == [] then []
    else Put(EmptyBuckets(days[..|days| - 1]), DayLabel(days[|days| - 1]), 0.0)
  }

  /** `if (dailyData.hasOwnProperty(k)) dailyData[k] += amount`. */
  function AddIfPresent(d: Dict<Label>, k: Label, amount: real): (r: Dict<Label>)
    ensures Keys(r) == Keys(d)
  {
    if k in Keys(d) then Put(d, k, Get(d, k).value + amount) else d
  }

  function AddAll(d: Dict<Label>, es: seq<Expense>): (r: Dict<Label>)
    ensures Keys(r) == Keys(d)
  {
    if es == [] then d
    else AddIfPresent(AddAll(d, es[..|es| - 1]), DayLabel(es[|es| - 1].date), es[|es| - 1].amount)
  }

  /** Each expense's 'MMM yyyy' label with its amount. */
  function MonthPairs(es: seq<Expense>): (pairs: Dict<Label>)
    ensures |pairs| == |es|
  {
    seq(|es|, i requires 0 <= i < |es| => (MonthLabel(es[i].date), es[i].amount))
  }

  /** Each expense's 'MMM d' label with its amount. */
  function DayPairs(es: seq<Expense>): (pairs: Dict<Label>)
    ensures |pairs| == |es|
  {
    seq(|es|, i requires 0 <= i < |es| => (DayLabel(es[i].date), es[i].amount))
  }

  /** The 'MMM d' labels of the days, in order. */
  function DayLabels(days: seq<Date>): (labels: seq<Label>)
    ensures |labels| == |days|
  {
    seq(|days|, i requires 0 <= i < |days| => DayLabel(days[i]))
  }

  /** The chart's x-axis labels and data. */
  datatype Series = Series(categories: seq<Label>, data: seq<real>)

  /** The x-axis labels and, index for index, the spending under each: per
      month with spending in the window for '3months', per day of the window
      otherwise. */
  function ChartData(expenses: seq<Expense>, range: string, today: Date): (s: Series)
    ensures |s.categories| == |s.data|
    ensures range == "3months" ==>
      var pairs := MonthPairs(InRange(expenses, range, today));
      && (forall k :: k in s.categories <==> k in Keys(pairs))
      && (forall i, j :: 0 <= i < j < |s.categories| ==> s.categories[i] != s.categories[j])
      && (forall i :: 0 <= i < |s.data| ==> s.data[i] == TotalFor(pairs, s.categories[i]))
    ensures range != "3months" ==>
      && s.categories == DayLabels(DaysOf(range, today))
      && (forall i :: 0 <= i < |s.data| ==> s.data[i] == TotalFor(DayPairs(InRange(expenses, range, today)), s.categories[i]))
  {
    var filtered := InRange(expenses, range, today);
    if range == "3months" then
      var buckets := Group(MonthPairs(filtered));
      MonthSeries(filtered);
      Series(Keys(buckets), Values(buckets))
    else
      var days := DaysOf(range, today);
      DaysOfLabelsDistinct(range, today);
      InRangeHasDays(expenses, range, today);
      var buckets := AddAll(EmptyBuckets(days), filtered);
      DaySeries(days, filtered);
      Series(Keys(buckets), Values(buckets))
  }

  // ---------------------------------------------------------------------------
  // Windows
  // ---------------------------------------------------------------------------

  /** 'week' holds today and the six days before it; '3months' the current
      month and the two before it; 'month' and any other range the current
      month. All three are inclusive at both ends. */
  lemma WindowMeaning(d: Date, range: string, today: Date)
    ensures var w := Window(range, today);
            range == "week" ==> (InWindow(d, w.0, w.1) <==> d in DaysEndingAt(today, 7))
    ensures var w := Window(range, today);
            range == "3months" ==> (InWindow(d, w.0, w.1) <==> MonthIndex(today) - 2 <= MonthIndex(d) <= MonthIndex(today))
    ensures var w := Window(range, today);
            range !in {"week", "3months"} ==> (InWindow(d, w.0, w.1) <==> SameMonth(d, today))
  {
    if range == "week" {
      assert Window(range, today) == (DaysBack(today, 6), today);
      if InWindow(d, DaysBack(today, 6), today) {
        DaysEndingAtCovers(d, today, 7);
      }
    } else if range == "3months" {
      assert Window(range, today) == (MonthsBack(today, 2), MonthEnd(today));
      MonthsWindow(d, today, 2);
    } else {
      assert Window(range, today) == (MonthStart(today), MonthEnd(today));
      MonthWindow(d, today);
    }
  }

  // ---------------------------------------------------------------------------
  // Day buckets
  // ---------------------------------------------------------------------------

  lemma {:induction false} EmptyBucketsShape(days: seq<Date>)
    ensures UniqueKeys(EmptyBuckets(days))
    ensures forall i :: 0 <= i < |days| ==> DayLabel(days[i]) in Keys(EmptyBuckets(days))
    ensures forall i :: 0 <= i < |EmptyBuckets(days)| ==> EmptyBuckets(days)[i].1 == 0.0
    decreases |days|
  {
    if days != [] {
      var init := days[..|days| - 1];
      var d := EmptyBuckets(init);
      var k := DayLabel(days[|days| - 1]);
      EmptyBucketsShape(init);
      PutUnique(d, k, 0.0);
      PutZero(d, k);
      forall i | 0 <= i < |days| ensures DayLabel(days[i]) in Keys(EmptyBuckets(days)) {
        if i < |days| - 1 {
          assert days[i] == init[i];
        }
      }
    }
  }

  /** Storing 0 into all-zero buckets leaves them all zero. */
  lemma {:induction false} PutZero(d: Dict<Label>, k: Label)
    requires forall i :: 0 <= i < |d| ==> d[i].1 == 0.0
    ensures forall i :: 0 <= i < |Put(d, k, 0.0)| ==> Put(d, k, 0.0)[i].1 == 0.0
    decreases |d|
  {
    if d != [] && d[0].0 != k {
      PutZero(d[1..], k);
    }
  }

  /** Every day of the interval has a bucket, and every bucket starts at 0. */
  lemma EveryDayStartsAtZero(days: seq<Date>, i: int)
    requires 0 <= i < |days|
    ensures Get(EmptyBuckets(days), DayLabel(days[i])) == Some(0.0)
  {
    EmptyBucketsShape(days);
    var d := EmptyBuckets(days);
    var k :| 0 <= k < |d| && d[k].0 == DayLabel(days[i]);
    GetUnique(d, k);
  }

  /** Adding to a bucket that exists adds to the total and keeps the
      buckets distinct. */
  lemma AddIfPresentSum(d: Dict<Label>, k: Label, amount: real)
    requires UniqueKeys(d) && k in Keys(d)
    ensures UniqueKeys(AddIfPresent(d, k, amount))
    ensures Sum(Values(AddIfPresent(d, k, amount))) == Sum(Values(d)) + amount
  {
    var v := Get(d, k).value + amount;
    assert AddIfPresent(d, k, amount) == Put(d, k, v);
    PutUnique(d, k, v);
    PutValuesSum(d, k, v);
  }

  /** Adding expenses whose day is among the buckets adds their amounts to
      the bucket total, and keeps the buckets distinct. */
  lemma {:induction false} AddAllSum(d: Dict<Label>, es: seq<Expense>)
    requires UniqueKeys(d)
    requires forall i :: 0 <= i < |es| ==> DayLabel(es[i].date) in Keys(d)
    ensures UniqueKeys(AddAll(d, es))
    ensures Sum(Values(AddAll(d, es))) == Sum(Values(d)) + Spending(es)
    decreases |es|
  {
    if es != [] {
      var init := es[..|es| - 1];
      var last := es[|es| - 1];
      var k := DayLabel(last.date);
      assert es == init + [last];
      assert forall i :: 0 <= i < |init| ==> DayLabel(init[i].date) in Keys(d) by {
        assert forall i :: 0 <= i < |init| ==> init[i] == es[i];
      }
      AddAllSum(d, init);
      var acc := AddAll(d, init);
      assert k in Keys(acc);
      AddIfPresentSum(acc, k, last.amount);
      assert AddAll(d, es) == AddIfPresent(acc, k, last.amount);
      SpendingSnoc(init, last);
    }
  }

  /** In the day-bucketed ranges every expense in the window falls on a day
      of the interval, so no amount is dropped: the buckets add up to the
      spending in the window. */
  lemma DayBucketsKeepAll(expenses: seq<Expense>, range: string, today: Date)
    requires range != "3months"
    ensures Sum(ChartData(expenses, range, today).data) == Spending(InRange(expenses, range, today))
  {
    var filtered := InRange(expenses, range, today);
    var days := DaysOf(range, today);
    EmptyBucketsShape(days);
    forall i | 0 <= i < |filtered|
      ensures DayLabel(filtered[i].date) in Keys(EmptyBuckets(days))
    {
      var d := filtered[i].date;
      DaysOfCoverWindow(d, range, today);
      var j :| 0 <= j < |days| && days[j] == d;
    }
    AddAllSum(EmptyBuckets(days), filtered);
    SumZero(Values(EmptyBuckets(days)));
  }

  // ---------------------------------------------------------------------------
  // Month buckets
  // ---------------------------------------------------------------------------

  /** In '3months' mode there is one bucket per month with spending in the
      window, holding the sum of that month's amounts, and the buckets add up
      to the spending in the window. */
  lemma MonthBuckets(expenses: seq<Expense>, today: Date, key: Label)
    ensures var filtered := InRange(expenses, "3months", today);
            var pairs := MonthPairs(filtered);
            var s := ChartData(expenses, "3months", today);
            && (key in s.categories <==> key in Keys(pairs))
            && (key in Keys(pairs) ==> Get(Group(pairs), key) == Some(TotalFor(pairs, key)))
            && Sum(s.data) == Spending(filtered)
  {
    var filtered := InRange(expenses, "3months", today);
    var pairs := MonthPairs(filtered);
    GroupGet(pairs, key);
    GroupValuesSum(pairs);
    assert Values(pairs) == Amounts(filtered);
  }

  /** Every expense kept in a day-bucketed range falls on a listed day. */
  lemma InRangeHasDays(expenses: seq<Expense>, range: string, today: Date)
    requires range != "3months"
    ensures var filtered := InRange(expenses, range, today);
            forall i :: 0 <= i < |filtered| ==> DayLabel(filtered[i].date) in DayLabels(DaysOf(range, today))
  {
    var filtered := InRange(expenses, range, today);
    var days := DaysOf(range, today);
    forall i | 0 <= i < |filtered| ensures DayLabel(filtered[i].date) in DayLabels(days) {
      DaysOfCoverWindow(filtered[i].date, range, today);
      var j :| 0 <= j < |days| && days[j] == filtered[i].date;
      assert DayLabels(days)[j] == DayLabel(filtered[i].date);
    }
  }

  /** Grouped per month, each bucket holds the sum of its month's amounts,
      and there is one bucket per month spent in. */
  lemma MonthSeries(es: seq<Expense>)
    ensures var buckets := Group(MonthPairs(es));
            && UniqueKeys(buckets)
            && (forall k :: k in Keys(buckets) <==> k in Keys(MonthPairs(es)))
            && (forall i :: 0 <= i < |buckets| ==> buckets[i].1 == TotalFor(MonthPairs(es), buckets[i].0))
  {
    var pairs := MonthPairs(es);
    var buckets := Group(pairs);
    GroupUnique(pairs);
    GroupKeys(pairs);
    forall i | 0 <= i < |buckets| ensures buckets[i].1 == TotalFor(pairs, buckets[i].0) {
      GetUnique(buckets, i);
      GroupGet(pairs, buckets[i].0);
    }
  }

  /** The days of a day-bucketed range carry distinct labels: a month's days
      differ in their day, and seven consecutive days cannot repeat one. */
  lemma DaysOfLabelsDistinct(range: string, today: Date)
    requires range != "3months"
    ensures var days := DaysOf(range, today);
            forall i, j :: 0 <= i < j < |days| ==> DayLabel(days[i]) != DayLabel(days[j])
  {
    var days := DaysOf(range, today);
    if range == "week" {
      assert days == DaysEndingAt(today, 7);
      DaysEndingAtDistinctDays(today, 7);
    } else {
      assert days == DaysOfMonth(today);
      assert forall i :: 0 <= i < |days| ==> DayLabel(days[i]) == MonthDay(today.month, i + 1);
    }
  }

  /** With no label twice, the buckets are the days' labels in order. */
  lemma {:induction false} EmptyBucketsKeys(days: seq<Date>)
    requires forall i, j :: 0 <= i < j < |days| ==> DayLabel(days[i]) != DayLabel(days[j])
    ensures Keys(EmptyBuckets(days)) == DayLabels(days)
    decreases |days|
  {
    if days != [] {
      var init := days[..|days| - 1];
      var k := DayLabel(days[|days| - 1]);
      assert forall i :: 0 <= i < |init| ==> init[i] == days[i];
      EmptyBucketsKeys(init);
      assert k !in DayLabels(init);
      assert DayLabels(days) == DayLabels(init) + [k];
    }
  }

  /** Adding expenses whose day has a bucket adds to each bucket exactly the
      amounts of its day. */
  lemma {:induction false} AddAllGet(d: Dict<Label>, es: seq<Expense>, k: Label)
    requires k in Keys(d)
    requires forall i :: 0 <= i < |es| ==> DayLabel(es[i].date) in Keys(d)
    ensures Get(AddAll(d, es), k).Some?
    ensures Get(AddAll(d, es), k).value == Get(d, k).value + TotalFor(DayPairs(es), k)
    decreases |es|
  {
    if es == [] {
      assert AddAll(d, es) == d;
    } else {
      var init := es[..|es| - 1];
      var last := es[|es| - 1];
      var acc := AddAll(d, init);
      var lk := DayLabel(last.date);
      var a, t0, t := Get(d, k).value, TotalFor(DayPairs(init), k), TotalFor(DayPairs(es), k);
      assert Get(acc, k).Some? && Get(acc, k).value == a + t0 by {
        assert forall i :: 0 <= i < |init| ==> init[i] == es[i];
        AddAllGet(d, init, k);
      }
      assert Get(AddAll(d, es), k).Some? && Get(AddAll(d, es), k).value == a + t by {
        DayPairsTotal(es, k);
        assert AddAll(d, es) == AddIfPresent(acc, lk, last.amount);
        AddIfPresentGet(acc, lk, last.amount, k);
      }
    }
  }

  /** The total for a label over one more expense. */
  lemma DayPairsTotal(es: seq<Expense>, k: Label)
    requires es != []
    ensures TotalFor(DayPairs(es), k) ==
      TotalFor(DayPairs(es[..|es| - 1]), k) + (if DayLabel(es[|es| - 1].date) == k then es[|es| - 1].amount else 0.0)
  {
    assert DayPairs(es)[..|es| - 1] == DayPairs(es[..|es| - 1]);
  }

  /** Adding to an existing bucket changes that bucket only. */
  lemma AddIfPresentGet(d: Dict<Label>, k: Label, amount: real, k': Label)
    requires k in Keys(d)
    ensures Get(AddIfPresent(d, k, amount), k') == if k' == k then Some(Get(d, k).value + amount) else Get(d, k')
  {
    PutGet(d, k, Get(d, k).value + amount, k');
  }

  /** Bucketed per day, the buckets are the days' labels in order, each
      holding the sum of that day's amounts. */
  lemma DaySeries(days: seq<Date>, es: seq<Expense>)
    requires forall i, j :: 0 <= i < j < |days| ==> DayLabel(days[i]) != DayLabel(days[j])
    requires forall i :: 0 <= i < |es| ==> DayLabel(es[i].date) in DayLabels(days)
    ensures var buckets := AddAll(EmptyBuckets(days), es);
            && Keys(buckets) == DayLabels(days)
            && (forall i :: 0 <= i < |buckets| ==> buckets[i].1 == TotalFor(DayPairs(es), buckets[i].0))
  {
    var empty := EmptyBuckets(days);
    var buckets := AddAll(empty, es);
    EmptyBucketsKeys(days);
    EmptyBucketsShape(days);
    AddAllSum(empty, es);
    forall i | 0 <= i < |buckets| ensures buckets[i].1 == TotalFor(DayPairs(es), buckets[i].0) {
      assert buckets[i].0 == Keys(buckets)[i] == DayLabel(days[i]);
      GetUnique(buckets, i);
      EveryDayStartsAtZero(days, i);
      AddAllGet(empty, es, buckets[i].0);
    }
  }
}

=== FILE: text.dfy ===
/** The JavaScript string operations the application relies on, over
    `string` = `seq<char>`: trimming, ASCII lower-casing, substring search,
    splitting on one separator, code-unit ordering, decimal rendering of
    integers, and the two number coercions (`parseFloat` and `Number`). */
module Text {
  import opened Wrappers

  // ---------------------------------------------------------------------------
  // Whitespace and trimming
  // ---------------------------------------------------------------------------

  /** The white space `String.prototype.trim` strips: the ASCII set and the
      no-break space (the other Unicode spaces are left out). */
  predicate IsSpace(c: char) {
    c == ' ' || c == '\t' || c == '\n' || c == '\r' || c == '\U{B}' || c == '\U{C}' || c == '\U{A0}'
  }

  /** `s.trimStart()`: a suffix of `s`; what it drops is white space and it
      does not begin with white space. */
  function TrimStart(s: string): (r: string)
    ensures |r| <= |s| && r == s[|s| - |r|..]
    ensures forall i :: 0 <= i < |s| - |r| ==> IsSpace(s[i])
    ensures r != [] ==> !IsSpace(r[0])
  {
    if |s| > 0 && IsSpace(s[0]) then
      var r := TrimStart(s[1..]);
      assert s[1..][|s| - 1 - |r|..] == s[|s| - |r|..];
      assert forall i :: 1 <= i < |s| - |r| ==> s[i] == s[1..][i - 1];
      r
    else s
  }

  /** `s.trimEnd()`: a prefix of `s`; what it drops is white space and it does
      not end with white space. */
  function TrimEnd(s: string): (r: string)
    ensures |r| <= |s| && r == s[..|r|]
    ensures forall i :: |r| <= i < |s| ==> IsSpace(s[i])
    ensures r != [] ==> !IsSpace(r[|r| - 1])
  {
    if |s| > 0 && IsSpace(s[|s| - 1]) then
      var r := TrimEnd(s[..|s| - 1]);
      assert s[..|s| - 1][..|r|] == s[..|r|];
      assert forall i :: |r| <= i < |s| - 1 ==> s[i] == s[..|s| - 1][i];
      r
    else s
  }

  /** `s.trim()`: a contiguous piece of `s` with no white space at either end,
      everything outside it being white space; empty exactly when `s` is all
      white space. */
  function Trim(s: string): (r: string)
    ensures |r| <= |s|
    ensures r != [] ==> !IsSpace(r[0]) && !IsSpace(r[|r| - 1])
    ensures r == [] <==> forall i :: 0 <= i < |s| ==> IsSpace(s[i])
  {
    var t := TrimStart(s);
    var r := TrimEnd(t);
    if r == [] then
      assert t == [];
      r
    else
      assert !IsSpace(t[0]);
      r
  }

  /** `!s.trim()`: the string is empty or white space only. */
  predicate IsBlank(s: string) {
    Trim(s) == []
  }

  /** A string that neither starts nor ends with white space trims to
      itself. */
  lemma TrimUnpadded(s: string)
    requires s != [] && !IsSpace(s[0]) && !IsSpace(s[|s| - 1])
    ensures Trim(s) == s
  {
    assert TrimStart(s) == s;
    assert TrimEnd(s) == s;
  }

  // ---------------------------------------------------------------------------
  // Case folding and search
  // ---------------------------------------------------------------------------

  /** `toLowerCase` on one character, for the ASCII letters only. */
  function LowerChar(c: char): char {
    if 'A' <= c <= 'Z' then (c as int + 32) as char else c
  }

  /** `s.toLowerCase()`, ASCII letters only. */
  function Lower(s: string): (r: string)
    ensures |r| == |s|
    ensures forall i :: 0 <= i < |s| ==> r[i] == LowerChar(s[i])
  {
    if s == [] then [] else [LowerChar(s[0])] + Lower(s[1..])
  }

  /** Lower-casing twice changes nothing more than lower-casing once. */
  lemma LowerIdempotent(s: string)
    ensures Lower(Lower(s)) == Lower(s)
  {
    assert forall i :: 0 <= i < |s| ==> LowerChar(LowerChar(s[i])) == LowerChar(s[i]);
  }

  /** `sub` occurs in `s` starting at position `i`. */
  predicate OccursAt(s: string, sub: string, i: int) {
    0 <= i <= |s| - |sub| && s[i..i + |sub|] == sub
  }

  /** `s.includes(sub)`: `sub` occurs at some position of `s`. */
  predicate Contains(s: string, sub: string) {
    exists i :: 0 <= i <= |s| - |sub| && OccursAt(s, sub, i)
  }

  /** Every string includes the empty string. */
  lemma ContainsEmpty(s: string)
    ensures Contains(s, [])
  {
    assert OccursAt(s, [], 0);
  }

  // ---------------------------------------------------------------------------
  // Splitting on a one-character separator
  // ---------------------------------------------------------------------------

  /** How many times `c` occurs in `s`. */
  function Count(s: string, c: char): nat {
    if s == [] then 0 else (if s[0] == c then 1 else 0) + Count(s[1..], c)
  }

  /** `s.split(sep)` for a one-character separator: one more piece than there
      are separators, and no piece contains the separator. */
  function Split(s: string, sep: char): (parts: seq<string>)
    ensures |parts| == Count(s, sep) + 1
    ensures forall i :: 0 <= i < |parts| ==> sep !in parts[i]
  {
    if s == [] then [[]]
    else
      var rest := Split(s[1..], sep);
      if s[0] == sep then [[]] + rest
      else [[s[0]] + rest[0]] + rest[1..]
  }

  /** `parts.join(sep)`. */
  function Join(parts: seq<string>, sep: char): string
    requires |parts| >= 1
  {
    if |parts| == 1 then parts[0] else parts[0] + [sep] + Join(parts[1..], sep)
  }

  /** Joining the pieces of a split gives back the string. */
  lemma {:induction false} JoinSplit(s: string, sep: char)
    ensures Join(Split(s, sep), sep) == s
  {
    if s != [] {
      var rest := Split(s[1..], sep);
      JoinSplit(s[1..], sep);
      if s[0] == sep {
        assert Split(s, sep) == [[]] + rest;
        assert ([[]] + rest)[1..] == rest;
        assert Join(Split(s, sep), sep) == [] + [sep] + Join(rest, sep);
      } else {
        var parts := [[s[0]] + rest[0]] + rest[1..];
        assert Split(s, sep) == parts;
        if |rest| == 1 {
          assert Join(parts, sep) == [s[0]] + rest[0];
        } else {
          assert parts[1..] == rest[1..];
          assert Join(rest, sep) == rest[0] + [sep] + Join(rest[1..], sep);
          assert Join(parts, sep) == ([s[0]] + rest[0]) + [sep] + Join(rest[1..], sep);
        }
      }
    }
  }

  /** Splitting a join of separator-free pieces gives back the pieces. */
  lemma {:induction false} SplitJoin(parts: seq<string>, sep: char)
    requires |parts| >= 1
    requires forall i :: 0 <= i < |parts| ==> sep !in parts[i]
    ensures Split(Join(parts, sep), sep) == parts
  {
    if |parts| == 1 {
      SplitFree(parts[0], sep);
    } else {
      SplitJoin(parts[1..], sep);
      SplitPrefix(parts[0], Join(parts[1..], sep), sep);
      assert Join(parts, sep) == parts[0] + ([sep] + Join(parts[1..], sep));
      assert [parts[0]] + parts[1..] == parts;
    }
  }

  /** A string without the separator splits into itself alone. */
  lemma {:induction false} SplitFree(s: string, sep: char)
    requires sep !in s
    ensures Split(s, sep) == [s]
  {
    if s != [] {
      SplitFree(s[1..], sep);
      assert [s[0]] + s[1..] == s;
    }
  }

  /** A separator-free head followed by the separator contributes exactly one
      piece in front of the pieces of the tail. */
  lemma {:induction false} SplitPrefix(head: string, tail: string, sep: char)
    requires sep !in head
    ensures Split(head + [sep] + tail, sep) == [head] + Split(tail, sep)
  {
    if head == [] {
      assert head + [sep] + tail == [sep] + tail;
      assert ([sep] + tail)[1..] == tail;
    } else {
      var s := head + [sep] + tail;
      assert s[0] == head[0];
      assert s[1..] == head[1..] + [sep] + tail;
      SplitPrefix(head[1..], tail, sep);
      assert [head[0]] + head[1..] == head;
    }
  }

  // ---------------------------------------------------------------------------
  // Character-code ordering (`<` on strings; `localeCompare` is taken to be this)
  // ---------------------------------------------------------------------------

  /** `a < b` on strings: lexicographic by character code. */
  predicate StrLess(a: string, b: string)
    decreases |a|
  {
    if |a| == 0 then |b| > 0
    else if |b| == 0 then false
    else if a[0] != b[0] then a[0] < b[0]
    else StrLess(a[1..], b[1..])
  }

  /** `a <= b` on strings. */
  predicate StrLe(a: string, b: string) {
    !StrLess(b, a)
  }

  lemma {:induction false} StrLessIrreflexive(a: string)
    ensures !StrLess(a, a)
  {
    if |a| > 0 {
      StrLessIrreflexive(a[1..]);
    }
  }

  lemma {:induction false} StrLessTransitive(a: string, b: string, c: string)
    requires StrLess(a, b) && StrLess(b, c)
    ensures StrLess(a, c)
    decreases |a|
  {
    if |a| > 0 && |b| > 0 && |c| > 0 && a[0] == b[0] && b[0] == c[0] {
      StrLessTransitive(a[1..], b[1..], c[1..]);
    }
  }

  /** Any two strings are equal or ordered one way or the other. */
  lemma {:induction false} StrLessTrichotomy(a: string, b: string)
    ensures a == b || StrLess(a, b) || StrLess(b, a)
    decreases |a|
  {
    if |a| > 0 && |b| > 0 && a[0] == b[0] {
      StrLessTrichotomy(a[1..], b[1..]);
      if a[1..] == b[1..] {
        assert a == [a[0]] + a[1..] && b == [b[0]] + b[1..];
      }
    }
  }

  // ---------------------------------------------------------------------------
  // Decimal digits
  // ---------------------------------------------------------------------------

  predicate IsDigit(c: char) {
    '0' <= c <= '9'
  }

  predicate AllDigits(s: string) {
    forall i :: 0 <= i < |s| ==> IsDigit(s[i])
  }

  /** The length of the run of digits at the head of `s`. */
  function DigitRun(s: string): (n: nat)
    ensures n <= |s| && AllDigits(s[..n])
    ensures n < |s| ==> !IsDigit(s[n])
  {
    if |s| > 0 && IsDigit(s[0]) then
      var n := 1 + DigitRun(s[1..]);
      assert s[..n] == [s[0]] + s[1..][..n - 1];
      n
    else 0
  }

  function DigitValue(c: char): nat
    requires IsDigit(c)
  {
    c as int - '0' as int
  }

  /** The value of a digit string read most significant digit first. */
  function DigitsValue(ds: string): nat
    requires AllDigits(ds)
  {
    if ds == [] then 0 else DigitsValue(ds[..|ds| - 1]) * 10 + DigitValue(ds[|ds| - 1])
  }

  function Pow10(k: nat): (p: nat)
    ensures p > 0
  {
    if k == 0 then 1 else 10 * Pow10(k - 1)
  }

  function DigitChar(d: nat): (c: char)
    requires d < 10
    ensures IsDigit(c) && DigitValue(c) == d
  {
    ('0' as int + d) as char
  }

  /** The decimal rendering of a natural number, as template literals print
      it: digits only, no leading zero except for 0 itself. */
  function NatToString(n: nat): (s: string)
    ensures |s| >= 1 && AllDigits(s)
    ensures s[0] == '0' ==> n == 0
  {
    if n < 10 then [DigitChar(n)]
    else NatToString(n / 10) + [DigitChar(n % 10)]
  }

  /** Reading the rendering back gives the number. */
  lemma {:induction false} NatToStringValue(n: nat)
    ensures DigitsValue(NatToString(n)) == n
  {
    if n >= 10 {
      NatToStringValue(n / 10);
      var s := NatToString(n);
      assert s[..|s| - 1] == NatToString(n / 10);
    }
  }

  /** The decimal rendering of an integer, with a leading '-' when negative. */
  function IntToString(n: int): (s: string)
    ensures |s| >= 1 && (s[0] == '-' <==> n < 0)
  {
    if n < 0 then "-" + NatToString(-n) else NatToString(n)
  }

  // ---------------------------------------------------------------------------
  // Number coercions
  // ---------------------------------------------------------------------------

  /** A decimal numeral found at the head of a string: how many characters it
      spans and its value. */
  datatype Numeral = Numeral(length: nat, value: real)

  /** The longest decimal numeral at the head of `t`: an optional sign, integer
      digits, an optional '.' with fraction digits, and at least one digit in
      all. Exponents, `Infinity` and hexadecimal are left out. */
  function LeadingNumeral(t: string): (r: Option<Numeral>)
    ensures r.Some? ==> 0 < r.value.length <= |t|
    ensures r.Some? ==> exists i :: 0 <= i < r.value.length && IsDigit(t[i])
    ensures |t| > 0 && IsDigit(t[0]) ==> r.Some?
  {
    var signLen := if |t| > 0 && (t[0] == '-' || t[0] == '+') then 1 else 0;
    var u := t[signLen..];
    var a := DigitRun(u);
    var hasDot := a < |u| && u[a] == '.';
    var frac := if hasDot then u[a + 1..][..DigitRun(u[a + 1..])] else [];
    var b := |frac|;
    if a + b == 0 then
      None
    else
      var magnitude := DigitsValue(u[..a]) as real + DigitsValue(frac) as real / Pow10(b) as real;
      var len := signLen + a + (if hasDot then 1 + b else 0);
      assert a > 0 ==> IsDigit(u[0]) && t[signLen] == u[0];
      assert a == 0 ==> IsDigit(u[1]) && t[signLen + 1] == u[1];
      Some(Numeral(len, if signLen == 1 && t[0] == '-' then -magnitude else magnitude))
  }

  /** `parseFloat(s)`: the leading numeral after leading white space; `None`
      stands for `NaN`. */
  function ParseFloat(s: string): Option<real> {
    match LeadingNumeral(TrimStart(s))
    case Some(n) => Some(n.value)
    case None => None
  }

  /** `Number(s)`, the coercion applied by `<`, `<=` and `>` to a string: the
      whole trimmed string must be one numeral, and the blank string is 0;
      `None` stands for `NaN`. */
  function ToNumber(s: string): Option<real> {
    var t := Trim(s);
    if t == [] then Some(0.0)
    else match LeadingNumeral(t)
      case Some(n) => if n.length == |t| then Some(n.value) else None
      case None => None
  }

  /** A string of digits is one digit run. */
  lemma {:induction false} DigitRunAll(ds: string)
    requires AllDigits(ds)
    ensures DigitRun(ds) == |ds|
  {
    if ds != [] {
      DigitRunAll(ds[1..]);
    }
  }

  /** A non-empty digit string is a numeral spanning the whole string. */
  lemma LeadingNumeralDigits(ds: string)
    requires ds != [] && AllDigits(ds)
    ensures LeadingNumeral(ds) == Some(Numeral(|ds|, DigitsValue(ds) as real))
  {
    DigitRunAll(ds);
    assert ds[0..] == ds;
    assert ds[..|ds|] == ds;
  }

  /** A digit string parses to its own value. */
  lemma ParseFloatDigits(ds: string)
    requires ds != [] && AllDigits(ds)
    ensures ParseFloat(ds) == Some(DigitsValue(ds) as real)
    ensures ToNumber(ds) == Some(DigitsValue(ds) as real)
  {
    assert !IsSpace(ds[0]) && !IsSpace(ds[|ds| - 1]);
    assert TrimStart(ds) == ds;
    assert TrimEnd(ds) == ds;
    LeadingNumeralDigits(ds);
  }

  /** The rendering of a natural number reads back as that number under both
      coercions. */
  lemma NatToStringParses(n: nat)
    ensures ParseFloat(NatToString(n)) == Some(n as real)
    ensures ToNumber(NatToString(n)) == Some(n as real)
  {
    NatToStringValue(n);
    ParseFloatDigits(NatToString(n));
  }

  /** `parseInt(s, 10)`: the optionally signed run of digits after leading
      white space; `None` stands for `NaN`. */
  function ParseInt(s: string): Option<int> {
    var t := TrimStart(s);
    var signLen := if |t| > 0 && (t[0] == '-' || t[0] == '+') then 1 else 0;
    var u := t[signLen..];
    var n := DigitRun(u);
    if n == 0 then None
    else Some(if signLen == 1 && t[0] == '-' then -(DigitsValue(u[..n]) as int) else DigitsValue(u[..n]))
  }

  /** A digit string reads as its value. */
  lemma ParseIntDigits(ds: string)
    requires ds != [] && AllDigits(ds)
    ensures ParseInt(ds) == Some(DigitsValue(ds) as int)
  {
    DigitRunAll(ds);
    assert TrimStart(ds) == ds by {
      assert !IsSpace(ds[0]);
    }
    assert ds[0..] == ds;
    assert ds[..|ds|] == ds;
  }

  /** A '-' followed by a digit string reads as the negated value. */
  lemma ParseIntNegatedDigits(ds: string)
    requires ds != [] && AllDigits(ds)
    ensures ParseInt("-" + ds) == Some(-(DigitsValue(ds) as int))
  {
    var s := "-" + ds;
    DigitRunAll(ds);
    assert TrimStart(s) == s by {
      assert !IsSpace(s[0]);
    }
    assert s[1..] == ds;
    assert ds[..|ds|] == ds;
  }

  /** An integer's rendering reads back as that integer. */
  lemma IntToStringParsesInt(n: int)
    ensures ParseInt(IntToString(n)) == Some(n)
  {
    if n < 0 {
      NatToStringValue(-n);
      ParseIntNegatedDigits(NatToString(-n));
    } else {
      NatToStringValue(n);
      ParseIntDigits(NatToString(n));
    }
  }
}

=== FILE: user_slice.dfy ===
/** The signed-in user held in the Redux store: the user object, as a map
    from property names to values, and the authentication flag. */
module UserSlice {
  import opened Wrappers

  datatype State<V> = State(user: Option<map<string, V>>, isAuthenticated: bool)

  /** No user, not authenticated. */
  function Initial<V>(): State<V> {
    State(None, false)
  }

  /** `setUser`: the payload (an object, or `null`) is stored, and the flag
      says whether there is one. */
  function SetUser<V>(s: State<V>, payload: Option<map<string, V>>): (r: State<V>)
    ensures r.user == payload
    ensures r.isAuthenticated <==> payload.Some?
  {
    State(payload, payload.Some?)
  }

  /** `updateProfile`: without a user nothing happens; otherwise the
      payload's properties are merged over the user's. */
  function UpdateProfile<V>(s: State<V>, payload: map<string, V>): (r: State<V>)
    ensures r.isAuthenticated == s.isAuthenticated
    ensures s.user.None? ==> r == s
    ensures s.user.Some? ==> r.user.Some? && r.user.value.Keys == s.user.value.Keys + payload.Keys
    ensures s.user.Some? ==> forall k :: k in payload ==> r.user.value[k] == payload[k]
    ensures s.user.Some? ==> forall k :: k in s.user.value && k !in payload ==> r.user.value[k] == s.user.value[k]
  {
    match s.user
    case None => s
    case Some(u) => s.(user := Some(u + payload))
  }

  /** `clearUser`: back to the initial state. */
  function ClearUser<V>(s: State<V>): (r: State<V>)
    ensures r.user.None? && !r.isAuthenticated
  {
    State(None, false)
  }

  /** Merging the same profile twice is merging it once. */
  lemma UpdateProfileIdempotent<V>(s: State<V>, payload: map<string, V>)
    ensures UpdateProfile(UpdateProfile(s, payload), payload) == UpdateProfile(s, payload)
  {
    if s.user.Some? {
      var once := UpdateProfile(s, payload).user.value;
      var twice := UpdateProfile(UpdateProfile(s, payload), payload).user.value;
      assert twice.Keys == once.Keys;
      assert forall k :: k in twice ==> twice[k] == once[k];
      assert twice == once;
    }
  }

  /** Whatever state the store is in, clearing leads to the initial state,
      and a later `setUser` is independent of what was there. */
  lemma ClearThenSet<V>(s: State<V>, t: State<V>, payload: Option<map<string, V>>)
    ensures ClearUser(s) == Initial()
    ensures SetUser(ClearUser(s), payload) == SetUser(t, payload)
  {
  }

  /** The flag only follows `setUser` and `clearUser`: a profile update can
      never sign a user in. */
  lemma UpdateNeverSignsIn<V>(s: State<V>, payload: map<string, V>)
    ensures !s.isAuthenticated ==> !UpdateProfile(s, payload).isAuthenticated
    ensures s == Initial() ==> UpdateProfile(s, payload) == Initial()
  {
  }
}

=== FILE: wrappers.dfy ===
/** Optional values and fallible results, standing in for JavaScript's
    `null`/`undefined`/`NaN` and for rejected promises. */
module Wrappers {

  datatype Option<+T> = None | Some(value: T) {

    /** `x ?? d`: the value, or the default when there is none. */
    function GetOr(default: T): T {
      match this
      case Some(v) => v
      case None => default
    }
  }

  /** The outcome of an awaited service call: the resolved value or the
      rejection message. */
  datatype Result<+T> = Ok(value: T) | Err(message: string)
}
